=== FILE: README.md ===
# Research-room server core, modelled in Dafny

This project models the server core of a multi-agent research workspace, together with the
pure helpers of its browser client:

- contexts (Domain, Project, Room and Agent nodes) that inherit properties, traits and a model
  configuration along their parent chain;
- conversations in which a user message is answered by the agents whose type fits the
  conversation's phase (research, analysis, synthesis, report);
- a provider router that tries the credentialed LLM providers in order, or answers with a mock;
- the memory pipeline, which extracts, classifies, scores and stores memories from each message;
- two entity graphs, one keyed by entity id and one by entity name;
- the report generator, which writes an outline and then one section per outline entry;
- the HTTP routes for conversations, the workflow state and memory listing.

Each source file becomes one module. `Models` holds the records and their schema validity.
`Inheritance` resolves effective contexts and `Llm` is the router. `Prompting` builds the agent
prompt and `Turn` handles a user turn. `MemoryPipeline`, `JsonText`, `Entities`, `NameGraph` and
`Report` hold the services. `ConversationRoutes`, `WorkflowRoutes`, `MemoryRoutes` and `Client`
cover the routes and the client helpers. `Wrappers`, `Js`, `Text` and `Sorting` are helpers.

The world outside the program is passed in as parameters:

- `parse: string -> Option<Json>` stands for `JSON.parse`, and `show` for `String()` of a
  non-string value.
- A provider call is an oracle `(Config, Request) -> Attempt`.
- The process environment is a `map<string, string>`.
- Clock readings are integer parameters.
- `num` stands for `Number()`, with `None` for NaN.
- `textMatch` stands for MongoDB's `$text` search.
- `collate` stands for `localeCompare(...) <= 0`.

Collections are maps, and listings are sequences in collection scan order. Database sorts are
modelled by a stable sort, so ties keep scan order: that is one of the orders the database may
return.

## Model

| member | source | states |
|---|---|---|
| Models.CreateContext | server/src/db/models/Context.ts:5-32 | creation succeeds exactly when the draft has a name, a known level, a known role that is present at the Agent level, each supplied trait of the eight in [0,1], and a model block with a provider and a model when one is given; a created context is schema-valid; each of the eight traits is the supplied value or 0.5; a model block gets temperature 0.2, maxTokens 2048 and contextWindow 128000; an Agent without an agentType, a trait outside [0,1], an unknown level or a model block without a model are rejected |
| Models.CreateConversation | server/src/db/models/Conversation.ts:3-22 | a conversation needs a non-empty title; it starts active, in phase "research", with no topic and an empty phase history |
| Models.CreateMessage | server/src/db/models/Message.ts:3-16 | a message is stored unchanged exactly when its content is non-empty; otherwise the create fails with the required-content error |
| Models.CreateMemory | server/src/db/models/Memory.ts:3-29 | a stored memory is schema-valid; confidence defaults to 0.7, importance to 0.5, phase to "research" and timestamp to the current time |
| Inheritance.Assign | server/src/contexts/inheritance.ts:27-32 | assigning a context's entries only appends to the origin list; a path that already has an origin keeps it |
| Inheritance.Fold | server/src/contexts/inheritance.ts:34-38 | processing the lineage only appends origins: properties first, then traits, then the model block when there is one |
| Inheritance.OriginIsFirstDefinition | server/src/contexts/inheritance.ts:26-38 | the origin of every path is the value and id of the first context in processing order that defines it; no such context means no origin |
| Inheritance.FirstWriteWins | server/src/contexts/inheritance.ts:30 | contexts processed later never change an origin that is already recorded |
| Inheritance.AncestorsTakePrecedence | server/src/contexts/inheritance.ts:15-17 | the lineage is processed ancestors first, so an ancestor's definition wins over the node's own; the node's value shows only when no ancestor defines the path |
| Inheritance.TraitsComeFromFirstNode | server/src/contexts/inheritance.ts:36 | every context carries all eight traits, so each trait's origin is the first context processed |
| Inheritance.ModelPathsNeedModelBlock | server/src/contexts/inheritance.ts:37 | a context without a model block contributes a "modelConfig.k" path only through a property literally named so |
| Inheritance.RebuildReadsBack | server/src/contexts/inheritance.ts:40-48 | when no origin path is a prefix of another, the rebuilt object reads back each origin's value at its dotted path and has nothing at any other path |
| Inheritance.RebuildOmits | server/src/contexts/inheritance.ts:40-48 | a top-level key that no origin path starts with is absent from the rebuilt object |
| Inheritance.GetEffectiveContext | server/src/contexts/inheritance.ts:4-49 | an unknown id fails with "Context not found"; otherwise the origins are those collected over the processing order, and the effective object is their rebuild; prefix-free origins always rebuild |
| Inheritance.ResolvedPaths | server/src/contexts/inheritance.ts:26-49 | in a resolved context every defined path reads back the first definer's value |
| Llm.ProviderNamed | server/src/services/llm/index.ts:2 | a provider name is recognised exactly when it is one of the three providers' names |
| Llm.DefaultModel | server/src/services/llm/index.ts:36-40 | the default model is the provider's environment variable when it is set and non-empty, else the built-in model name |
| Llm.HasKeyIffNonBlank | server/src/services/llm/index.ts:42-45 | a provider counts as credentialed exactly when its key variable is set and holds a character other than the whitespace and line terminators `trim()` removes |
| Llm.AvailableProviders | server/src/services/llm/index.ts:47-51 | exactly the credentialed providers are available, in the order gemini, openai, anthropic |
| Llm.MockResponse | server/src/services/llm/index.ts:70-79 | the mock reply comes from provider "mock" and model "mock-model", reports zero usage, and quotes at most the first 800 characters of the prompt |
| Llm.Explicit | server/src/services/llm/index.ts:82-87 | the explicit list keeps exactly the credentialed candidates, in order, with the default model filled in where none is given |
| Llm.ExplicitCredentialed | server/src/services/llm/index.ts:82-87 | every kept explicit configuration belongs to a credentialed provider |
| Llm.Secondary | server/src/services/llm/index.ts:89-100 | the appended fallbacks are exactly the available providers not yet listed, each with its default model |
| Llm.Normalize | server/src/services/llm/index.ts:82-100 | the call list is the explicit list followed by the other credentialed providers; it covers every credentialed provider, only those, and is empty exactly when none is credentialed |
| Llm.Dispatch | server/src/services/llm/index.ts:70-122 | in mock mode the mock answers; with no configurations the no-provider error is thrown; otherwise configurations are tried in order until one succeeds, and every earlier one threw |
| Llm.TryEach | server/src/services/llm/index.ts:109-122 | the configurations tried are a prefix of the list; success comes from the last one tried; total failure rethrows the last error, or the "All LLM fallbacks failed" message when the error was nullish |
| Llm.WithFallback | server/src/services/llm/index.ts:66-123 | the router dispatches over the normalised list; with no credentialed provider it throws the no-provider error |
| Llm.OnlyCredentialedCalled | server/src/services/llm/index.ts:82-100 | the router never calls a provider that has no key |
| Llm.FirstSuccessWins | server/src/services/llm/index.ts:109-118 | when the first k configurations fail and the next succeeds, exactly k + 1 are tried and that success is returned |
| Prompting.RoleNamed | server/src/services/agents/prompting.ts:2 | exactly the four role names are accepted |
| Prompting.ListedTraits | server/src/services/agents/prompting.ts:12-20 | every role lists the five common traits; the Author also lists structure, clarity and persuasiveness |
| Prompting.TopicText | server/src/services/agents/prompting.ts:23 | a missing or null topic reads "general"; a string topic is used as it is |
| Prompting.TraitLines | server/src/services/agents/prompting.ts:12-20 | one line per listed trait, in order |
| Prompting.PromptLines | server/src/services/agents/prompting.ts:22-29 | the prompt has 16 lines for the Author and 14 for the other roles |
| Prompting.PromptHead | server/src/services/agents/prompting.ts:22-24 | the prompt opens with the role's base line, the topic line and "Traits:" |
| Prompting.PromptTraits | server/src/services/agents/prompting.ts:12-20 | the trait block follows the head line by line |
| Prompting.PromptTail | server/src/services/agents/prompting.ts:25-29 | the prompt ends with "User message:", the message itself, a blank line and "Respond in Markdown." |
| Prompting.BuildPrompt | server/src/services/agents/prompting.ts:1-30 | the prompt starts with the role's base line, ends with "Respond in Markdown." and contains the user message |
| Prompting.PromptLinesRoundTrip | server/src/services/agents/prompting.ts:22-29 | when no part holds a line break, splitting the prompt at line breaks gives back its lines |
| Prompting.MultiLineMessageSplits | server/src/services/agents/prompting.ts:26-27 | a user message with a line break makes that round trip fail |
| Prompting.TraitLineValue | server/src/services/agents/prompting.ts:13 | a missing or null trait is printed as 0.5 |
| Turn.AgentTypesForPhase | server/src/services/conversation.ts:14-22 | every known phase admits at least one agent type; an unknown phase admits none |
| Turn.FallbacksForPhase | server/src/services/conversation.ts:24-42 | every phase, known or not, has at least one fallback, each naming a real provider and a model |
| Turn.TopicOf | server/src/services/conversation.ts:48 | an empty or missing topic counts as no topic |
| Turn.Participants | server/src/services/conversation.ts:66-71 | listed participant ids select those contexts; with no list, every Agent-level context takes part |
| Turn.ActiveAgents | server/src/services/conversation.ts:73-75 | the active agents are exactly the Agent-level participants whose type the phase admits |
| Turn.ChainFor | server/src/services/conversation.ts:83-87 | the agent's own model block is tried first when it names a provider, then the phase fallbacks |
| Turn.PromptTopic | server/src/services/conversation.ts:93 | a non-nullish `researchTopic` inside the effective object's `properties` entry overrides the conversation topic, and without a `properties` entry the conversation topic is used; since inheritance.ts:35 stores a node's own properties at the top level, that entry exists only for a path starting with "properties" |
| Turn.RequestFor | server/src/services/conversation.ts:97-105 | the request carries the prompt, the model block's temperature (default 0.2) and maxTokens (default 600), and as system text the `systemInstruction` inside the effective object's `properties` entry, which a node's own top-level properties never supply |
| Turn.ErrorNote | server/src/services/conversation.ts:130-136 | a failed agent leaves a valid system message "Model error for agent <name>: ..." |
| Turn.AgentStep | server/src/services/conversation.ts:79-137 | an agent's turn writes a reply attributed to it, or an error note when the router throws; it fails only when the context does not resolve |
| Turn.RunAgents | server/src/services/conversation.ts:79-138 | the loop writes at most one message per agent, all in the conversation; agent replies are the messages returned and dispatched for extraction |
| Turn.StepsOf | server/src/services/conversation.ts:79-80 | the loop's `i`-th agent takes the step of call `k0 + i` |
| Turn.RunAgentsWrites | server/src/services/conversation.ts:79-137 | the `i`-th message written is the `i`-th agent's step's message, and that step wrote |
| Turn.RunAgentsStops | server/src/services/conversation.ts:79-138 | a loop that stops early stops at an agent whose step throws, with that step's error |
| Turn.RunAgentsCompletes | server/src/services/conversation.ts:79-138 | the loop finishes exactly when every agent's step writes; otherwise it stops at the first step that throws, with its error |
| Turn.RunAgentsReplies | server/src/services/conversation.ts:77-140 | the replies are exactly the agent-sent messages among those written, in order |
| Turn.StepOfIsAgentStep | server/src/services/conversation.ts:79-137 | the loop's step for an agent is that agent's `AgentStep` |
| Turn.TurnRunFollowsSteps | server/src/services/conversation.ts:79-138 | the turn's loop writes its steps' messages in order, finishes exactly when every step writes, stops with the first thrown error, and replies with the agent-sent messages written |
| Turn.SendUserMessage | server/src/services/conversation.ts:44-141 | an unknown conversation fails with "Conversation not found" and empty content with the required-content error; otherwise the user message is written first, then the active agents speak |
| Turn.TurnFollowsSteps | server/src/services/conversation.ts:44-141 | once the user message is stored, the `(1 + i)`-th message stored is the `i`-th active agent's step's message; the turn succeeds exactly when every agent's step writes, fails with the error of the first step that throws, and replies with the agent-sent messages stored after the user's |
| Turn.RepliesComeFromPhaseRoles | server/src/services/conversation.ts:65-75 | every agent reply comes from an Agent-level context whose type the phase admits |
| Turn.UnknownPhaseIsSilent | server/src/services/conversation.ts:20 | in a phase outside the four, only the user message is written |
| Turn.OwnModelTriedFirst | server/src/services/conversation.ts:83-87 | with a credentialed own model, the router calls it first |
| Turn.ResearchTopicComesFromConversation | server/src/services/conversation.ts:93 | unless some inherited path starts with the segment "properties", the prompt topic is the conversation's; a node's own `researchTopic` property lands at the top level (inheritance.ts:35) and never reaches the prompt |
| Turn.SystemInstructionNeedsPropertiesPath | server/src/services/conversation.ts:100 | unless some inherited path starts with the segment "properties", the request carries no system text; a node's own `systemInstruction` property lands at the top level (inheritance.ts:35) |
| MemoryPipeline.Clamp01 | server/src/services/memory.ts:8 | the result lies in [0,1] and equals the input when the input already does |
| MemoryPipeline.BaseWeight | server/src/services/memory.ts:11-15 | each type's base weight lies between 0.55 and 0.85 |
| MemoryPipeline.ImportanceFor | server/src/services/memory.ts:9-17 | for a confidence in [0,1], importance lies between half the type's weight and the full weight |
| MemoryPipeline.ImportanceEndpoints | server/src/services/memory.ts:16 | full confidence gives the type's weight and zero confidence gives half of it |
| MemoryPipeline.ImportanceOrder | server/src/services/memory.ts:10-16 | importance never drops as confidence rises; at equal confidence, action > fact > insight > question |
| MemoryPipeline.FinalType | server/src/services/memory.ts:84-87 | the type is the classifier's when it is one of the four, else the extractor's when it is, else "insight" |
| MemoryPipeline.Confidence | server/src/services/memory.ts:89-93 | the confidence lies in [0,1]: the classifier's number, else the extractor's, else 0.7 |
| MemoryPipeline.Importance | server/src/services/memory.ts:95-98 | an extractor-given importance is clamped; otherwise importance is derived from the type and confidence |
| MemoryPipeline.Source | server/src/services/memory.ts:56-59 | agent messages are attributed to their context id (or "agent"); all others to "user" |
| MemoryPipeline.RawContent | server/src/services/memory.ts:65 | the content is trimmed; a null candidate has none |
| MemoryPipeline.ScoreItem | server/src/services/memory.ts:70-112 | a candidate becomes a valid record with the message's attribution and both model labels; the stored type, confidence and importance are FinalType, Confidence and Importance of the parsed classification (`{}` when it does not parse) and the candidate; the create is refused only for an empty source |
| MemoryPipeline.ItemStep | server/src/services/memory.ts:64-115 | a blank candidate is skipped and a kept one is stored with its trimmed content, scored by FinalType, Confidence and Importance on its successful classification; a candidate halts the loop exactly when it is null, or has non-blank content and its classification call fails or the message has no source to attribute |
| MemoryPipeline.StoreItems | server/src/services/memory.ts:64-117 | the stored contents are a prefix of the non-blank trimmed candidates, and all of them when the loop completes |
| MemoryPipeline.StoreItemsCompletes | server/src/services/memory.ts:64-117 | the loop completes exactly when no candidate's step halts it |
| MemoryPipeline.NoneHalts | server/src/services/memory.ts:64-115 | no candidate's step halts exactly when no candidate halts by the halting rule |
| MemoryPipeline.Candidates | server/src/services/memory.ts:52-53 | the candidates are the parsed reply when it is an array, else none |
| MemoryPipeline.ExtractMemories | server/src/services/memory.ts:33-118 | a missing message stores nothing; a failed extraction call throws before anything is stored; otherwise every record carries the message's attribution, and a completed run has stored exactly the non-blank trimmed candidates in order |
| MemoryPipeline.ExtractMemoriesCompletes | server/src/services/memory.ts:33-118 | after the extraction call answers, the run completes exactly when no listed candidate is null, fails classification or lacks a source |
| MemoryPipeline.StoredRecordsValid | server/src/services/memory.ts:100-112 | every stored record satisfies the memory schema |
| MemoryPipeline.MockLabels | server/src/services/memory.ts:110-111 | in mock mode every record is labelled "mock:mock-model" |
| JsonText.StripFencesFenceFree | server/src/services/memory.ts:20 | no fence marker survives removing the fences |
| JsonText.StripFencesIdentity | server/src/services/memory.ts:20 | text without fence markers is left alone |
| JsonText.StripFencesIdempotent | server/src/services/memory.ts:20 | removing fences twice is the same as removing them once |
| JsonText.FirstSpan | server/src/services/memory.ts:22 | the regular-expression match begins at the first opening bracket and ends at the last matching closing one; there is no match exactly when no opening bracket has a later closing one |
| JsonText.SafeJson | server/src/services/memory.ts:19-25 | the cleaned text is parsed when it parses; otherwise the first bracketed span is parsed; every result is the parse of some fence-free text |
| JsonText.ParseArray | server/src/services/entities.ts:8-11 | a parsed non-array gives the empty array; unparsable text without a bracketed span gives the empty array |
| JsonText.ParseArrayIsArray | server/src/services/entities.ts:8-11 | with a parser that returns arrays for bracketed text, the result is always an array |
| JsonText.CoerceObject | server/src/services/report.ts:58-76 | the empty text gives the fallback; a parsed object is kept; a parsed array is wrapped as its sections |
| JsonText.CoerceObjectIsObject | server/src/services/report.ts:58-76 | with an object fallback, the corrected coercion always returns an object |
| JsonText.CoerceObjectAsWritten | server/src/services/report.ts:58-76 | as written, a reply that parses whole as an array is returned unwrapped |
| JsonText.BareArrayLosesSections | server/src/services/report.ts:61-62 | as written, a whole-text array reply loses its sections; the corrected coercion keeps them |
| Entities.RaiseConfidence | server/src/services/entities.ts:51 | a repeated mention keeps the larger confidence |
| Entities.Merged | server/src/services/entities.ts:47-52 | a new node records the name, type and confidence with one mention; an existing node keeps its name and type and counts one more mention |
| Entities.UpsertEntity | server/src/services/entities.ts:45-55 | the merge succeeds exactly for an object carrying the id, name, type and confidence parameters (null allowed) with a usable id; it changes that node only and keeps the graph invariant |
| Entities.MentionsCount | server/src/services/entities.ts:48-52 | three upserts of a new id count 1, 2 and 3 mentions |
| Entities.UpsertEntityFrame | server/src/services/entities.ts:47 | an upsert leaves every other node as it was |
| Entities.AddWeight | server/src/services/entities.ts:61-62 | a new relationship takes the weight; a repeated one adds it to the stored weight (0 when absent) |
| Entities.UpsertRel | server/src/services/entities.ts:57-65 | the statement succeeds exactly for an object carrying the a, b and weight parameters whose type is an identifier, whether or not the endpoints exist; unknown endpoints leave the graph alone, known ones merge that relationship with the added weight; nodes never change |
| Entities.WeightsAccumulate | server/src/services/entities.ts:61-62 | weights 0.4 then 0.3 on one relationship accumulate to 0.7 |
| Entities.Gather | server/src/services/entities.ts:31 | a non-array or an array with a null element throws; otherwise the result is every element's contribution joined in array order (an array field gives its elements, another truthy field gives itself, a falsy or missing field gives nothing), and every gathered item comes from some element's field |
| Entities.GatherFlattens | server/src/services/entities.ts:31 | the gathered list is the elements' contributions joined in array order: nothing dropped, repeated or reordered |
| Entities.ListFrom | server/src/services/entities.ts:30-33 | the parsed reply's array field is used when present, else the gathered fallback list |
| Entities.UpsertEntities | server/src/services/entities.ts:45-55 | the loop completes exactly when every item carries the statement's parameters with a usable id, and then every id is a stored node; relationships never change |
| Entities.EntitiesStored | server/src/services/entities.ts:45-55 | the entity loop completes exactly when every listed item is accepted, and then every listed id is stored |
| Entities.RelsAccepted | server/src/services/entities.ts:57-65 | the relationship loop completes exactly when every listed item is accepted |
| Entities.UpsertRels | server/src/services/entities.ts:57-65 | the loop completes exactly when every item carries the a, b and weight parameters with an identifier type; a completed loop has stored every relationship item whose endpoints are stored nodes; nodes never change |
| Entities.ExtractEntities | server/src/services/entities.ts:13-69 | a missing message changes nothing and a failed extraction call writes nothing; after a reply, the run completes exactly when both lists can be read and every item is accepted by its statement, and a completed run has stored every extracted entity under its id and every extracted relationship between stored nodes; nodes and relationships are only added or updated, and the graph invariant is kept |
| Entities.Apply | server/src/services/entities.ts:29-68 | a reply with no entities and no relationships writes nothing; the run completes exactly when both lists can be read and every item is accepted by its statement; a completed run has stored every listed entity under its id and every listed relationship between stored nodes |
| Entities.GraphSnapshot | server/src/services/entities.ts:71-104 | `limit` stored nodes, or all of them when fewer are stored, each once, most mentioned first, none left out having more mentions than a listed one; at most 2000 edges, each a stored relationship between two listed nodes, and all such relationships when there are at most 2000 |
| NameGraph.SanitizeChar | server/src/db/graph.ts:45 | a character is upper-cased, then kept when allowed in a type name, else replaced by "_" |
| NameGraph.SafeRel | server/src/db/graph.ts:44-46 | the sanitised type is as long as its input, non-empty and uses only A-Z, 0-9 and "_" |
| NameGraph.SafeRelDefault | server/src/db/graph.ts:45 | an absent or empty type becomes RELATED_TO |
| NameGraph.SafeRelIdempotent | server/src/db/graph.ts:44-46 | sanitising a sanitised type changes nothing |
| NameGraph.UpsertEntity | server/src/db/graph.ts:24-31 | a new name gets the given or default type, the given confidence (0.7 by default) and one mention; an existing one keeps its type, takes the new confidence and counts one more mention |
| NameGraph.UpsertRelation | server/src/db/graph.ts:32-40 | a type starting with a digit is rejected; unknown endpoints change nothing; known ones set that relation's confidence (0.6 by default); nodes never change |
| NameGraph.UpsertRelations | server/src/db/graph.ts:32-41 | the loop finishes exactly when no sanitised relation type starts with a digit; nodes never change and stored relations stay stored |
| NameGraph.UpsertRelationsFrame | server/src/db/graph.ts:32-41 | a relation key none of the relations is merged under keeps its confidence |
| NameGraph.UpsertRelationsStores | server/src/db/graph.ts:32-41 | a finished loop has stored every relation between stored names, and each key holds the confidence (0.6 by default) of the last relation merged under it |
| NameGraph.Upsert | server/src/db/graph.ts:17-42 | every payload entity ends up stored, and the graph invariant is kept even when a relation fails; the upsert succeeds exactly when no relation's sanitised type starts with a digit, and then every relation between stored names is stored |
| NameGraph.GraphSnapshot | server/src/db/graph.ts:50-86 | `limit` stored nodes, or all of them when fewer are stored, each name once, ordered by mentions then confidence, none left out ranking before a listed one; at most 5 * limit edges, each a stored relation between two listed names, and all such relations when there are at most 5 * limit |
| Report.PickMaxTokens | server/src/services/report.ts:49-50 | 1600 tokens for "in-depth", 1100 for "balanced", and 700 otherwise |
| Report.TopicFor | server/src/services/report.ts:83 | the topic is the conversation's when non-empty, else the given title, else "Research Report" |
| Report.DetailFor | server/src/services/report.ts:91 | a given detail level is kept; otherwise executive gives brief, comprehensive gives in-depth, and any other format gives balanced |
| Report.DefaultDetailValid | server/src/services/report.ts:89-91 | the defaulted detail level is valid and selects 700, 1600 or 1100 tokens |
| Report.PickPack | server/src/services/report.ts:52-56 | exec_summary goes to the summary pack, entity_graph to the tech pack, and every other key to the narrative pack |
| Report.SectionChain | server/src/services/report.ts:118-120 | a section tries its chosen pack, then the summary pack, then the narrative pack |
| Report.WriteSections | server/src/services/report.ts:116-124 | all sections are written exactly when every step succeeds; the content is keyed by section key, and the last section with a key wins |
| Report.Selected | server/src/services/report.ts:84-86 | exactly min(1000, n) of the conversation's n memories, ordered by importance, then confidence, then age; all of them when they fit; an omitted one never outranks a listed one |
| Report.Store | server/src/services/report.ts:126-139 | the report is stored exactly when format and detail level are valid; it records the title, structure, sections, memory ids, version 1 and the three models used |
| Report.FromConversation | server/src/services/report.ts:83-141 | a stored report carries the topic, a valid format and detail level, the selected memory ids, and one section per entry of the outline as the corrected coercion reads it |
| Report.GenerateReport | server/src/services/report.ts:79-142 | an unknown conversation fails with "Conversation not found"; otherwise the report is the one built from that conversation |
| Report.MockReportHasDefaultSections | server/src/services/report.ts:104-113 | in mock mode the outline falls back to the six default sections, and the report has exactly those keys |
| Report.BareArrayOutlineDropsSections | server/src/services/report.ts:58-76 | an outline reply that is a bare array yields no sections as written; the corrected coercion yields its entries |
| ConversationRoutes.Create | server/src/routes/conversations.ts:10-17 | the title defaults to "Research Session" and participants default to none; an empty title is rejected |
| ConversationRoutes.CreateKeepsStoreValid | server/src/routes/conversations.ts:12-15 | creating a conversation keeps the collection valid |
| ConversationRoutes.ListMessages | server/src/routes/conversations.ts:19-21 | exactly min(500, n) of the conversation's n messages, oldest first; all of them when they fit; an omitted one is never older than a listed one |
| ConversationRoutes.RequestedTopic | server/src/routes/conversations.ts:32 | a missing or null topic clears the topic; a string is stored; an object carrying a non-empty string `_id` is cast to that id; any other array or object fails the cast |
| ConversationRoutes.SetTopic | server/src/routes/conversations.ts:29-35 | an unknown id is a 404; the save succeeds exactly when the cast succeeds (a string, null, or an object carrying a non-empty string `_id`) and the document is valid; only the topic and its timestamp change |
| ConversationRoutes.SetTopicKeepsStoreValid | server/src/routes/conversations.ts:33 | a successful topic change keeps the collection valid |
| ConversationRoutes.RequestedPhase | server/src/routes/conversations.ts:39 | a falsy requested phase becomes "analysis" |
| ConversationRoutes.SetPhase | server/src/routes/conversations.ts:38-50 | an unknown id is a 404; the save succeeds exactly when the cast phase (a `next` object carrying a non-empty string `_id` is cast to that id) is one of the four phases on a valid document, and then appends the phase to the history |
| ConversationRoutes.SetPhaseOnValidStore | server/src/routes/conversations.ts:38-50 | on a valid collection the phase route fails only for an unknown id or an invalid phase, and keeps the collection valid |
| ConversationRoutes.IdObjectSetsPhase | server/src/routes/conversations.ts:39-48 | a `next` of `{"_id": "report"}` moves a stored conversation to the report phase |
| ConversationRoutes.DefaultPhaseIsAnalysis | server/src/routes/conversations.ts:39 | a request without a phase moves the conversation to "analysis" and records it |
| ConversationRoutes.Topics | server/src/routes/conversations.ts:53-70 | at most 50 rows, newest first, one per topic, each its topic's latest conversation; a topic is omitted only when 50 newer rows fill the list |
| WorkflowRoutes.ViewOf | server/src/routes/workflow.ts:9 | a missing topic shows as "" and a missing phase as "research" |
| WorkflowRoutes.State | server/src/routes/workflow.ts:6-10 | the state route gives a 404 exactly for an unknown id |
| WorkflowRoutes.StateShowsStoredPhase | server/src/routes/workflow.ts:9 | on a valid collection the state shows the stored phase, which is one of the four |
| WorkflowRoutes.StateAfterSetPhase | server/src/routes/workflow.ts:6-10 | after the phase route succeeds, the state reads back the requested phase |
| WorkflowRoutes.StateAfterSetTopic | server/src/routes/workflow.ts:6-10 | after the topic route stores a string, the state reads it back |
| WorkflowRoutes.Field | server/src/routes/workflow.ts:15-16 | only fields present in the body are updated, as strings; null becomes "null" |
| WorkflowRoutes.PatchAsWritten | server/src/routes/workflow.ts:12-19 | an unknown id changes nothing and answers with the defaults; otherwise only the sent fields and updatedAt change |
| WorkflowRoutes.PatchStoresUnknownPhase | server/src/routes/workflow.ts:16-17 | as written, patching phase "foo" corrupts a valid collection, and the topic route then fails on that conversation |
| WorkflowRoutes.Patch | server/src/routes/workflow.ts:12-19 | the validated patch refuses exactly a phase outside the four, and otherwise writes what the handler writes |
| WorkflowRoutes.PatchKeepsStoreValid | server/src/routes/workflow.ts:17 | the validated patch keeps a valid collection valid |
| WorkflowRoutes.StateAfterPatch | server/src/routes/workflow.ts:12-19 | after a validated patch the state reads back the patched topic and phase |
| WorkflowRoutes.RecentTopics | server/src/routes/workflow.ts:21-30 | at most 30 rows, newest first, one per topic other than the empty one, each its topic's latest conversation |
| WorkflowRoutes.RecentTopicsKeepsUntitled | server/src/routes/workflow.ts:23 | conversations without a topic pass the filter and are listed as a group of their own |
| MemoryRoutes.Escape | server/src/routes/memories.ts:40-41 | escaping only inserts backslashes |
| MemoryRoutes.EscapeIsLiteral | server/src/routes/memories.ts:40-41 | the escaped model text, read as a pattern, matches exactly the text itself |
| MemoryRoutes.LiteralIsEscaped | server/src/routes/memories.ts:40-41 | every literal pattern is the escape of the text it matches |
| MemoryRoutes.BuildCond | server/src/routes/memories.ts:32-43 | a non-numeric minImportance fails the cast; each given parameter adds its condition; the model pattern matches the model text literally |
| MemoryRoutes.CondSelects | server/src/routes/memories.ts:32-50 | a record matches the built condition exactly when it meets every given filter, the case-insensitive model filter and the text search |
| MemoryRoutes.EmptyQuerySelectsAll | server/src/routes/memories.ts:32-45 | a query with no parameters selects every memory |
| MemoryRoutes.SortOf | server/src/routes/memories.ts:53-62 | "importance" and "confidence" pick their orders, and anything else sorts newest first |
| MemoryRoutes.EffectiveLimit | server/src/routes/memories.ts:64 | the limit lies in [1,1000]; a missing, NaN or zero limit gives 200; a limit inside the range is kept |
| MemoryRoutes.ListMemories | server/src/routes/memories.ts:45-66 | the listing holds exactly min(limit, n) of the n selected memories, sorted by the requested key; an omitted selected memory never outranks a listed one |
| MemoryRoutes.ListsAllWhenFew | server/src/routes/memories.ts:45-66 | when the selection fits under the limit, every selected memory is listed |
| Client.EscapeHtml | client/src/App.tsx:57-59 | the output has no <, >, " or '; text with no special characters is unchanged |
| Client.UnescapeEscape | client/src/App.tsx:57-59 | decoding the five entities undoes the escaping |
| Client.ById | client/src/App.tsx:144 | one node per id, the last item with that id |
| Client.BuildTree | client/src/App.tsx:143-150 | the roots are the nodes without a known parent; each node's children are the nodes naming it as parent; no list holds a node twice; every list is ordered by level, then by name |
| Client.ExactlyOneList | client/src/App.tsx:146 | every node appears either among the roots or in exactly one children list |
| Client.InferProvider | client/src/App.tsx:190-196 | the model name, in lower case, containing "gemini" gives gemini, else "claude" gives anthropic, else "gpt" gives openai; no name, or a name matching none of the three, gives undefined |
| Client.InferIgnoresCase | client/src/App.tsx:191 | the guess does not depend on letter case |
| Client.GuessAgentName | client/src/App.tsx:197-203 | the first agent with the same model wins; otherwise the first agent with the same provider |
| Client.GuessIsAgent | client/src/App.tsx:198 | the guessed name belongs to an Agent-level context |
| Client.ClassifyMessage | client/src/App.tsx:317-320 | "user" and "system" in any case keep their kind, and every other sender is an agent |
| Client.ClassifyStoredMessage | client/src/App.tsx:317-320 | a stored message is classified as its own sender |
| Client.BadgeFor | client/src/App.tsx:357-362 | a recorded origin gives "local" exactly when it is the base context, else "from <origin>"; otherwise a non-null base value is local and anything else is "inherited" |
| Client.NextPhase | client/src/App.tsx:534-536 | the next phase follows the current one, stays at "report", and starts from "analysis" when the phase is unknown |
| Client.NextPhaseIsSuccessor | client/src/App.tsx:535-536 | the next phase's position is one more than the current one, capped at the last |
| Client.NextPhaseAccepted | client/src/App.tsx:533-537 | the phase route accepts the next phase on a valid collection |

## Left out

- Network, database and process I/O are left out: the Express wiring, mongoose connections,
  the Neo4j driver and session lifecycle, and the provider SDK clients (openai.ts,
  anthropic.ts and gemini.ts are not part of this model). Their observable effects are
  parameters or oracles, as listed above.
- Background extraction after each message is left out. The fire-and-forget calls in
  conversation.ts (lines 61-62 and 126-127) swallow their errors; they are modelled as the list
  of dispatched message ids (`Turn.RunAgents`' `dispatched`), not as concurrent runs.
- The exact prompt wording for memory, entity and report prompts is left out. The model keeps
  the parts a contract speaks of: the instructions prefix, the content suffix, temperature and
  maxTokens. The memory and graph JSON embedded in the report prompts are not modelled.
- JSON.parse, String() of non-strings, Number(), `$text` search and `localeCompare` are oracles.
  `collate` is required to be a total preorder.
- Floating point is left out: numbers are reals, and NaN is `None` where the source tests for it.
  `Infinity` limits and fractional limits are taken to the floor, giving `RowLimit`.
- Case folding covers ASCII letters only. UTF-16 code units and non-ASCII `toLowerCase` and
  `toUpperCase` are not modelled. Under `toUpperCase`, "ß" becomes "SS", so `NameGraph.SafeRel`'s
  per-character mapping, which keeps the length, differs from the source there.
- Mongoose ObjectId casts are left out: ids are strings, and an id that is not a valid ObjectId
  is treated like an unknown one.
- Inheritance follows the code rather than the design notes. The lineage is processed in the
  order `$graphLookup` returns the ancestors, then the node itself (inheritance.ts:15-17, 34), so
  the first ancestor in that order that defines a path wins over the node. `$graphLookup`
  guarantees no order, so the retrieved order is a parameter (`ancestorsOf`); the model does not
  claim that the root-most definition wins.
- Inheritance.GetEffectiveContext: a dotted path that walks into an array-valued entry (an origin
  `a = [1]` recorded before `a.b = 2`) gives the TypeError result, while `cur[p] ??= {}` on an array
  sets a property on it and succeeds. Arrays with extra properties are not modelled. Likewise a
  non-final segment that names an Object.prototype member ("a.toString.b") descends into the
  inherited function in the source, while the model creates a fresh own object for it.
- Report.GenerateReport: the generator reads the outline with the corrected coercion
  (`JsonText.CoerceObject`, see Findings), so a bare-array outline reply gets one section per
  entry, where report.ts:104 as written gets none. `Report.BareArrayOutlineDropsSections` states the
  as-written outcome.
- Entities.GraphSnapshot: entities.ts:76-77 passes the JavaScript number `limit` as the
  `LIMIT $limit` parameter. The Neo4j JavaScript driver sends JavaScript numbers as floats, and
  Cypher's LIMIT takes only an integer, so on a real database the query plausibly fails on every
  call. The driver's parameter typing is not modelled: the model takes the limit as an integer
  and gives the snapshot no failure path.
- NameGraph.GraphSnapshot: the same holds for `LIMIT $limit` and `LIMIT 5*$limit` at
  graph.ts:58-59 and 67-68.
- Report.GenerateReport: the report reads the entity snapshot at report.ts:87 without a
  try/catch, so the float-limit failure above would also make report generation fail. The model
  inherits the snapshot's lack of a failure path.
- JavaScript's `key in origins` is also true for Object.prototype names ("constructor",
  "toString", ...). `Inheritance.Assign` models this: such keys never get an origin.
- Client.BadgeFor: the same lookup `originByPath[path]` on a prototype name is not modelled;
  `origins` is a plain map.
- WorkflowRoutes.PatchAsWritten: `updatedAt` is stamped on every update of an existing
  document, including an empty one. The model stamps it whenever the id is found.
- Array-valued query parameters (`?type=a&type=b`) are left out: each parameter is a string or
  absent.
- Entities.UpsertEntity: a confidence is read as a number only when it is a JSON number
  (`AsNumber`). A string or other non-number confidence, which Neo4j would store and compare by
  its own ordering rules, is read as absent, and a map-valued property, which Neo4j refuses, is
  not reported as an error.
- Entities.UpsertRel: likewise a non-number weight is read as absent, so a string weight, which
  Neo4j would store or reject in its addition, and a map-valued weight, which it refuses, are not
  modelled.
- Cypher semantics are modelled only for the MERGE/SET statements and snapshot queries the
  services issue. The unique-id constraint statement is left out, and relationship type
  validity is the identifier check.
- Regular expressions are modelled only as far as the routes use them: the escaped literal
  pattern and its case-insensitive substring test, and the greedy bracket spans of the JSON
  salvagers.
- The React UI rendering, renderMarkdown and the client's API calls (api.ts) are left out; only
  the pure helpers of App.tsx are modelled.
- The report's `mems.slice(0, 80)` and `JSON.stringify(graph).slice(0, 2000)` prompt
  truncations are left out, with the prompts.

## Findings

| source | as written | input that shows it | evidently intended | confidence | as-written member | corrected member |
|---|---|---|---|---|---|---|
| server/src/services/report.ts:60-62 | `JSON.parse(text)` of an array is truthy and of type "object", so a reply that is a bare array is returned unwrapped, and the array branch at lines 68-74 never sees it | an outline reply `[{"key":"k","title":"T"}]`: the report gets no sections | a bare array of sections is wrapped as `{sections: [...]}` | medium, not executed | JsonText.CoerceObjectAsWritten | JsonText.CoerceObject |
| server/src/routes/workflow.ts:16-17 | `findByIdAndUpdate` runs without `runValidators`, so any string is stored as the phase | `PATCH /workflow/c1` with body `{"phase":"foo"}` on a valid conversation: the state then shows "foo", and the topic route's `save()` fails on that conversation | a phase outside research, analysis, synthesis and report is refused, as the schema's enum requires | medium, not executed | WorkflowRoutes.PatchAsWritten | WorkflowRoutes.Patch |

=== FILE: client.dfy ===
/** The pure helpers of the browser client: HTML escaping, the context tree built from
    parent links, the provider inferred from a model name, the agent a model name points
    at, the sender class of a message, the inheritance badge of a field, and the phase the
    "Next Phase" button asks for. */
module Client {
  import opened Wrappers
  import opened Js
  import opened Models
  import opened Text
  import Sorting
  import Inheritance
  import ConversationRoutes

  /** A string value that is present and truthy, that is, non-empty. */
  predicate Given(v: Option<string>) {
    v.Some? && v.value != ""
  }

  // ----- escapeHtml ----------------------------------------------------------------------

  /** The characters `escapeHtml` replaces. */
  const HtmlSpecials: set<char> := {'&', '<', '>', '"', '\''}

  /** The entity written for one character, or the character itself. */
  function Entity(c: char): (r: string)
    ensures c !in HtmlSpecials ==> r == [c]
    ensures c in HtmlSpecials ==> |r| > 1 && r[0] == '&'
    ensures forall d :: d in r ==> d !in HtmlSpecials - {'&'}
  {
    match c
    case '&' => "&amp;"
    case '<' => "&lt;"
    case '>' => "&gt;"
    case '"' => "&quot;"
    case '\'' => "&#39;"
    case _ => [c]
  }

  /** `escapeHtml(s)`: each of `& < > " '` replaced by its entity. */
  function EscapeHtml(s: string): (r: string)
    ensures forall c :: c in r ==> c !in {'<', '>', '"', '\''}
    ensures (forall c :: c in s ==> c !in HtmlSpecials) ==> r == s
    ensures |r| >= |s|
    decreases |s|
  {
    if |s| == 0 then []
    else
      var r := Entity(s[0]) + EscapeHtml(s[1..]);
      assert s == [s[0]] + s[1..];
      r
  }

  /** The character at the front of `t` and the number of characters it takes up: one of
      the five entities, or a plain character. */
  function DecodeAt(t: string): (r: (char, nat))
    requires |t| > 0
    ensures 1 <= r.1 <= |t|
  {
    if StartsWith(t, "&amp;") then ('&', 5)
    else if StartsWith(t, "&lt;") then ('<', 4)
    else if StartsWith(t, "&gt;") then ('>', 4)
    else if StartsWith(t, "&quot;") then ('"', 6)
    else if StartsWith(t, "&#39;") then ('\'', 5)
    else (t[0], 1)
  }

  /** Decoding the five entities back to their characters, the browser's reading of the
      escaped text. */
  function UnescapeHtml(t: string): (r: string)
    ensures |r| <= |t|
    decreases |t|
  {
    if |t| == 0 then []
    else
      var (c, n) := DecodeAt(t);
      [c] + UnescapeHtml(t[n..])
  }

  /** The entity of a character decodes back to it, whatever follows. */
  lemma DecodeEntity(c: char, rest: string)
    ensures DecodeAt(Entity(c) + rest) == (c, |Entity(c)|)
  {
    var t := Entity(c) + rest;
    if c !in HtmlSpecials {
      assert t[0] == c;
    } else if c == '&' {
      assert t[..5] == "&amp;";
    } else if c == '<' {
      assert t[1] == 'l';
      assert t[..4] == "&lt;";
    } else if c == '>' {
      assert t[1] == 'g';
      assert t[..4] == "&gt;";
    } else if c == '"' {
      assert t[1] == 'q';
      assert t[..6] == "&quot;";
    } else {
      assert t[1] == '#';
      assert t[..5] == "&#39;";
    }
  }

  /** Decoding the escaped text gives the original text back. */
  lemma {:induction false} UnescapeEscape(s: string)
    ensures UnescapeHtml(EscapeHtml(s)) == s
    decreases |s|
  {
    if |s| > 0 {
      UnescapeEscape(s[1..]);
      var e := Entity(s[0]);
      var t := e + EscapeHtml(s[1..]);
      assert t == EscapeHtml(s);
      DecodeEntity(s[0], EscapeHtml(s[1..]));
      assert t[|e|..] == EscapeHtml(s[1..]);
      assert s == [s[0]] + s[1..];
    }
  }

  // ----- buildTree -----------------------------------------------------------------------

  /** The fields of a context the client reads. */
  datatype ContextDoc = ContextDoc(
    id: string, name: string, level: string, parentId: Option<string>,
    provider: Option<string>, model: Option<string>)

  function IdsOf(s: seq<ContextDoc>): set<string> {
    set x | x in s :: x.id
  }

  predicate DistinctIds(s: seq<ContextDoc>) {
    forall i, j :: 0 <= i < j < |s| ==> s[i].id != s[j].id
  }

  /** The last item carrying `id`. */
  function Last(items: seq<ContextDoc>, id: string): (r: Option<ContextDoc>)
    ensures r.Some? <==> id in IdsOf(items)
    ensures r.Some? ==> r.value in items && r.value.id == id
    decreases |items|
  {
    if |items| == 0 then None
    else
      var init := items[..|items| - 1];
      assert items == init + [items[|items| - 1]];
      assert IdsOf(items) == IdsOf(init) + {items[|items| - 1].id};
      if items[|items| - 1].id == id then Some(items[|items| - 1]) else Last(init, id)
  }

  /** `byId.set(x.id, x)`: replaces the entry with the same id in place, or appends. */
  function Put(m: seq<ContextDoc>, x: ContextDoc): (r: seq<ContextDoc>)
    requires DistinctIds(m)
    ensures DistinctIds(r)
    ensures forall y :: y in r <==> y == x || (y in m && y.id != x.id)
    decreases |m|
  {
    if |m| == 0 then [x]
    else
      assert forall y :: y in m <==> y == m[0] || y in m[1..];
      assert forall y :: y in m[1..] ==> y.id != m[0].id;
      if m[0].id == x.id then
        [x] + m[1..]
      else
        var rest := Put(m[1..], x);
        assert forall y :: y in rest ==> y.id != m[0].id;
        [m[0]] + rest
  }

  /** The values of `byId` after `items.forEach(c => byId.set(c._id, c))`: one entry per id,
      holding the last item with that id. */
  function ById(items: seq<ContextDoc>): (r: seq<ContextDoc>)
    ensures DistinctIds(r)
    ensures forall x :: x in r <==> Last(items, x.id) == Some(x)
    decreases |items|
  {
    if |items| == 0 then []
    else
      var init := items[..|items| - 1];
      var x := items[|items| - 1];
      assert items == init + [x];
      Put(ById(init), x)
  }

  /** Every id of the items keeps exactly its entry. */
  lemma ByIdIds(items: seq<ContextDoc>)
    ensures IdsOf(ById(items)) == IdsOf(items)
  {
    var r := ById(items);
    forall id ensures id in IdsOf(r) <==> id in IdsOf(items) {
      if id in IdsOf(items) {
        assert Last(items, id).value in r;
      }
      if id in IdsOf(r) {
        var y :| y in r && y.id == id;
        assert Last(items, id) == Some(y);
      }
    }
  }

  /** `rank(l)`: the position of a level in Domain, Project, Room, Agent; -1 for others. */
  function Rank(level: string): (r: int)
    ensures -1 <= r < |Levels|
    ensures r >= 0 ==> Levels[r] == level
    ensures r == -1 <==> level !in Levels
  {
    if level == "Domain" then 0
    else if level == "Project" then 1
    else if level == "Room" then 2
    else if level == "Agent" then 3
    else -1
  }

  /** The comparator `rank(a.level) - rank(b.level) || a.name.localeCompare(b.name)` as
      "may come first"; `collate(x, y)` stands for `x.localeCompare(y) <= 0`. */
  function TreeLe(collate: (string, string) -> bool): (ContextDoc, ContextDoc) -> bool {
    (a: ContextDoc, b: ContextDoc) =>
      Rank(a.level) < Rank(b.level) || (Rank(a.level) == Rank(b.level) && collate(a.name, b.name))
  }

  lemma TreeLeTotal(collate: (string, string) -> bool)
    requires Sorting.TotalPreorder(collate)
    ensures Sorting.TotalPreorder(TreeLe(collate))
  {
    var le := TreeLe(collate);
    forall a, b ensures le(a, b) || le(b, a) {
      assert collate(a.name, b.name) || collate(b.name, a.name);
    }
    forall a, b, c | le(a, b) && le(b, c) ensures le(a, c) {
      if Rank(a.level) == Rank(b.level) == Rank(c.level) {
        assert collate(a.name, b.name) && collate(b.name, c.name);
      }
    }
  }

  /** The forest: the roots, and each node's children by the node's id. */
  datatype Forest = Forest(roots: seq<ContextDoc>, children: map<string, seq<ContextDoc>>)

  /** A node goes under its parent when `parentId` is a non-empty id of the collection. */
  predicate HasParent(known: set<string>, x: ContextDoc) {
    x.parentId.Some? && x.parentId.value != "" && x.parentId.value in known
  }

  function ChildOf(known: set<string>, id: string): ContextDoc -> bool {
    (x: ContextDoc) => HasParent(known, x) && x.parentId.value == id
  }

  /** One list of the forest: the nodes `p` keeps, in `TreeLe` order. */
  function Ordered(nodes: seq<ContextDoc>, p: ContextDoc -> bool, collate: (string, string) -> bool)
    : (r: seq<ContextDoc>)
    requires Sorting.TotalPreorder(collate)
    ensures forall x :: x in r <==> x in nodes && p(x)
    ensures Sorting.SortedBy(TreeLe(collate), r)
    ensures DistinctIds(nodes) ==> Sorting.Distinct(r)
  {
    TreeLeTotal(collate);
    var kept := Sorting.Filter(nodes, p);
    var r := Sorting.SortBy(TreeLe(collate), kept);
    forall x ensures x in r <==> x in kept {
      Sorting.SameElements(kept, r, x);
    }
    if DistinctIds(nodes) then
      Sorting.FilterDistinct(nodes, p);
      Sorting.DistinctPermutation(kept, r);
      r
    else r
  }

  function IsRootIn(known: set<string>): ContextDoc -> bool {
    (x: ContextDoc) => !HasParent(known, x)
  }

  /** `buildTree(items)`. Every surviving item is a root exactly when its parent is empty
      or unknown, otherwise a child of its parent; every list is in `TreeLe` order. */
  function BuildTree(items: seq<ContextDoc>, collate: (string, string) -> bool): (f: Forest)
    requires Sorting.TotalPreorder(collate)
    ensures f.children.Keys == IdsOf(items)
    ensures forall x :: x in f.roots <==> Last(items, x.id) == Some(x) && !HasParent(IdsOf(items), x)
    ensures forall id, x :: id in f.children ==>
      (x in f.children[id] <==> Last(items, x.id) == Some(x) && x.parentId == Some(id) && id != "")
    ensures Sorting.SortedBy(TreeLe(collate), f.roots)
    ensures forall id :: id in f.children ==> Sorting.SortedBy(TreeLe(collate), f.children[id])
    ensures Sorting.Distinct(f.roots)
    ensures forall id :: id in f.children ==> Sorting.Distinct(f.children[id])
  {
    var nodes := ById(items);
    var known := IdsOf(nodes);
    ByIdIds(items);
    Forest(Ordered(nodes, IsRootIn(known), collate), Children(nodes, known, collate))
  }

  /** The children lists of every known id. */
  function Children(nodes: seq<ContextDoc>, known: set<string>, collate: (string, string) -> bool)
    : (m: map<string, seq<ContextDoc>>)
    requires Sorting.TotalPreorder(collate)
    ensures m.Keys == known
    ensures forall id, x :: id in m ==> (x in m[id] <==> x in nodes && HasParent(known, x) && x.parentId.value == id)
    ensures forall id :: id in m ==> Sorting.SortedBy(TreeLe(collate), m[id])
    ensures DistinctIds(nodes) ==> forall id :: id in m ==> Sorting.Distinct(m[id])
  {
    map id | id in known :: Ordered(nodes, ChildOf(known, id), collate)
  }

  /** Each item that survives de-duplication lands in exactly one list: the roots or the
      children of its parent. */
  lemma ExactlyOneList(items: seq<ContextDoc>, collate: (string, string) -> bool, x: ContextDoc)
    requires Sorting.TotalPreorder(collate)
    requires Last(items, x.id) == Some(x)
    ensures var f := BuildTree(items, collate);
      (x in f.roots && forall id :: id in f.children ==> x !in f.children[id])
      || (x !in f.roots && x.parentId.Some? && x.parentId.value in f.children
          && x in f.children[x.parentId.value]
          && forall id :: id in f.children && x in f.children[id] ==> id == x.parentId.value)
  {
  }

  // ----- inferProvider and guessAgentNameByModel ----------------------------------------

  /** `inferProvider(model)`: "gemini" before "claude" before "gpt", compared without case. */
  function InferProvider(model: Option<string>): (r: Option<string>)
    ensures r.Some? ==> r.value in {"gemini", "anthropic", "openai"}
    ensures !Given(model) ==> r.None?
    ensures r == Some("gemini") <==> Given(model) && Contains(Lower(model.value), "gemini")
    ensures r == Some("anthropic") <==>
      Given(model) && !Contains(Lower(model.value), "gemini") && Contains(Lower(model.value), "claude")
    ensures r == Some("openai") <==>
      Given(model) && !Contains(Lower(model.value), "gemini") && !Contains(Lower(model.value), "claude")
      && Contains(Lower(model.value), "gpt")
    ensures r.None? <==>
      !Given(model)
      || !(Contains(Lower(model.value), "gemini") || Contains(Lower(model.value), "claude")
           || Contains(Lower(model.value), "gpt"))
  {
    if !Given(model) then None
    else
      var s := Lower(model.value);
      if Contains(s, "gemini") then Some("gemini")
      else if Contains(s, "claude") then Some("anthropic")
      else if Contains(s, "gpt") then Some("openai")
      else None
  }

  lemma LowerUpper(s: string)
    ensures Lower(Upper(s)) == Lower(s)
  {
    assert forall i :: 0 <= i < |s| ==> LowerChar(UpperChar(s[i])) == LowerChar(s[i]);
  }

  /** The inference ignores the case of the model name. */
  lemma InferIgnoresCase(m: string)
    ensures InferProvider(Some(Upper(m))) == InferProvider(Some(m))
  {
    LowerUpper(m);
  }

  predicate IsAgent(c: ContextDoc) {
    c.level == "Agent"
  }

  /** An agent whose configured model equals the (truthy) model asked for. */
  function ModelHit(model: Option<string>): ContextDoc -> bool {
    (c: ContextDoc) => IsAgent(c) && Given(c.model) && Given(model) && c.model == model
  }

  /** An agent whose configured provider equals the (truthy) provider asked for. */
  function ProviderHit(provider: Option<string>): ContextDoc -> bool {
    (c: ContextDoc) => IsAgent(c) && Given(c.provider) && Given(provider) && c.provider == provider
  }

  /** `guessAgentNameByModel(contexts, provider, model)`: the first agent with that model,
      else the first agent with that provider. */
  function GuessAgentName(cs: seq<ContextDoc>, provider: Option<string>, model: Option<string>): (r: Option<string>)
    ensures (exists c :: c in cs && ModelHit(model)(c)) ==>
      exists i :: 0 <= i < |cs| && ModelHit(model)(cs[i]) && r == Some(cs[i].name)
        && forall j :: 0 <= j < i ==> !ModelHit(model)(cs[j])
    ensures (forall c :: c in cs ==> !ModelHit(model)(c)) ==>
      && (r.None? <==> forall c :: c in cs ==> !ProviderHit(provider)(c))
      && (r.Some? ==>
            exists i :: (0 <= i < |cs| && ProviderHit(provider)(cs[i]) && r == Some(cs[i].name)
              && forall j :: 0 <= j < i ==> !ProviderHit(provider)(cs[j])))
  {
    match Inheritance.FirstWhere(ModelHit(model), cs)
    case Some(i) => Some(cs[i].name)
    case None =>
      match Inheritance.FirstWhere(ProviderHit(provider), cs)
      case Some(i) => Some(cs[i].name)
      case None => None
  }

  /** A name is only ever guessed for an agent of the list. */
  lemma GuessIsAgent(cs: seq<ContextDoc>, provider: Option<string>, model: Option<string>)
    requires GuessAgentName(cs, provider, model).Some?
    ensures exists c :: c in cs && IsAgent(c) && c.name == GuessAgentName(cs, provider, model).value
  {
    var r := GuessAgentName(cs, provider, model);
    var m := Inheritance.FirstWhere(ModelHit(model), cs);
    var p := Inheritance.FirstWhere(ProviderHit(provider), cs);
    if m.Some? {
      assert cs[m.value] in cs;
    } else {
      assert cs[p.value] in cs;
    }
  }

  // ----- classifyMessage -----------------------------------------------------------------

  /** `classifyMessage(m)` on `m.sender`: "user" and "system" without case, else "agent". */
  function ClassifyMessage(sender: Option<string>): (r: string)
    ensures r in Senders
    ensures r == "user" <==> sender.Some? && Lower(sender.value) == "user"
    ensures r == "system" <==> sender.Some? && Lower(sender.value) == "system"
  {
    var s := Lower(sender.GetOr(""));
    if s == "user" then "user" else if s == "system" then "system" else "agent"
  }

  /** A message the server stored is classified as its own sender. */
  lemma ClassifyStoredMessage(m: Message)
    requires ValidMessage(m)
    ensures ClassifyMessage(Some(m.sender)) == m.sender
  {
    assert Lower("user") == "user";
    assert Lower("system") == "system";
    assert Lower("agent") == "agent";
  }

  /** The class ignores the case of the sender. */
  lemma ClassifyIgnoresCase(s: string)
    ensures ClassifyMessage(Some(Upper(s))) == ClassifyMessage(Some(s))
  {
    LowerUpper(s);
  }

  // ----- badgeFor ------------------------------------------------------------------------

  datatype Badge = Badge(text: string, color: string, local: bool)

  const LocalColor: string := "#16a34a"
  const InheritedColor: string := "#7c3aed"

  /** `originByPath && originByPath[path]`. */
  predicate HasOrigin(origins: Option<map<string, string>>, path: string) {
    origins.Some? && path in origins.value && origins.value[path] != ""
  }

  /** `badgeFor(path, baseVal, effVal)` with the effective payload's origin map and the
      selected node's id. */
  function BadgeFor(path: string, origins: Option<map<string, string>>, baseId: Option<string>,
                    baseVal: Option<Json>): (b: Badge)
    ensures b.local <==> b.text == "local"
    ensures b.local <==> b.color == LocalColor
    ensures HasOrigin(origins, path) ==> (b.local <==> baseId == Some(origins.value[path]))
    ensures HasOrigin(origins, path) && !b.local ==> b.text == "from " + origins.value[path]
    ensures !HasOrigin(origins, path) ==> (b.local <==> !Nullish(baseVal))
    ensures !HasOrigin(origins, path) && !b.local ==> b.text == "inherited"
  {
    if HasOrigin(origins, path) then
      var o := origins.value[path];
      if baseId == Some(o) then Badge("local", LocalColor, true)
      else
        assert ("from " + o)[..5] == "from ";
        Badge("from " + o, InheritedColor, false)
    else if !Nullish(baseVal) then Badge("local", LocalColor, true)
    else Badge("inherited", InheritedColor, false)
  }

  // ----- The "Next Phase" button ---------------------------------------------------------

  /** `order[Math.min(Math.max(0, order.indexOf(phase)) + 1, 3)]`. */
  function NextPhase(phase: string): (r: string)
    ensures r in Phases && r != "research"
    ensures phase !in Phases ==> r == "analysis"
    ensures phase == "report" ==> r == "report"
  {
    if phase == "research" then "analysis"
    else if phase == "analysis" then "synthesis"
    else if phase == "synthesis" then "report"
    else if phase == "report" then "report"
    else "analysis"
  }

  /** The position of a phase in the workflow order. */
  function PhaseIndex(phase: string): (i: int)
    ensures -1 <= i < |Phases|
    ensures i >= 0 ==> Phases[i] == phase
    ensures i == -1 <==> phase !in Phases
  {
    if phase == "research" then 0
    else if phase == "analysis" then 1
    else if phase == "synthesis" then 2
    else if phase == "report" then 3
    else -1
  }

  /** The button moves one step along the order and stays at the last phase. */
  lemma NextPhaseIsSuccessor(phase: string)
    requires phase in Phases
    ensures PhaseIndex(NextPhase(phase)) == if PhaseIndex(phase) < 3 then PhaseIndex(phase) + 1 else 3
  {
  }

  /** The phase the button asks for is always accepted by the phase route, whatever the
      conversation's current phase. */
  lemma NextPhaseAccepted(s: ConversationRoutes.Store, id: string, phase: string, now: int, show: Json -> string)
    requires ConversationRoutes.ValidStore(s) && id in s
    ensures ConversationRoutes.SetPhase(s, id, Some(JStr(NextPhase(phase))), now, show).Ok?
    ensures ConversationRoutes.SetPhase(s, id, Some(JStr(NextPhase(phase))), now, show).value[id].phase == NextPhase(phase)
  {
    ConversationRoutes.SetPhaseOnValidStore(s, id, Some(JStr(NextPhase(phase))), now, show);
  }
}

=== FILE: conversation_routes.dfy ===
/** The conversation routes: creation with its defaults, the message listing, setting the
    topic, setting the phase with its history entry, and the listing of the latest
    conversation of each topic. The collection is a map from id to document; the listings
    read the documents in the collection's natural order. */
module ConversationRoutes {
  import opened Wrappers
  import opened Js
  import opened Models
  import Sorting

  /** The conversations collection. */
  type Store = map<string, Conversation>

  /** Every stored document sits under its own id and satisfies the schema. */
  predicate ValidStore(s: Store) {
    forall id :: id in s ==> s[id].id == id && ValidConversation(s[id])
  }

  /** Why a route did not store anything: the id names no conversation (a 404), or the
      document was refused by a cast or a validator (the handler's promise rejects). */
  datatype RouteFail = NotFound | Invalid

  // ----- Saving --------------------------------------------------------------------------

  /** The id Mongoose reads off a document-like value: its `_id` field when that is a
      non-empty string. Arrays, and objects without such a field, carry none. */
  function CarriedId(j: Json): (r: Option<string>)
    ensures r.Some? ==> j.JObj? && r.value != "" && Get(j, "_id") == Some(JStr(r.value))
  {
    match Get(j, "_id")
    case Some(JStr(id)) => if id != "" then Some(id) else None
    case _ => None
  }

  /** Mongoose's cast of a value assigned to a `String` path: `null` stays null, a value
      carrying a non-empty string `_id` becomes that id, strings are kept, numbers and
      booleans become their `String(...)`, and other arrays and objects are refused. */
  function CastString(j: Json, show: Json -> string): (r: Result<Option<string>, RouteFail>)
    ensures r == Ok(None) <==> j.JNull?
    ensures j.JStr? ==> r == Ok(Some(j.s))
    ensures CarriedId(j).Some? ==> r == Ok(CarriedId(j))
    ensures r.Err? <==> j.JArr? || (j.JObj? && CarriedId(j).None?)
    ensures r.Ok? && r.value.Some? && !j.JObj? ==> r.value.value == StringOf(Some(j), show)
  {
    match j
    case JNull => Ok(None)
    case JArr(_) => Err(Invalid)
    case JObj(_) => if CarriedId(j).Some? then Ok(CarriedId(j)) else Err(Invalid)
    case _ => Ok(Some(StringOf(Some(j), show)))
  }

  /** `doc.save()` of the document stored under `id`: the whole document is validated
      before it is written. */
  function Save(s: Store, id: string, c: Conversation): (r: Result<Store, RouteFail>)
    ensures r.Ok? <==> ValidConversation(c)
    ensures r.Ok? ==> r.value.Keys == s.Keys + {id} && r.value[id] == c
    ensures r.Ok? ==> forall k :: k in s && k != id ==> r.value[k] == s[k]
  {
    if ValidConversation(c) then Ok(s[id := c]) else Err(Invalid)
  }

  /** Saving a valid document under its own id keeps a valid collection valid. */
  lemma SaveKeepsStoreValid(s: Store, id: string, c: Conversation)
    requires ValidStore(s) && c.id == id
    requires Save(s, id, c).Ok?
    ensures ValidStore(Save(s, id, c).value)
  {
  }

  // ----- POST / ------------------------------------------------------------------------

  const DefaultTitle: string := "Research Session"

  /** `Conversation.create({title: body?.title ?? "Research Session", participantIds:
      body?.participantIds ?? []})`, for string titles. */
  function Create(id: string, title: Option<string>, participantIds: Option<seq<string>>, now: int)
    : (r: Result<Conversation, string>)
    ensures r.Ok? <==> title != Some("")
    ensures r.Ok? ==> ValidConversation(r.value) && r.value.id == id
    ensures r.Ok? && title.None? ==> r.value.title == "Research Session"
    ensures r.Ok? && title.Some? ==> r.value.title == title.value
    ensures r.Ok? ==> r.value.participantIds == (if participantIds.None? then [] else participantIds.value)
    ensures r.Ok? ==> r.value.phase == "research" && r.value.phaseHistory == [] && r.value.topic.None?
    ensures r.Ok? ==> r.value.createdAt == now && r.value.updatedAt == now
  {
    CreateConversation(id, title.GetOr(DefaultTitle), participantIds.GetOr([]), now)
  }

  /** A created conversation joins a valid collection without breaking it. */
  lemma CreateKeepsStoreValid(s: Store, id: string, title: Option<string>, participantIds: Option<seq<string>>,
                              now: int)
    requires ValidStore(s)
    requires Create(id, title, participantIds, now).Ok?
    ensures ValidStore(s[id := Create(id, title, participantIds, now).value])
  {
  }

  // ----- GET /:id/messages ---------------------------------------------------------------

  const MessageLimit: nat := 500

  /** The messages of one conversation, in collection order. */
  function MessagesIn(ms: seq<Message>, cid: string): (r: seq<Message>)
    ensures forall m :: m in r <==> m in ms && m.conversationId == cid
    ensures |r| <= |ms|
  {
    Sorting.Filter(ms, (m: Message) => m.conversationId == cid)
  }

  /** Ascending timestamp order; ties keep collection order. */
  function Earlier(): (Message, Message) -> bool {
    (a: Message, b: Message) => a.timestamp <= b.timestamp
  }

  /** `Message.find({conversationId}).sort({timestamp: 1}).limit(500)`. */
  function ListMessages(ms: seq<Message>, cid: string): (r: seq<Message>)
    ensures |r| <= 500
    ensures |r| == if |MessagesIn(ms, cid)| < 500 then |MessagesIn(ms, cid)| else 500
    ensures forall i, j :: 0 <= i < j < |r| ==> r[i].timestamp <= r[j].timestamp
    ensures forall m :: m in r ==> m in ms && m.conversationId == cid
    ensures |MessagesIn(ms, cid)| <= 500 ==> multiset(r) == multiset(MessagesIn(ms, cid))
    ensures forall m, x :: m in ms && m.conversationId == cid && m !in r && x in r ==> x.timestamp <= m.timestamp
  {
    assert Sorting.TotalPreorder(Earlier());
    var r := Sorting.TopN(Earlier(), MessagesIn(ms, cid), MessageLimit);
    assert Sorting.SortedBy(Earlier(), r);
    r
  }

  // ----- PATCH /:id/topic ----------------------------------------------------------------

  /** The topic a body asks for: `body.topic ?? null`, cast for the `String` path. */
  function RequestedTopic(topic: Option<Json>, show: Json -> string): (r: Result<Option<string>, RouteFail>)
    ensures Nullish(topic) ==> r == Ok(None)
    ensures topic.Some? && topic.value.JStr? ==> r == Ok(Some(topic.value.s))
    ensures topic.Some? && CarriedId(topic.value).Some? ==> r == Ok(CarriedId(topic.value))
    ensures r.Err? <==> topic.Some? && (topic.value.JArr? || (topic.value.JObj? && CarriedId(topic.value).None?))
  {
    CastString(Coalesce(topic, JNull), show)
  }

  /** `convo.topic = body.topic ?? null; await convo.save()`. An assignment of the value
      already stored leaves the document unmodified, so its `updatedAt` is kept. */
  function SetTopic(s: Store, id: string, topic: Option<Json>, now: int, show: Json -> string)
    : (r: Result<Store, RouteFail>)
    ensures id !in s ==> r == Err(NotFound)
    ensures r.Ok? <==> id in s && RequestedTopic(topic, show).Ok? && ValidConversation(s[id])
    ensures r.Ok? ==> r.value.Keys == s.Keys
    ensures r.Ok? ==> forall k :: k in s && k != id ==> r.value[k] == s[k]
    ensures r.Ok? ==> r.value[id].topic == RequestedTopic(topic, show).value
    ensures r.Ok? ==> r.value[id] == s[id].(topic := r.value[id].topic, updatedAt := r.value[id].updatedAt)
    ensures r.Ok? ==> r.value[id].updatedAt == if r.value[id].topic == s[id].topic then s[id].updatedAt else now
  {
    if id !in s then Err(NotFound)
    else
      var c := s[id];
      match RequestedTopic(topic, show)
      case Err(e) => Err(e)
      case Ok(t) => Save(s, id, c.(topic := t, updatedAt := if t == c.topic then c.updatedAt else now))
  }

  /** Setting the topic keeps a valid collection valid. */
  lemma SetTopicKeepsStoreValid(s: Store, id: string, topic: Option<Json>, now: int, show: Json -> string)
    requires ValidStore(s)
    requires SetTopic(s, id, topic, now, show).Ok?
    ensures ValidStore(SetTopic(s, id, topic, now, show).value)
  {
  }

  // ----- POST /:id/phase -----------------------------------------------------------------

  /** The phase a body asks for: `body?.next || "analysis"`, cast for the `String` path;
      `None` when the cast refuses it. */
  function RequestedPhase(next: Option<Json>, show: Json -> string): (p: Option<string>)
    ensures !TruthyOpt(next) ==> p == Some("analysis")
    ensures next.Some? && next.value.JStr? && next.value.s != "" ==> p == Some(next.value.s)
    ensures next.Some? && CarriedId(next.value).Some? ==> p == CarriedId(next.value)
    ensures p.None? <==> next.Some? && (next.value.JArr? || (next.value.JObj? && CarriedId(next.value).None?))
  {
    match CastString(Or(next, JStr("analysis")), show)
    case Ok(Some(p)) => Some(p)
    case _ => None
  }

  /** `convo.phase = next; convo.phaseHistory.push({phase: next, at: now}); await convo.save()`.
      The requested phase replaces the current one whatever it was: this sets the phase, it
      does not advance it. */
  function SetPhase(s: Store, id: string, next: Option<Json>, now: int, show: Json -> string)
    : (r: Result<Store, RouteFail>)
    ensures id !in s ==> r == Err(NotFound)
    ensures r.Ok? <==>
      && id in s && RequestedPhase(next, show).Some? && RequestedPhase(next, show).value in Phases
      && s[id].title != "" && s[id].status in Statuses
    ensures r.Ok? ==> r.value.Keys == s.Keys
    ensures r.Ok? ==> forall k :: k in s && k != id ==> r.value[k] == s[k]
    ensures r.Ok? ==>
      var p := RequestedPhase(next, show).value;
      && r.value[id].phase == p
      && r.value[id].phaseHistory == s[id].phaseHistory + [PhaseEntry(p, now)]
      && r.value[id].updatedAt == now
      && r.value[id] == s[id].(phase := p, phaseHistory := r.value[id].phaseHistory, updatedAt := now)
  {
    if id !in s then Err(NotFound)
    else
      var c := s[id];
      match RequestedPhase(next, show)
      case None => Err(Invalid)
      case Some(p) => Save(s, id, c.(phase := p, phaseHistory := c.phaseHistory + [PhaseEntry(p, now)], updatedAt := now))
  }

  /** Setting the phase keeps a valid collection valid, and on a valid collection it fails
      only for a missing conversation or a requested value outside the enumeration. */
  lemma SetPhaseOnValidStore(s: Store, id: string, next: Option<Json>, now: int, show: Json -> string)
    requires ValidStore(s)
    ensures var r := SetPhase(s, id, next, now, show);
      && (r.Ok? ==> ValidStore(r.value))
      && (r.Err? ==> id !in s || RequestedPhase(next, show).None? || RequestedPhase(next, show).value !in Phases)
  {
  }

  /** A body without `next` moves any conversation to analysis, from whichever phase it is
      in, and records that move. */
  lemma DefaultPhaseIsAnalysis(s: Store, id: string, now: int, show: Json -> string)
    requires ValidStore(s) && id in s
    ensures SetPhase(s, id, None, now, show).Ok?
    ensures SetPhase(s, id, None, now, show).value[id].phase == "analysis"
    ensures var h := SetPhase(s, id, None, now, show).value[id].phaseHistory;
      |h| == |s[id].phaseHistory| + 1 && h[|h| - 1] == PhaseEntry("analysis", now)
  {
    assert "analysis" in Phases;
  }

  /** A `next` object carrying `_id: "report"` is cast to "report", so it moves the
      conversation to the report phase. */
  lemma IdObjectSetsPhase(s: Store, id: string, now: int, show: Json -> string)
    requires ValidStore(s) && id in s
    ensures var next := Some(JObj(map["_id" := JStr("report")]));
      SetPhase(s, id, next, now, show).Ok? && SetPhase(s, id, next, now, show).value[id].phase == "report"
  {
    assert "report" in Phases;
  }

  // ----- Latest conversation per topic ---------------------------------------------------

  /** Descending `updatedAt` order; ties keep the earlier document first. */
  function Newer(): (Conversation, Conversation) -> bool {
    (a: Conversation, b: Conversation) => a.updatedAt >= b.updatedAt
  }

  predicate NewestFirst(s: seq<Conversation>) {
    forall i, j :: 0 <= i < j < |s| ==> s[i].updatedAt >= s[j].updatedAt
  }

  lemma NewerSorted(s: seq<Conversation>)
    ensures Sorting.SortedBy(Newer(), s) <==> NewestFirst(s)
  {
  }

  lemma NewerTotal()
    ensures Sorting.TotalPreorder(Newer())
  {
  }

  /** The topics of a list of documents; a missing and a null topic form one group. */
  function TopicsOf(s: seq<Conversation>): set<Option<string>> {
    set c | c in s :: c.topic
  }

  /** `$match`: the documents that pass the filter, in collection order. */
  function Matching(cs: seq<Conversation>, keep: Conversation -> bool): (r: seq<Conversation>)
    ensures forall c :: c in r <==> c in cs && keep(c)
  {
    Sorting.Filter(cs, keep)
  }

  /** `$group` with `$first`: the first document of each topic not in `seen`, in order. */
  function Firsts(s: seq<Conversation>, seen: set<Option<string>>): (r: seq<Conversation>)
    ensures forall x :: x in r ==> x in s && x.topic !in seen
    ensures forall i, j :: 0 <= i < j < |r| ==> r[i].topic != r[j].topic
    ensures forall c :: c in s && c.topic !in seen ==> c.topic in TopicsOf(r)
    ensures NewestFirst(s) ==> NewestFirst(r)
    ensures NewestFirst(s) ==> forall x, c :: x in r && c in s && c.topic == x.topic ==> c.updatedAt <= x.updatedAt
    decreases |s|
  {
    if |s| == 0 then []
    else
      var rest := Firsts(s[1..], if s[0].topic in seen then seen else seen + {s[0].topic});
      assert forall c :: c in s <==> c == s[0] || c in s[1..];
      if s[0].topic in seen then rest
      else
        var r := [s[0]] + rest;
        assert forall x :: x in r <==> x == s[0] || x in rest;
        assert s[0].topic in TopicsOf(r);
        r
  }

  /** The listing pipeline `$match`, `$sort {updatedAt: -1}`, `$group` by topic taking each
      field from the first document, `$sort {updatedAt: -1}`, `$limit`: the newest document
      of each topic the filter keeps, newest first. */
  function Latest(cs: seq<Conversation>, keep: Conversation -> bool, limit: nat): (r: seq<Conversation>)
    ensures |r| <= limit
    ensures NewestFirst(r)
    ensures forall i, j :: 0 <= i < j < |r| ==> r[i].topic != r[j].topic
    ensures forall x :: x in r ==> x in cs && keep(x)
    ensures forall x, c :: x in r && c in cs && keep(c) && c.topic == x.topic ==> c.updatedAt <= x.updatedAt
    ensures forall c :: c in cs && keep(c) && c.topic !in TopicsOf(r) ==>
      |r| == limit && forall x :: x in r ==> x.updatedAt >= c.updatedAt
  {
    NewerTotal();
    var sorted := Sorting.SortBy(Newer(), Matching(cs, keep));
    NewerSorted(sorted);
    var groups := Firsts(sorted, {});
    GroupsFacts(cs, keep, sorted, groups);
    NewerSorted(groups);
    Sorting.SortBySorted(Newer(), groups);
    var r := Sorting.Take(Sorting.SortBy(Newer(), groups), limit);
    PrefixFacts(groups, r);
    LatestComplete(cs, keep, groups, r);
    r
  }

  /** The groups hold, for every kept topic, its newest kept document. */
  lemma GroupsFacts(cs: seq<Conversation>, keep: Conversation -> bool, sorted: seq<Conversation>,
                    groups: seq<Conversation>)
    requires multiset(sorted) == multiset(Matching(cs, keep))
    requires NewestFirst(sorted)
    requires groups == Firsts(sorted, {})
    ensures forall x :: x in groups ==> x in cs && keep(x)
    ensures forall x, c :: x in groups && c in cs && keep(c) && c.topic == x.topic ==> c.updatedAt <= x.updatedAt
    ensures forall c :: c in cs && keep(c) ==> c.topic in TopicsOf(groups)
  {
    forall c | c in cs && keep(c) ensures c in sorted {
      Sorting.SameElements(Matching(cs, keep), sorted, c);
    }
    forall x | x in sorted ensures x in cs && keep(x) {
      Sorting.SameElements(Matching(cs, keep), sorted, x);
    }
  }

  /** A prefix of a newest-first list with distinct topics is one too. */
  lemma PrefixFacts(groups: seq<Conversation>, r: seq<Conversation>)
    requires NewestFirst(groups)
    requires forall i, j :: 0 <= i < j < |groups| ==> groups[i].topic != groups[j].topic
    requires |r| <= |groups| && r == groups[..|r|]
    ensures NewestFirst(r)
    ensures forall i, j :: 0 <= i < j < |r| ==> r[i].topic != r[j].topic
    ensures forall x :: x in r ==> x in groups
  {
    forall x | x in r ensures x in groups {
      var i :| 0 <= i < |r| && r[i] == x;
      assert groups[i] == x;
    }
  }

  /** A kept topic missing from the cut listing was cut by the limit, and every listed row
      is at least as new as any of its documents. */
  lemma LatestComplete(cs: seq<Conversation>, keep: Conversation -> bool, groups: seq<Conversation>,
                       r: seq<Conversation>)
    requires NewestFirst(groups)
    requires forall x, c :: x in groups && c in cs && keep(c) && c.topic == x.topic ==> c.updatedAt <= x.updatedAt
    requires forall c :: c in cs && keep(c) ==> c.topic in TopicsOf(groups)
    requires |r| <= |groups| && r == groups[..|r|]
    ensures forall c :: c in cs && keep(c) && c.topic !in TopicsOf(r) ==>
      |r| < |groups| && forall x :: x in r ==> x.updatedAt >= c.updatedAt
  {
    forall c | c in cs && keep(c) && c.topic !in TopicsOf(r)
      ensures |r| < |groups| && forall x :: x in r ==> x.updatedAt >= c.updatedAt
    {
      var f :| f in groups && f.topic == c.topic;
      var k :| 0 <= k < |groups| && groups[k] == f;
      assert f !in r;
      assert !(k < |r|);
      forall x | x in r ensures x.updatedAt >= c.updatedAt {
        var i :| 0 <= i < |r| && r[i] == x;
        assert groups[i] == x;
      }
    }
  }

  // ----- GET /topics ---------------------------------------------------------------------

  const TopicLimit: nat := 50

  /** `$match: {topic: {$ne: null}}`: a missing topic is excluded with a null one. */
  function HasTopic(): Conversation -> bool {
    (c: Conversation) => c.topic.Some?
  }

  /** `GET /topics`: the conversations whose `_id`, `topic`, `phase` and `updatedAt` form
      the rows, one per topic, newest first. */
  function Topics(cs: seq<Conversation>): (r: seq<Conversation>)
    ensures |r| <= 50
    ensures NewestFirst(r)
    ensures forall i, j :: 0 <= i < j < |r| ==> r[i].topic != r[j].topic
    ensures forall x :: x in r ==> x in cs && x.topic.Some?
    ensures forall x, c :: x in r && c in cs && c.topic == x.topic ==> c.updatedAt <= x.updatedAt
    ensures forall c :: c in cs && c.topic.Some? && c.topic !in TopicsOf(r) ==>
      |r| == 50 && forall x :: x in r ==> x.updatedAt >= c.updatedAt
  {
    Latest(cs, HasTopic(), TopicLimit)
  }
}

=== FILE: entities.dfy ===
/** The entity graph keyed by entity id: the upserts that message extraction performs and
    the snapshot the interface reads. A Cypher `MERGE ... ON CREATE SET ... ON MATCH SET`
    is a map update here; insertion order stands in for the database's scan order. */
module Entities {
  import opened Wrappers
  import opened Js
  import opened Text
  import Llm
  import JsonText
  import Sorting

  /** A stored `:Entity` node. Absent (null) properties are `None`. */
  datatype Entity = Entity(name: Option<Json>, etype: Option<Json>, confidence: Option<real>,
                           mentions: int)

  /** A relationship is identified by its endpoints and its type. */
  datatype RelKey = RelKey(a: Json, b: Json, rtype: string)

  datatype Rel = Rel(weight: Option<real>, updatedAt: int)

  /** The graph: nodes and relationships, each with the order in which they were created. */
  datatype Graph = Graph(nodes: map<Json, Entity>, nodeOrder: seq<Json>,
                         rels: map<RelKey, Rel>, relOrder: seq<RelKey>)

  const EmptyGraph: Graph := Graph(map[], [], map[], [])

  /** The orders list each key once, every relationship joins two stored nodes, and every
      node has been mentioned at least once. */
  ghost predicate GraphInv(g: Graph) {
    && (forall i, j :: 0 <= i < j < |g.nodeOrder| ==> g.nodeOrder[i] != g.nodeOrder[j])
    && (forall k :: k in g.nodes <==> k in g.nodeOrder)
    && (forall i, j :: 0 <= i < j < |g.relOrder| ==> g.relOrder[i] != g.relOrder[j])
    && (forall k :: k in g.rels <==> k in g.relOrder)
    && (forall k :: k in g.rels ==> k.a in g.nodes && k.b in g.nodes)
    && (forall k :: k in g.nodes ==> g.nodes[k].mentions >= 1)
  }

  lemma EmptyGraphInv()
    ensures GraphInv(EmptyGraph)
  {
  }

  /** A property value as stored: `null` and absence both leave the property unset. */
  function NonNull(v: Option<Json>): (r: Option<Json>)
    ensures r.None? <==> Nullish(v)
    ensures r.Some? ==> v == r
  {
    if Nullish(v) then None else v
  }

  /** The item, passed as the statement's parameter map, carries every parameter the
      statement names. Neo4j refuses a statement with a missing parameter; a null one is
      accepted. */
  predicate HasParams(item: Json, names: set<string>) {
    item.JObj? && forall k :: k in names ==> k in item.fields
  }

  /** The parameters of the entity `MERGE`. */
  const EntityParams: set<string> := {"id", "name", "type", "confidence"}

  /** The parameters of the relationship `MERGE`. */
  const RelParams: set<string> := {"a", "b", "weight"}

  /** A value Cypher accepts as the key of a `MERGE`: not null and not a map. */
  predicate MergeKey(v: Option<Json>) {
    v.Some? && !v.value.JNull? && !v.value.JObj?
  }

  // ----- Entity upsert -----------------------------------------------------------------

  /** `ON MATCH SET n.confidence = CASE WHEN $c > n.confidence THEN $c ELSE n.confidence END`:
      a comparison with null is null, so a null on either side keeps the old value. */
  function RaiseConfidence(prev: Option<real>, given: Option<real>): (r: Option<real>)
    ensures prev.Some? && given.Some? ==> r.Some? && r.value >= prev.value && r.value >= given.value
    ensures prev.Some? && given.Some? ==> r.value == prev.value || r.value == given.value
    ensures prev.None? || given.None? ==> r == prev
  {
    if prev.Some? && given.Some? && given.value > prev.value then given else prev
  }

  /** The node an upsert leaves for an entity item, given the node already stored (if any). */
  function Merged(prev: Option<Entity>, e: Json): (n: Entity)
    ensures prev.None? ==> n == Entity(NonNull(Get(e, "name")), NonNull(Get(e, "type")),
      AsNumber(Get(e, "confidence")), 1)
    ensures prev.Some? ==> n.mentions == prev.value.mentions + 1
    ensures prev.Some? && prev.value.name.Some? ==> n.name == prev.value.name
    ensures prev.Some? && prev.value.etype.Some? ==> n.etype == prev.value.etype
    ensures prev.Some? ==> n.confidence == RaiseConfidence(prev.value.confidence, AsNumber(Get(e, "confidence")))
  {
    var name := NonNull(Get(e, "name"));
    var etype := NonNull(Get(e, "type"));
    var conf := AsNumber(Get(e, "confidence"));
    match prev
    case None => Entity(name, etype, conf, 1)
    case Some(o) =>
      Entity(if o.name.Some? then o.name else name, if o.etype.Some? then o.etype else etype,
        RaiseConfidence(o.confidence, conf), o.mentions + 1)
  }

  /** An extracted item the entity statement accepts. */
  predicate Mergeable(e: Json) {
    HasParams(e, EntityParams) && MergeKey(Get(e, "id"))
  }

  /** The entity `MERGE` for one extracted item. An item that is not an object, that lacks
      one of the statement's parameters, or whose id is null or a map, makes the statement
      fail. */
  function UpsertEntity(g: Graph, e: Json): (r: Result<Graph, string>)
    ensures r.Ok? <==> Mergeable(e)
    ensures r.Ok? ==> r.value.nodes == g.nodes[Get(e, "id").value :=
      Merged(if Get(e, "id").value in g.nodes then Some(g.nodes[Get(e, "id").value]) else None, e)]
    ensures r.Ok? ==> r.value.rels == g.rels && r.value.relOrder == g.relOrder
    ensures r.Ok? && GraphInv(g) ==> GraphInv(r.value)
  {
    if !HasParams(e, EntityParams) then Err("Neo4jError: ParameterMissing")
    else if !MergeKey(Get(e, "id")) then Err("Neo4jError: cannot merge entity")
    else
      var id := Get(e, "id").value;
      if id in g.nodes then
        Ok(g.(nodes := g.nodes[id := Merged(Some(g.nodes[id]), e)]))
      else
        var g' := Graph(g.nodes[id := Merged(None, e)], g.nodeOrder + [id], g.rels, g.relOrder);
        assert GraphInv(g) ==> GraphInv(g') by {
          if GraphInv(g) {
            assert forall k :: k in g'.nodeOrder <==> k in g.nodeOrder || k == id;
          }
        }
        Ok(g')
  }

  /** Repeated upserts of one id count mentions 1, 2, 3. */
  lemma MentionsCount(g: Graph, e: Json)
    requires Mergeable(e) && Get(e, "id").value !in g.nodes
    ensures var id := Get(e, "id").value;
      var g1 := UpsertEntity(g, e).value;
      var g2 := UpsertEntity(g1, e).value;
      var g3 := UpsertEntity(g2, e).value;
      g1.nodes[id].mentions == 1 && g2.nodes[id].mentions == 2 && g3.nodes[id].mentions == 3
  {
  }

  /** An upsert touches only its own id. */
  lemma UpsertEntityFrame(g: Graph, e: Json, k: Json)
    requires UpsertEntity(g, e).Ok? && k != Get(e, "id").value
    ensures k in UpsertEntity(g, e).value.nodes <==> k in g.nodes
    ensures k in g.nodes ==> UpsertEntity(g, e).value.nodes[k] == g.nodes[k]
  {
  }

  // ----- Relationship upsert -----------------------------------------------------------

  /** A relationship type written into the query text unquoted must be an identifier;
      anything else is a syntax error. */
  predicate IdentChar(c: char) {
    ('A' <= c <= 'Z') || ('a' <= c <= 'z') || ('0' <= c <= '9') || c == '_'
  }

  predicate Identifier(t: string) {
    |t| > 0 && !('0' <= t[0] <= '9') && forall i :: 0 <= i < |t| ==> IdentChar(t[i])
  }

  /** `ON CREATE SET rel.weight = $w`, `ON MATCH SET rel.weight = coalesce(rel.weight, 0) + $w`;
      adding null gives null, which removes the property. */
  function AddWeight(prev: Option<Rel>, w: Option<real>, now: int): (r: Rel)
    ensures prev.None? ==> r == Rel(w, now)
    ensures prev.Some? && w.Some? ==> r.weight == Some(prev.value.weight.GetOr(0.0) + w.value)
    ensures w.None? ==> r.weight.None?
    ensures r.updatedAt == now
  {
    match prev
    case None => Rel(w, now)
    case Some(o) => Rel(if w.Some? then Some(o.weight.GetOr(0.0) + w.value) else None, now)
  }

  /** Both endpoint ids of a relationship item are stored nodes. */
  predicate Joins(g: Graph, rel: Json) {
    && NonNull(Get(rel, "a")).Some? && NonNull(Get(rel, "a")).value in g.nodes
    && NonNull(Get(rel, "b")).Some? && NonNull(Get(rel, "b")).value in g.nodes
  }

  /** The relationship a joining item merges: its endpoints and its type as spliced into
      the statement. */
  /** An extracted item the relationship statement accepts. */
  predicate Relatable(rel: Json, show: Json -> string) {
    HasParams(rel, RelParams) && Identifier(StringOf(Get(rel, "type"), show))
  }

  function KeyOf(rel: Json, show: Json -> string): RelKey {
    RelKey(NonNull(Get(rel, "a")).GetOr(JNull), NonNull(Get(rel, "b")).GetOr(JNull),
      StringOf(Get(rel, "type"), show))
  }

  /** The relationship `MERGE` for one extracted item, at database time `now`. The
      statement fails when the type is not an identifier or a parameter is missing, even
      when the endpoints are not stored; otherwise it changes nothing unless both endpoint
      ids are stored. */
  function UpsertRel(g: Graph, rel: Json, show: Json -> string, now: int): (r: Result<Graph, string>)
    ensures r.Ok? <==> Relatable(rel, show)
    ensures r.Ok? && !Joins(g, rel) ==> r.value == g
    ensures r.Ok? && Joins(g, rel) ==> r.value.rels == g.rels[KeyOf(rel, show) :=
      AddWeight(if KeyOf(rel, show) in g.rels then Some(g.rels[KeyOf(rel, show)]) else None,
                AsNumber(Get(rel, "weight")), now)]
    ensures r.Ok? ==> r.value.nodes == g.nodes && r.value.nodeOrder == g.nodeOrder
    ensures r.Ok? && GraphInv(g) ==> GraphInv(r.value)
  {
    var t := StringOf(Get(rel, "type"), show);
    if !HasParams(rel, RelParams) then Err("Neo4jError: ParameterMissing")
    else if !Identifier(t) then Err("Neo4jError: invalid relationship statement")
    else
      if !Joins(g, rel) then Ok(g)
      else
        var key := KeyOf(rel, show);
        var w := AsNumber(Get(rel, "weight"));
        if key in g.rels then Ok(g.(rels := g.rels[key := AddWeight(Some(g.rels[key]), w, now)]))
        else
          var g' := g.(rels := g.rels[key := AddWeight(None, w, now)], relOrder := g.relOrder + [key]);
          assert GraphInv(g) ==> GraphInv(g') by {
            if GraphInv(g) {
              assert forall k :: k in g'.relOrder <==> k in g.relOrder || k == key;
            }
          }
          Ok(g')
  }

  /** Weights of a repeated relationship accumulate: 0.4 then 0.3 gives 0.7. */
  lemma WeightsAccumulate(g: Graph, rel: Json, show: Json -> string, t1: int, t2: int)
    requires UpsertRel(g, rel, show, t1).Ok?
    requires Get(rel, "weight") == Some(JNum(0.4))
    requires Joins(g, rel)
    requires RelKey(NonNull(Get(rel, "a")).value, NonNull(Get(rel, "b")).value,
      StringOf(Get(rel, "type"), show)) !in g.rels
    ensures var key := RelKey(NonNull(Get(rel, "a")).value, NonNull(Get(rel, "b")).value,
        StringOf(Get(rel, "type"), show));
      var rel' := JObj(rel.fields["weight" := JNum(0.3)]);
      var g1 := UpsertRel(g, rel, show, t1).value;
      var g2 := UpsertRel(g1, rel', show, t2).value;
      UpsertRel(g1, rel', show, t2).Ok? && g2.rels[key].weight == Some(0.7)
  {
    var rel' := JObj(rel.fields["weight" := JNum(0.3)]);
    assert Get(rel', "a") == Get(rel, "a") && Get(rel', "b") == Get(rel, "b");
    assert Get(rel', "type") == Get(rel, "type");
  }

  // ----- Extraction --------------------------------------------------------------------

  const ExtractChain: seq<Llm.Candidate> :=
    [Llm.Candidate("gemini", "gemini-2.0-flash"), Llm.Candidate("openai", "gpt-4o-mini")]

  const ExtractInstructions: string :=
    "Extract named entities and relationships from the text.\n"
    + "Return JSON with \"entities\" and \"relationships\".\n"
    + "Entity: { \"id\": stable-short-id, \"name\": string, \"type\": \"concept|person|org|tech|place|other\", \"confidence\": 0..1 }\n"
    + "Relationship: { \"a\": entityId, \"b\": entityId, \"type\": \"RELATED_TO|PART_OF|CONTRADICTS\", \"weight\": 0..1 }\n"
    + "Text:\n"

  function ExtractRequest(content: string): (q: Llm.Request)
    ensures StartsWith(q.prompt, ExtractInstructions) && EndsWith(q.prompt, content)
    ensures q.temperature == Some(JNum(0.0)) && q.maxTokens == Some(JNum(500.0))
  {
    var p := ExtractInstructions + content;
    assert p[..|ExtractInstructions|] == ExtractInstructions;
    Llm.Request(None, p, Some(JNum(0.0)), Some(JNum(500.0)))
  }

  /** `parseArray(text).filter(x => x[field]).flatMap(x => x[field] || [])`: the fields of
      the elements that have a truthy one, an array field contributing its elements and any
      other value itself. A non-array or a null element throws. */
  function Gather(v: Json, field: string): (r: Result<seq<Json>, string>)
    ensures r.Ok? <==> v.JArr? && forall i :: 0 <= i < |v.items| ==> !v.items[i].JNull?
    ensures r.Ok? ==> forall x :: x in r.value ==> exists i :: 0 <= i < |v.items| && FieldYields(v.items[i], field, x)
    ensures r.Ok? ==> r.value == Flatten(Contributions(v.items, field))
  {
    if !v.JArr? then Err("TypeError: filter is not a function")
    else
      var r := GatherItems(v.items, field);
      if r.Ok? then GatherFlattens(v.items, field); r else r
  }

  /** What each element contributes, one list per element, in array order. */
  function Contributions(items: seq<Json>, field: string): (r: seq<seq<Json>>)
    ensures |r| == |items|
    ensures forall i :: 0 <= i < |items| ==> r[i] == Contribution(items[i], field)
  {
    seq(|items|, i requires 0 <= i < |items| => Contribution(items[i], field))
  }

  /** The lists joined end to end, the last list last. */
  function Flatten(parts: seq<seq<Json>>): seq<Json>
    decreases |parts|
  {
    if |parts| == 0 then [] else Flatten(parts[..|parts| - 1]) + parts[|parts| - 1]
  }

  lemma {:induction false} FlattenCons(head: seq<Json>, parts: seq<seq<Json>>)
    ensures Flatten([head] + parts) == head + Flatten(parts)
    decreases |parts|
  {
    if |parts| > 0 {
      var init := parts[..|parts| - 1];
      FlattenCons(head, init);
      assert ([head] + parts)[..|parts|] == [head] + init;
    }
  }

  /** The gathered list is the elements' contributions joined in array order: nothing is
      dropped, repeated or reordered. */
  lemma {:induction false} GatherFlattens(items: seq<Json>, field: string)
    requires GatherItems(items, field).Ok?
    ensures GatherItems(items, field).value == Flatten(Contributions(items, field))
    decreases |items|
  {
    if |items| > 0 {
      GatherFlattens(items[1..], field);
      assert Contributions(items, field) == [Contribution(items[0], field)] + Contributions(items[1..], field);
      FlattenCons(Contribution(items[0], field), Contributions(items[1..], field));
    }
  }

  /** Element `item` contributes `x` to the gathered list. */
  ghost predicate FieldYields(item: Json, field: string, x: Json) {
    TruthyOpt(Get(item, field)) &&
    (if Get(item, field).value.JArr? then x in Get(item, field).value.items else x == Get(item, field).value)
  }

  function Contribution(item: Json, field: string): (r: seq<Json>)
    ensures forall x :: x in r ==> FieldYields(item, field, x)
  {
    var f := Get(item, field);
    if !TruthyOpt(f) then [] else if f.value.JArr? then f.value.items else [f.value]
  }

  function GatherItems(items: seq<Json>, field: string): (r: Result<seq<Json>, string>)
    ensures r.Ok? <==> forall i :: 0 <= i < |items| ==> !items[i].JNull?
    ensures r.Ok? ==> forall x :: x in r.value ==> exists i :: 0 <= i < |items| && FieldYields(items[i], field, x)
    decreases |items|
  {
    if |items| == 0 then Ok([])
    else if items[0].JNull? then Err("TypeError: cannot read properties of null")
    else
      match GatherItems(items[1..], field)
      case Err(e) => Err(e)
      case Ok(rest) =>
        assert forall x :: x in rest ==> exists i :: 0 <= i < |items| && FieldYields(items[i], field, x) by {
          forall x | x in rest ensures exists i :: 0 <= i < |items| && FieldYields(items[i], field, x) {
            var i :| 0 <= i < |items[1..]| && FieldYields(items[1..][i], field, x);
            assert FieldYields(items[i + 1], field, x);
          }
        }
        Ok(Contribution(items[0], field) + rest)
  }

  /** One list of the reply: the parsed object's field when it is an array, else the
      gathered fields of `parseArray`'s elements. */
  function ListFrom(out: Option<Json>, text: string, field: string, parse: string -> Option<Json>)
    : (r: Result<seq<Json>, string>)
    ensures GetOpt(out, field).Some? && GetOpt(out, field).value.JArr? ==>
      r == Ok(GetOpt(out, field).value.items)
    ensures !(GetOpt(out, field).Some? && GetOpt(out, field).value.JArr?) ==>
      r == Gather(JsonText.ParseArray(text, parse), field)
  {
    var f := GetOpt(out, field);
    if f.Some? && f.value.JArr? then Ok(f.value.items)
    else Gather(JsonText.ParseArray(text, parse), field)
  }

  /** The outcome of an extraction: the graph afterwards and whether the run finished. */
  datatype Run = Run(graph: Graph, completed: bool)

  /** The entity upserts in order; a failing statement ends the loop with the earlier
      writes kept. */
  function UpsertEntities(g: Graph, es: seq<Json>): (r: Run)
    ensures GraphInv(g) ==> GraphInv(r.graph)
    ensures r.graph.rels == g.rels
    ensures forall k :: k in g.nodes ==> k in r.graph.nodes
    ensures r.completed <==> forall i :: 0 <= i < |es| ==> Mergeable(es[i])
    ensures r.completed ==> forall i :: 0 <= i < |es| ==> Get(es[i], "id").value in r.graph.nodes
    decreases |es|
  {
    if |es| == 0 then Run(g, true)
    else match UpsertEntity(g, es[0])
      case Err(_) => Run(g, false)
      case Ok(g') =>
        var r := UpsertEntities(g', es[1..]);
        assert forall i :: 1 <= i < |es| ==> es[i] == es[1..][i - 1];
        r
  }

  /** The relationship upserts in order, stamped with the database clock; a failing
      statement ends the loop with the earlier writes kept. */
  function UpsertRels(g: Graph, rs: seq<Json>, show: Json -> string, clock: nat -> int, t: nat)
    : (r: Run)
    ensures GraphInv(g) ==> GraphInv(r.graph)
    ensures r.graph.nodes == g.nodes
    ensures forall k :: k in g.rels ==> k in r.graph.rels
    ensures r.completed <==> forall i :: 0 <= i < |rs| ==> Relatable(rs[i], show)
    ensures r.completed ==> forall x :: x in rs && Joins(r.graph, x) ==> KeyOf(x, show) in r.graph.rels
    decreases |rs|
  {
    if |rs| == 0 then Run(g, true)
    else match UpsertRel(g, rs[0], show, clock(t))
      case Err(_) => Run(g, false)
      case Ok(g') =>
        assert forall k :: k in g.rels ==> k in g'.rels;
        var r := UpsertRels(g', rs[1..], show, clock, t + 1);
        assert forall x :: x in rs ==> x == rs[0] || x in rs[1..];
        assert forall i :: 1 <= i < |rs| ==> rs[i] == rs[1..][i - 1];
        r
  }

  /** The entity loop read per item: it completes exactly when every listed item is
      accepted, and then every listed id is a stored node. */
  lemma EntitiesStored(g: Graph, es: seq<Json>)
    ensures var r := UpsertEntities(g, es);
      && (r.completed <==> forall e :: e in es ==> Mergeable(e))
      && (r.completed ==> forall e :: e in es ==> MergeKey(Get(e, "id")) && Get(e, "id").value in r.graph.nodes)
  {
    forall e | e in es ensures exists i :: 0 <= i < |es| && es[i] == e {
      var i :| 0 <= i < |es| && es[i] == e;
    }
  }

  /** The relationship loop read per item: it completes exactly when every listed item is
      accepted. */
  lemma RelsAccepted(g: Graph, rs: seq<Json>, show: Json -> string, clock: nat -> int, t: nat)
    ensures UpsertRels(g, rs, show, clock, t).completed <==> forall x :: x in rs ==> Relatable(x, show)
  {
    assert forall x :: x in rs ==> exists i :: 0 <= i < |rs| && rs[i] == x;
  }

  /** The services extraction uses. */
  datatype Services = Services(
    env: Llm.Env, call: (Llm.Config, Llm.Request) -> Llm.Attempt,
    parse: string -> Option<Json>, show: Json -> string, clock: nat -> int)

  /** A completed run over the reply `text` has stored every extracted entity under its id
      and every extracted relationship whose endpoints are stored nodes. */
  ghost predicate Stored(svc: Services, text: string, r: Run) {
    var es := ListFrom(svc.parse(text), text, "entities", svc.parse);
    var rs := ListFrom(svc.parse(text), text, "relationships", svc.parse);
    r.completed ==>
      && es.Ok? && rs.Ok?
      && (forall e :: e in es.value ==> MergeKey(Get(e, "id")) && Get(e, "id").value in r.graph.nodes)
      && (forall x :: x in rs.value && Joins(r.graph, x) ==> KeyOf(x, svc.show) in r.graph.rels)
  }

  /** Whether the writes for the reply `text` run to the end: both lists can be read, every
      entity is accepted by the entity statement and every relationship by the relationship
      statement. */
  ghost predicate Completes(svc: Services, text: string) {
    var es := ListFrom(svc.parse(text), text, "entities", svc.parse);
    var rs := ListFrom(svc.parse(text), text, "relationships", svc.parse);
    && es.Ok? && rs.Ok?
    && (forall e :: e in es.value ==> Mergeable(e))
    && (forall x :: x in rs.value ==> Relatable(x, svc.show))
  }

  /** The extraction call for a message's content. */
  function ExtractCall(svc: Services, content: string): Llm.Run {
    Llm.WithFallback(svc.env, ExtractChain, ExtractRequest(content), svc.call)
  }

  /** `extractEntitiesForMessage(id)` given the looked-up message content. */
  function ExtractEntities(svc: Services, g: Graph, content: Option<string>): (r: Run)
    ensures content.None? ==> r == Run(g, true)
    ensures content.Some? && ExtractCall(svc, content.value).outcome.Err? ==> r == Run(g, false)
    ensures content.Some? && ExtractCall(svc, content.value).outcome.Ok? ==>
      && Stored(svc, ExtractCall(svc, content.value).outcome.value.text, r)
      && (r.completed <==> Completes(svc, ExtractCall(svc, content.value).outcome.value.text))
    ensures GraphInv(g) ==> GraphInv(r.graph)
    ensures forall k :: k in g.nodes ==> k in r.graph.nodes
    ensures forall k :: k in g.rels ==> k in r.graph.rels
  {
    match content
    case None => Run(g, true)
    case Some(c) =>
      var run := ExtractCall(svc, c);
      match run.outcome
      case Err(_) => Run(g, false)
      case Ok(res) => Apply(svc, g, res.text)
  }

  /** The writes a reply leads to. */
  function Apply(svc: Services, g: Graph, text: string): (r: Run)
    ensures GraphInv(g) ==> GraphInv(r.graph)
    ensures forall k :: k in g.nodes ==> k in r.graph.nodes
    ensures forall k :: k in g.rels ==> k in r.graph.rels
    ensures (ListFrom(svc.parse(text), text, "entities", svc.parse) == Ok([])
      && ListFrom(svc.parse(text), text, "relationships", svc.parse) == Ok([])) ==> r == Run(g, true)
    ensures Stored(svc, text, r)
    ensures r.completed <==> Completes(svc, text)
  {
    var out := svc.parse(text);
    match ListFrom(out, text, "entities", svc.parse)
    case Err(_) => Run(g, false)
    case Ok(es) =>
      match ListFrom(out, text, "relationships", svc.parse)
      case Err(_) => Run(g, false)
      case Ok(rs) =>
        if |es| == 0 && |rs| == 0 then Run(g, true)
        else
          var r1 := UpsertEntities(g, es);
          EntitiesStored(g, es);
          if !r1.completed then r1
          else
            var r2 := UpsertRels(r1.graph, rs, svc.show, svc.clock, 0);
            RelsAccepted(r1.graph, rs, svc.show, svc.clock, 0);
            r2
  }

  // ----- Snapshot ----------------------------------------------------------------------

  datatype NodeView = NodeView(id: Json, name: Option<Json>, etype: Option<Json>,
                               confidence: real, mentions: int)

  datatype EdgeView = EdgeView(a: Json, b: Json, rtype: string, weight: real)

  datatype Snapshot = Snapshot(nodes: seq<NodeView>, edges: seq<EdgeView>)

  /** A node as the snapshot reports it: a missing confidence reads as 0. */
  function ViewOf(id: Json, e: Entity): NodeView {
    NodeView(id, e.name, e.etype, e.confidence.GetOr(0.0), e.mentions)
  }

  /** The stored nodes in scan order. */
  function NodeViews(nodes: map<Json, Entity>, order: seq<Json>): (vs: seq<NodeView>)
    ensures |vs| <= |order|
    ensures forall v :: v in vs ==> v.id in nodes && v == ViewOf(v.id, nodes[v.id])
  {
    if |order| == 0 then []
    else
      var here := if order[0] in nodes then [ViewOf(order[0], nodes[order[0]])] else [];
      here + NodeViews(nodes, order[1..])
  }

  /** Every stored node the scan visits is in the scan. */
  lemma {:induction false} NodeViewsHas(nodes: map<Json, Entity>, order: seq<Json>, k: Json)
    requires k in order && k in nodes
    ensures ViewOf(k, nodes[k]) in NodeViews(nodes, order)
  {
    if order[0] != k {
      NodeViewsHas(nodes, order[1..], k);
    }
  }

  /** A scan over stored ids yields one view per id. */
  lemma {:induction false} NodeViewsCount(nodes: map<Json, Entity>, order: seq<Json>)
    requires forall k :: k in order ==> k in nodes
    ensures |NodeViews(nodes, order)| == |order|
  {
    if |order| > 0 {
      NodeViewsCount(nodes, order[1..]);
    }
  }

  /** No two views share an id. */
  ghost predicate DistinctIds(vs: seq<NodeView>) {
    forall i, j :: 0 <= i < j < |vs| ==> vs[i].id != vs[j].id
  }

  /** A scan over stored ids yields their views in order. */
  lemma {:induction false} NodeViewsAt(nodes: map<Json, Entity>, order: seq<Json>)
    requires forall k :: k in order ==> k in nodes
    ensures |NodeViews(nodes, order)| == |order|
    ensures forall i :: 0 <= i < |order| ==> NodeViews(nodes, order)[i] == ViewOf(order[i], nodes[order[i]])
  {
    if |order| > 0 {
      NodeViewsAt(nodes, order[1..]);
      assert forall i :: 1 <= i < |order| ==> order[i] == order[1..][i - 1];
    }
  }

  /** `ORDER BY n.mentions DESC`. */
  function ByMentions(): (NodeView, NodeView) -> bool {
    (x: NodeView, y: NodeView) => x.mentions >= y.mentions
  }

  lemma ByMentionsTotal()
    ensures Sorting.TotalPreorder(ByMentions())
  {
  }

  /** An edge as the snapshot reports it: a missing weight reads as 0.1. */
  function EdgeOf(k: RelKey, r: Rel): EdgeView {
    EdgeView(k.a, k.b, k.rtype, r.weight.GetOr(0.1))
  }

  /** The stored relationships between two of `ids`. */
  ghost function RelsWithin(g: Graph, ids: set<Json>): set<RelKey> {
    set k | k in g.rels && k.a in ids && k.b in ids
  }

  /** The relationships, in scan order, whose endpoints are both among `ids`. */
  function EdgesWithin(rels: map<RelKey, Rel>, order: seq<RelKey>, ids: set<Json>): (es: seq<EdgeView>)
    ensures |es| <= |order|
    ensures forall e :: e in es ==> exists k :: k in rels && k.a in ids && k.b in ids && e == EdgeOf(k, rels[k])
  {
    if |order| == 0 then []
    else
      var k := order[0];
      var here := if k in rels && k.a in ids && k.b in ids then [EdgeOf(k, rels[k])] else [];
      here + EdgesWithin(rels, order[1..], ids)
  }

  /** Every qualifying relationship the scan visits is in the scan. */
  lemma {:induction false} EdgesWithinHas(rels: map<RelKey, Rel>, order: seq<RelKey>, ids: set<Json>, k: RelKey)
    requires k in order && k in rels && k.a in ids && k.b in ids
    ensures EdgeOf(k, rels[k]) in EdgesWithin(rels, order, ids)
  {
    if order[0] != k {
      EdgesWithinHas(rels, order[1..], ids, k);
    }
  }

  /** A scan without repeats yields one edge per qualifying relationship. */
  lemma {:induction false} EdgesWithinCount(rels: map<RelKey, Rel>, order: seq<RelKey>, ids: set<Json>)
    requires Sorting.Distinct(order)
    ensures |EdgesWithin(rels, order, ids)| == |set k | k in order && k in rels && k.a in ids && k.b in ids|
  {
    if |order| > 0 {
      var rest := order[1..];
      assert Sorting.Distinct(rest) by {
        forall i, j | 0 <= i < j < |rest| ensures rest[i] != rest[j] {
          assert rest[i] == order[i + 1] && rest[j] == order[j + 1];
        }
      }
      EdgesWithinCount(rels, rest, ids);
      var k := order[0];
      var all := set x | x in order && x in rels && x.a in ids && x.b in ids;
      var tail := set x | x in rest && x in rels && x.a in ids && x.b in ids;
      assert k !in rest by {
        forall j | 0 <= j < |rest| ensures rest[j] != k {
          assert rest[j] == order[j + 1];
        }
      }
      if k in rels && k.a in ids && k.b in ids {
        assert all == tail + {k};
      } else {
        assert all == tail;
      }
    }
  }

  function Ids(vs: seq<NodeView>): (s: set<Json>)
    ensures forall v :: v in vs ==> v.id in s
    ensures forall x :: x in s ==> exists v :: v in vs && v.id == x
  {
    set v | v in vs :: v.id
  }

  /** The nodes kept by a top-`limit` selection `top` of the scan: none left out has more
      mentions than a kept one. */
  lemma TopOutranks(g: Graph, top: seq<NodeView>)
    ensures GraphInv(g)
      && (forall m, x :: m in NodeViews(g.nodes, g.nodeOrder) && m !in top && x in top ==> ByMentions()(x, m))
      ==> forall k, v :: k in g.nodes && k !in Ids(top) && v in top ==> v.mentions >= g.nodes[k].mentions
  {
    if GraphInv(g)
      && (forall m, x :: m in NodeViews(g.nodes, g.nodeOrder) && m !in top && x in top ==> ByMentions()(x, m))
    {
      forall k, v | k in g.nodes && k !in Ids(top) && v in top
        ensures v.mentions >= g.nodes[k].mentions
      {
        NodeViewsHas(g.nodes, g.nodeOrder, k);
        assert ViewOf(k, g.nodes[k]) !in top;
      }
    }
  }

  /** A selection holding the whole scan lists every stored node when they fit. */
  lemma TopCovers(g: Graph, top: seq<NodeView>, limit: nat)
    ensures GraphInv(g) && |g.nodes| <= limit
      && (|NodeViews(g.nodes, g.nodeOrder)| <= limit ==> multiset(top) == multiset(NodeViews(g.nodes, g.nodeOrder)))
      ==> forall k :: k in g.nodes ==> k in Ids(top)
  {
    var views := NodeViews(g.nodes, g.nodeOrder);
    if GraphInv(g) && |g.nodes| <= limit && (|views| <= limit ==> multiset(top) == multiset(views)) {
      NodeViewsCount(g.nodes, g.nodeOrder);
      Sorting.DistinctCard(g.nodeOrder);
      assert (set x | x in g.nodeOrder) == g.nodes.Keys;
      forall k | k in g.nodes ensures k in Ids(top) {
        NodeViewsHas(g.nodes, g.nodeOrder, k);
        Sorting.SameElements(views, top, ViewOf(k, g.nodes[k]));
      }
    }
  }

  /** A top-`limit` selection `top` of the scan, as long as the scan allows and without
      repeats, holds `limit` nodes, or every node when fewer are stored, each once. */
  lemma TopSize(g: Graph, top: seq<NodeView>, limit: nat)
    ensures var views := NodeViews(g.nodes, g.nodeOrder);
      GraphInv(g) && |top| == (if |views| < limit then |views| else limit)
      && (Sorting.Distinct(views) ==> Sorting.Distinct(top)) && (forall v :: v in top ==> v in views)
      ==> |top| == (if |g.nodes| < limit then |g.nodes| else limit) && DistinctIds(top)
  {
    var views := NodeViews(g.nodes, g.nodeOrder);
    if GraphInv(g) && |top| == (if |views| < limit then |views| else limit)
      && (Sorting.Distinct(views) ==> Sorting.Distinct(top)) && (forall v :: v in top ==> v in views)
    {
      NodeViewsAt(g.nodes, g.nodeOrder);
      Sorting.DistinctCard(g.nodeOrder);
      assert (set x | x in g.nodeOrder) == g.nodes.Keys;
      assert Sorting.Distinct(views) by {
        forall i, j | 0 <= i < j < |views| ensures views[i] != views[j] {
          assert views[i].id == g.nodeOrder[i] && views[j].id == g.nodeOrder[j];
        }
      }
      forall i, j | 0 <= i < j < |top| ensures top[i].id != top[j].id {
        assert top[i] in views && top[j] in views;
      }
    }
  }

  /** The edge scan among `ids` lists every stored relationship between two of them, one
      edge each. */
  lemma EdgesAmong(g: Graph, ids: set<Json>)
    ensures GraphInv(g) ==> |EdgesWithin(g.rels, g.relOrder, ids)| == |RelsWithin(g, ids)|
    ensures GraphInv(g) ==>
      forall k :: k in RelsWithin(g, ids) ==> EdgeOf(k, g.rels[k]) in EdgesWithin(g.rels, g.relOrder, ids)
  {
    if !GraphInv(g) {
      return;
    }
    EdgesWithinCount(g.rels, g.relOrder, ids);
    assert (set k | k in g.relOrder && k in g.rels && k.a in ids && k.b in ids) == RelsWithin(g, ids);
    forall k | k in RelsWithin(g, ids) ensures EdgeOf(k, g.rels[k]) in EdgesWithin(g.rels, g.relOrder, ids) {
      EdgesWithinHas(g.rels, g.relOrder, ids, k);
    }
  }

  /** The node half of the snapshot: the `limit` most-mentioned nodes, each once. */
  function TopNodes(g: Graph, limit: nat): (top: seq<NodeView>)
    ensures |top| <= limit
    ensures Sorting.SortedBy(ByMentions(), top)
    ensures forall v :: v in top ==> v.id in g.nodes && v == ViewOf(v.id, g.nodes[v.id])
    ensures GraphInv(g) ==> forall k, v :: k in g.nodes && k !in Ids(top) && v in top ==>
      v.mentions >= g.nodes[k].mentions
    ensures GraphInv(g) && |g.nodes| <= limit ==> forall k :: k in g.nodes ==> k in Ids(top)
    ensures GraphInv(g) ==> |top| == (if |g.nodes| < limit then |g.nodes| else limit)
    ensures GraphInv(g) ==> DistinctIds(top)
  {
    ByMentionsTotal();
    var top := Sorting.TopN(ByMentions(), NodeViews(g.nodes, g.nodeOrder), limit);
    TopOutranks(g, top);
    TopCovers(g, top, limit);
    TopSize(g, top, limit);
    top
  }

  /** The edge half of the snapshot: at most `cap` of the stored edges between two of
      `ids`, all of them when they fit. */
  function TopEdges(g: Graph, ids: set<Json>, cap: nat): (es: seq<EdgeView>)
    ensures |es| <= cap
    ensures forall e :: e in es ==> exists k :: k in RelsWithin(g, ids) && e == EdgeOf(k, g.rels[k])
    ensures GraphInv(g) && |RelsWithin(g, ids)| <= cap ==>
      forall k :: k in RelsWithin(g, ids) ==> EdgeOf(k, g.rels[k]) in es
  {
    var within := EdgesWithin(g.rels, g.relOrder, ids);
    var edges := Sorting.Take(within, cap);
    assert forall e :: e in edges ==> e in within;
    EdgesAmong(g, ids);
    edges
  }

  /** `getGraphSnapshot(limit)`: the `limit` most-mentioned nodes, then at most 2000 edges
      among them. */
  function GraphSnapshot(g: Graph, limit: nat): (s: Snapshot)
    ensures |s.nodes| <= limit
    ensures Sorting.SortedBy(ByMentions(), s.nodes)
    ensures forall v :: v in s.nodes ==> v.id in g.nodes && v == ViewOf(v.id, g.nodes[v.id])
    ensures GraphInv(g) ==> forall k, v :: k in g.nodes && k !in Ids(s.nodes) && v in s.nodes ==>
      v.mentions >= g.nodes[k].mentions
    ensures GraphInv(g) && |g.nodes| <= limit ==> forall k :: k in g.nodes ==> k in Ids(s.nodes)
    ensures GraphInv(g) ==> |s.nodes| == (if |g.nodes| < limit then |g.nodes| else limit)
    ensures GraphInv(g) ==> DistinctIds(s.nodes)
    ensures |s.edges| <= 2000
    ensures forall e :: e in s.edges ==> exists k :: k in RelsWithin(g, Ids(s.nodes)) && e == EdgeOf(k, g.rels[k])
    ensures GraphInv(g) && |RelsWithin(g, Ids(s.nodes))| <= 2000 ==>
      forall k :: k in RelsWithin(g, Ids(s.nodes)) ==> EdgeOf(k, g.rels[k]) in s.edges
  {
    var top := TopNodes(g, limit);
    Snapshot(top, TopEdges(g, Ids(top), 2000))
  }
}

=== FILE: inheritance.dfy ===
/** Effective configuration of a context node: the origin map built from the node's lineage
    with first-write-wins per dotted path, and the nested `effective` object rebuilt from it. */
module Inheritance {
  import opened Wrappers
  import opened Js
  import opened Text
  import opened Models

  /** Names a plain JavaScript object inherits from `Object.prototype`. The test
      `key in origins` on an object literal already holds for them, so the fold never
      records such a key. */
  const InheritedNames: set<string> := {
    "constructor", "__proto__", "hasOwnProperty", "isPrototypeOf", "propertyIsEnumerable",
    "toString", "toLocaleString", "valueOf", "__defineGetter__", "__defineSetter__",
    "__lookupGetter__", "__lookupSetter__"}

  const NotFoundMessage: string := "Context not found"
  const RebuildTypeError: string := "TypeError: Cannot create property on a non-object value"

  /** Where an effective value came from. */
  datatype Origin = Origin(value: Json, originId: string, originLevel: string)

  /** The origin map as its list of entries in insertion order (keys are distinct). */
  type Origins = seq<(string, Origin)>

  type Entries = seq<(string, Json)>

  /** The origin recorded for `k`, if any. */
  function Find(os: Origins, k: string): (r: Option<Origin>)
    ensures r.Some? ==> exists i :: 0 <= i < |os| && os[i] == (k, r.value)
    decreases |os|
  {
    if |os| == 0 then None
    else if os[0].0 == k then Some(os[0].1)
    else
      var r := Find(os[1..], k);
      assert r.Some? ==> exists i :: 0 <= i < |os[1..]| && os[1..][i] == (k, r.value);
      r
  }

  /** The value of the first entry with key `k`. */
  function FirstValue(es: Entries, k: string): Option<Json>
    decreases |es|
  {
    if |es| == 0 then None
    else if es[0].0 == k then Some(es[0].1)
    else FirstValue(es[1..], k)
  }

  /** `prefix ? `${prefix}.${k}` : k`. */
  function PathOf(prefix: string, k: string): string {
    if prefix == "" then k else prefix + "." + k
  }

  /** The dotted path split into its segments, as the rebuild walks it. */
  function Parts(path: string): (ps: seq<string>)
    ensures |ps| >= 1
  {
    Split(path, '.')
  }

  function Prefixed(prefix: string, es: Entries): (r: Entries)
    ensures |r| == |es|
    ensures forall i :: 0 <= i < |es| ==> r[i] == (PathOf(prefix, es[i].0), es[i].1)
  {
    seq(|es|, i requires 0 <= i < |es| => (PathOf(prefix, es[i].0), es[i].1))
  }

  function TraitEntries(t: Traits): (es: Entries)
    ensures |es| == |TraitKeys|
    ensures forall i :: 0 <= i < |es| ==> es[i] == (TraitKeys[i], JNum(TraitValues(t)[i]))
  {
    seq(|TraitKeys|, i requires 0 <= i < |TraitKeys| => (TraitKeys[i], JNum(TraitValues(t)[i])))
  }

  /** The stored model block's own fields in schema order; `parameters` only when set. */
  function ModelConfigEntries(m: ModelConfig): Entries {
    [("provider", JStr(m.provider)), ("model", JStr(m.model)),
     ("temperature", JNum(m.temperature)), ("maxTokens", JNum(m.maxTokens as real)),
     ("contextWindow", JNum(m.contextWindow as real))]
    + (match m.parameters case None => [] case Some(p) => [("parameters", p)])
  }

  /** Everything one node contributes, in the order the three `assign` calls visit it:
      property-bag keys unprefixed, trait keys under `traits.`, and model keys under
      `modelConfig.` only when the node has a model block. */
  function NodeEntries(n: ContextNode): Entries {
    Prefixed("", n.properties) + (Prefixed("traits", TraitEntries(n.traits)) + ModelEntries(n))
  }

  /** The model block's paths, when the node has one. */
  function ModelEntries(n: ContextNode): Entries {
    match n.modelConfig
    case None => []
    case Some(m) => Prefixed("modelConfig", ModelConfigEntries(m))
  }

  /** True iff `assign` would skip `k` because the origin object already answers `k in`. */
  predicate Taken(os: Origins, k: string) {
    k in InheritedNames || Find(os, k).Some?
  }

  /** One `assign` call: records each entry whose key is not yet taken. */
  function Assign(os: Origins, es: Entries, id: string, level: string): (r: Origins)
    ensures |os| <= |r| && r[..|os|] == os
    decreases |es|
  {
    if |es| == 0 then os
    else
      var os' := if Taken(os, es[0].0) then os else os + [(es[0].0, Origin(es[0].1, id, level))];
      Assign(os', es[1..], id, level)
  }

  /** Visits the nodes in the given order. */
  function Fold(os: Origins, order: seq<ContextNode>): (r: Origins)
    ensures |os| <= |r| && r[..|os|] == os
    decreases |order|
  {
    if |order| == 0 then os
    else Fold(Assign(os, NodeEntries(order[0]), order[0].id, order[0].level), order[1..])
  }

  /** The origin map of a processing order. */
  function Collect(order: seq<ContextNode>): Origins {
    Fold([], order)
  }

  /** The lineage order of the source: the ancestors as retrieved, then the node itself. */
  function ProcessingOrder(node: ContextNode, ancestors: seq<ContextNode>): seq<ContextNode> {
    ancestors + [node]
  }

  // ----- Reference definition of the origin of a path --------------------------------

  /** The index of the first element of `s` satisfying `p`. */
  function FirstWhere<T>(p: T -> bool, s: seq<T>): (r: Option<nat>)
    ensures r.Some? ==> r.value < |s| && p(s[r.value])
    ensures r.Some? ==> forall j :: 0 <= j < r.value ==> !p(s[j])
    ensures r.None? ==> forall j :: 0 <= j < |s| ==> !p(s[j])
    decreases |s|
  {
    if |s| == 0 then None
    else if p(s[0]) then Some(0)
    else match FirstWhere(p, s[1..])
      case None => None
      case Some(i) => Some(i + 1)
  }

  lemma {:induction false} FirstWherePrefix<T>(p: T -> bool, a: seq<T>, b: seq<T>)
    ensures FirstWhere(p, a + b) ==
      if FirstWhere(p, a).Some? then FirstWhere(p, a)
      else match FirstWhere(p, b) case None => None case Some(i) => Some(|a| + i)
    decreases |a|
  {
    if |a| > 0 {
      assert (a + b)[0] == a[0];
      assert (a + b)[1..] == a[1..] + b;
      FirstWherePrefix(p, a[1..], b);
    } else {
      assert a + b == b;
    }
  }

  /** Whether a node defines the path `k`. */
  function Defines(k: string): ContextNode -> bool {
    n => FirstValue(NodeEntries(n), k).Some?
  }

  /** The index of the first node in `order` that defines `k`. */
  function FirstDefiner(order: seq<ContextNode>, k: string): (r: Option<nat>)
    ensures r.Some? ==> r.value < |order| && FirstValue(NodeEntries(order[r.value]), k).Some?
    ensures r.Some? ==> forall j :: 0 <= j < r.value ==> FirstValue(NodeEntries(order[j]), k).None?
    ensures r.None? ==> forall j :: 0 <= j < |order| ==> FirstValue(NodeEntries(order[j]), k).None?
  {
    FirstWhere(Defines(k), order)
  }

  /** The origin the first-write-wins rule promises for `k`: the first node in processing
      order that defines `k`, with the first value that node gives it. */
  function ExpectedOrigin(order: seq<ContextNode>, k: string): Option<Origin> {
    if k in InheritedNames then None
    else match FirstDefiner(order, k)
      case None => None
      case Some(i) => Some(Origin(FirstValue(NodeEntries(order[i]), k).value, order[i].id, order[i].level))
  }

  lemma {:induction false} FindAppend(os: Origins, e: (string, Origin), k: string)
    requires Find(os, e.0).None?
    ensures Find(os + [e], k) == if Find(os, k).Some? then Find(os, k) else if e.0 == k then Some(e.1) else None
    decreases |os|
  {
    if |os| == 0 {
    } else {
      assert (os + [e])[1..] == os[1..] + [e];
      if os[0].0 != e.0 {
        FindAppend(os[1..], e, k);
      }
    }
  }

  lemma {:induction false} AssignFind(os: Origins, es: Entries, id: string, level: string, k: string)
    ensures Find(Assign(os, es, id, level), k) ==
      if Find(os, k).Some? then Find(os, k)
      else if k in InheritedNames then None
      else match FirstValue(es, k) case None => None case Some(v) => Some(Origin(v, id, level))
    decreases |es|
  {
    if |es| > 0 {
      var os' := if Taken(os, es[0].0) then os else os + [(es[0].0, Origin(es[0].1, id, level))];
      if !Taken(os, es[0].0) {
        FindAppend(os, (es[0].0, Origin(es[0].1, id, level)), k);
      }
      AssignFind(os', es[1..], id, level, k);
    }
  }

  lemma {:induction false} FoldFind(os: Origins, order: seq<ContextNode>, k: string)
    ensures Find(Fold(os, order), k) ==
      if Find(os, k).Some? then Find(os, k) else ExpectedOrigin(order, k)
    decreases |order|
  {
    if |order| > 0 {
      var os' := Assign(os, NodeEntries(order[0]), order[0].id, order[0].level);
      AssignFind(os, NodeEntries(order[0]), order[0].id, order[0].level, k);
      FoldFind(os', order[1..], k);
      ExpectedOriginStep(order, k);
    }
  }

  /** The promised origin is the head node's own value for `k` if it has one, and
      otherwise the one promised by the rest of the order. */
  lemma ExpectedOriginStep(order: seq<ContextNode>, k: string)
    requires |order| > 0
    ensures ExpectedOrigin(order, k) ==
      if k in InheritedNames then None
      else match FirstValue(NodeEntries(order[0]), k)
        case Some(v) => Some(Origin(v, order[0].id, order[0].level))
        case None => ExpectedOrigin(order[1..], k)
  {
    if k !in InheritedNames && FirstValue(NodeEntries(order[0]), k).None? {
      match FirstDefiner(order[1..], k)
      case None =>
      case Some(i) => assert order[i + 1] == order[1..][i];
    }
  }

  /** The origin map records, for every path, exactly the origin the first-write-wins rule
      promises: the first node in processing order that defines it. Paths that no node
      defines, and names inherited from `Object.prototype`, have no origin. */
  lemma OriginIsFirstDefinition(order: seq<ContextNode>, k: string)
    ensures Find(Collect(order), k) == ExpectedOrigin(order, k)
  {
    FoldFind([], order, k);
  }

  /** Once a path has an origin, processing further nodes never changes it. */
  lemma {:induction false} FirstWriteWins(first: seq<ContextNode>, later: seq<ContextNode>, k: string)
    requires Find(Collect(first), k).Some?
    ensures Find(Collect(first + later), k) == Find(Collect(first), k)
  {
    FoldConcat([], first, later);
    FoldFind(Collect(first), later, k);
  }

  lemma {:induction false} FoldConcat(os: Origins, a: seq<ContextNode>, b: seq<ContextNode>)
    ensures Fold(os, a + b) == Fold(Fold(os, a), b)
    decreases |a|
  {
    if |a| > 0 {
      assert (a + b)[0] == a[0];
      assert (a + b)[1..] == a[1..] + b;
      FoldConcat(Assign(os, NodeEntries(a[0]), a[0].id, a[0].level), a[1..], b);
    } else {
      assert a + b == b;
    }
  }

  /** With the source's processing order, the node's own value is used for a path only
      when no ancestor defines it; otherwise the first defining ancestor supplies it. */
  lemma {:induction false} AncestorsTakePrecedence(node: ContextNode, ancestors: seq<ContextNode>, k: string)
    requires k !in InheritedNames
    ensures FirstDefiner(ancestors, k).Some? ==>
      var i := FirstDefiner(ancestors, k).value;
      Find(Collect(ProcessingOrder(node, ancestors)), k)
        == Some(Origin(FirstValue(NodeEntries(ancestors[i]), k).value, ancestors[i].id, ancestors[i].level))
    ensures FirstDefiner(ancestors, k).None? ==>
      Find(Collect(ProcessingOrder(node, ancestors)), k)
        == (match FirstValue(NodeEntries(node), k)
            case None => None
            case Some(v) => Some(Origin(v, node.id, node.level)))
  {
    var order := ProcessingOrder(node, ancestors);
    OriginIsFirstDefinition(order, k);
    FirstWherePrefix(Defines(k), ancestors, [node]);
    if FirstDefiner(ancestors, k).None? {
      assert order[|ancestors|] == node;
      assert [node][1..] == [];
    }
  }

  // ----- Path naming -----------------------------------------------------------------

  lemma {:induction false} FirstValueAppend(a: Entries, b: Entries, k: string)
    ensures FirstValue(a + b, k) == if FirstValue(a, k).Some? then FirstValue(a, k) else FirstValue(b, k)
    decreases |a|
  {
    if |a| > 0 {
      assert (a + b)[1..] == a[1..] + b;
      FirstValueAppend(a[1..], b, k);
    } else {
      assert a + b == b;
    }
  }

  lemma {:induction false} FirstValuePrefixed(prefix: string, es: Entries, i: nat)
    requires i < |es|
    ensures FirstValue(Prefixed(prefix, es), PathOf(prefix, es[i].0)).Some?
    decreases i
  {
    var ps := Prefixed(prefix, es);
    if ps[0].0 != PathOf(prefix, es[i].0) {
      assert i > 0;
      assert Prefixed(prefix, es)[1..] == Prefixed(prefix, es[1..]);
      FirstValuePrefixed(prefix, es[1..], i - 1);
    }
  }

  /** Every stored node defines every `traits.*` path, because the schema gives every trait
      a default. */
  lemma NodeDefinesTraits(n: ContextNode, i: nat)
    requires i < |TraitKeys|
    ensures FirstValue(NodeEntries(n), "traits." + TraitKeys[i]).Some?
  {
    var k := "traits." + TraitKeys[i];
    var traits := Prefixed("traits", TraitEntries(n.traits));
    var rest := ModelEntries(n);
    FirstValuePrefixed("traits", TraitEntries(n.traits), i);
    TraitPath(TraitEntries(n.traits)[i].0);
    FirstValueAppend(traits, rest, k);
    FirstValueAppend(Prefixed("", n.properties), traits + rest, k);
  }

  lemma TraitPath(key: string)
    ensures PathOf("traits", key) == "traits." + key
  {
  }

  /** Consequently every `traits.*` origin comes from the first node of the processing order,
      i.e. from the first retrieved ancestor whenever there is one. */
  lemma TraitsComeFromFirstNode(order: seq<ContextNode>, i: nat)
    requires |order| > 0 && i < |TraitKeys|
    ensures Find(Collect(order), "traits." + TraitKeys[i]).Some?
    ensures Find(Collect(order), "traits." + TraitKeys[i]).value.originId == order[0].id
  {
    var k := "traits." + TraitKeys[i];
    NodeDefinesTraits(order[0], i);
    assert k[..7] == "traits.";
    assert k !in InheritedNames;
    OriginIsFirstDefinition(order, k);
  }

  lemma {:induction false} FirstValueKeyIn(es: Entries, k: string)
    requires FirstValue(es, k).Some?
    ensures exists j :: 0 <= j < |es| && es[j] == (k, FirstValue(es, k).value)
    decreases |es|
  {
    if es[0].0 != k {
      FirstValueKeyIn(es[1..], k);
      var j :| 0 <= j < |es[1..]| && es[1..][j] == (k, FirstValue(es, k).value);
      assert es[j + 1] == es[1..][j];
    }
  }

  lemma {:induction false} FirstValueAbsent(es: Entries, k: string)
    requires forall j :: 0 <= j < |es| ==> es[j].0 != k
    ensures FirstValue(es, k).None?
    decreases |es|
  {
    if |es| > 0 {
      FirstValueAbsent(es[1..], k);
    }
  }

  /** A node without a model block contributes a `modelConfig.` path only through a
      property-bag key spelled with that prefix. */
  lemma ModelPathsNeedModelBlock(n: ContextNode, k: string)
    requires n.modelConfig.None?
    requires FirstValue(NodeEntries(n), "modelConfig." + k).Some?
    ensures exists j :: 0 <= j < |n.properties| && n.properties[j].0 == "modelConfig." + k
  {
    var key := "modelConfig." + k;
    var props := Prefixed("", n.properties);
    var traits := Prefixed("traits", TraitEntries(n.traits));
    assert NodeEntries(n) == props + traits;
    FirstValueAppend(props, traits, key);
    forall j | 0 <= j < |traits| ensures traits[j].0 != key {
      assert traits[j].0[0] == 't';
      assert key[0] == 'm';
    }
    FirstValueAbsent(traits, key);
    FirstValueKeyIn(props, key);
    var j :| 0 <= j < |props| && props[j] == (key, FirstValue(props, key).value);
    assert n.properties[j].0 == key;
  }

  // ----- The nested effective object ---------------------------------------------------

  /** Reads a path segment by segment; `None` as soon as a segment is missing. */
  function Lookup(j: Json, path: seq<string>): Option<Json>
    decreases |path|
  {
    if |path| == 0 then Some(j)
    else if j.JObj? && path[0] in j.fields then Lookup(j.fields[path[0]], path[1..])
    else None
  }

  /** One iteration of the rebuild loop: walks `parts`, creating `{}` for each missing or
      null segment (`cur[p] ??= {}`), and assigns the value at the last segment. Walking
      through any other non-object value throws (assignment to a primitive in strict mode);
      arrays are treated the same way here. */
  function Insert(obj: map<string, Json>, parts: seq<string>, v: Json): Option<map<string, Json>>
    requires |parts| >= 1
    decreases |parts|
  {
    var p := parts[0];
    if |parts| == 1 then Some(obj[p := v])
    else
      var child := if p in obj && obj[p] != JNull then obj[p] else EmptyObject;
      if !child.JObj? then None
      else match Insert(child.fields, parts[1..], v)
        case None => None
        case Some(f) => Some(obj[p := JObj(f)])
  }

  /** The walk along `parts` meets no value it cannot descend into. */
  predicate CanInsert(obj: map<string, Json>, parts: seq<string>)
    requires |parts| >= 1
    decreases |parts|
  {
    |parts| == 1
    || !(parts[0] in obj && obj[parts[0]] != JNull)
    || (obj[parts[0]].JObj? && CanInsert(obj[parts[0]].fields, parts[1..]))
  }

  /** Neither path is a prefix of the other: they differ at some common position. */
  predicate Diverge(a: seq<string>, b: seq<string>)
    decreases |a|
  {
    |a| > 0 && |b| > 0 && (a[0] != b[0] || Diverge(a[1..], b[1..]))
  }

  lemma {:induction false} DivergeSymmetric(a: seq<string>, b: seq<string>)
    requires Diverge(a, b)
    ensures Diverge(b, a)
    decreases |a|
  {
    if a[0] == b[0] {
      DivergeSymmetric(a[1..], b[1..]);
    }
  }

  lemma {:induction false} InsertOk(obj: map<string, Json>, parts: seq<string>, v: Json)
    requires |parts| >= 1 && CanInsert(obj, parts)
    ensures Insert(obj, parts, v).Some?
    ensures Lookup(JObj(Insert(obj, parts, v).value), parts) == Some(v)
    decreases |parts|
  {
    if |parts| > 1 {
      var p := parts[0];
      var child := if p in obj && obj[p] != JNull then obj[p] else EmptyObject;
      InsertOk(child.fields, parts[1..], v);
    }
  }

  lemma {:induction false} InsertKeepsDivergent(obj: map<string, Json>, parts: seq<string>, v: Json, q: seq<string>)
    requires |parts| >= 1 && Insert(obj, parts, v).Some?
    requires Diverge(parts, q)
    ensures Lookup(JObj(Insert(obj, parts, v).value), q) == Lookup(JObj(obj), q)
    decreases |parts|
  {
    var p := parts[0];
    if p == q[0] {
      var child := if p in obj && obj[p] != JNull then obj[p] else EmptyObject;
      InsertKeepsDivergent(child.fields, parts[1..], v, q[1..]);
      if !(p in obj && obj[p] != JNull) && |q| > 1 {
        assert Lookup(EmptyObject, q[1..]) == None;
        if p in obj {
          assert obj[p] == JNull;
        }
      }
    }
  }

  lemma {:induction false} InsertKeepsCanInsert(obj: map<string, Json>, parts: seq<string>, v: Json, q: seq<string>)
    requires |parts| >= 1 && |q| >= 1
    requires CanInsert(obj, parts) && CanInsert(obj, q) && Diverge(parts, q)
    ensures Insert(obj, parts, v).Some? && CanInsert(Insert(obj, parts, v).value, q)
    decreases |parts|
  {
    InsertOk(obj, parts, v);
    var p := parts[0];
    if p == q[0] && |q| > 1 && |parts| > 1 {
      var child := if p in obj && obj[p] != JNull then obj[p] else EmptyObject;
      assert CanInsert(child.fields, q[1..]);
      InsertKeepsCanInsert(child.fields, parts[1..], v, q[1..]);
    }
  }

  /** The rebuild loop over the origin entries, in insertion order. */
  function RebuildFrom(acc: map<string, Json>, os: Origins): Option<map<string, Json>>
    decreases |os|
  {
    if |os| == 0 then Some(acc)
    else match Insert(acc, Parts(os[0].0), os[0].1.value)
      case None => None
      case Some(acc') => RebuildFrom(acc', os[1..])
  }

  /** Inserting along a path leaves the other top-level keys as they were. */
  lemma InsertOtherKey(obj: map<string, Json>, parts: seq<string>, v: Json, key: string)
    requires |parts| >= 1 && parts[0] != key
    requires Insert(obj, parts, v).Some?
    ensures key in Insert(obj, parts, v).value <==> key in obj
  {
  }

  lemma {:induction false} RebuildFromOmits(acc: map<string, Json>, os: Origins, key: string)
    requires key !in acc
    requires forall i :: 0 <= i < |os| ==> Parts(os[i].0)[0] != key
    ensures RebuildFrom(acc, os).Some? ==> key !in RebuildFrom(acc, os).value
    decreases |os|
  {
    if |os| > 0 {
      var ins := Insert(acc, Parts(os[0].0), os[0].1.value);
      if ins.Some? {
        InsertOtherKey(acc, Parts(os[0].0), os[0].1.value, key);
        assert forall i :: 0 <= i < |os[1..]| ==> Parts(os[1..][i].0)[0] != key by {
          forall i | 0 <= i < |os[1..]| ensures Parts(os[1..][i].0)[0] != key {
            assert os[1..][i] == os[i + 1];
          }
        }
        RebuildFromOmits(ins.value, os[1..], key);
      }
    }
  }

  /** The effective object has a top-level key only if some origin path starts with it. */
  lemma RebuildOmits(os: Origins, key: string)
    requires forall i :: 0 <= i < |os| ==> Parts(os[i].0)[0] != key
    ensures Rebuild(os).Some? ==> Get(Rebuild(os).value, key).None?
  {
    RebuildFromOmits(map[], os, key);
  }

  /** The `effective` object, or `None` when the loop throws. */
  function Rebuild(os: Origins): Option<Json> {
    match RebuildFrom(map[], os)
    case None => None
    case Some(m) => Some(JObj(m))
  }

  /** No origin path is a prefix of another one (segment-wise). */
  predicate PrefixFree(os: Origins) {
    forall i, j :: 0 <= i < j < |os| ==> Diverge(Parts(os[i].0), Parts(os[j].0))
  }

  lemma {:induction false} RebuildFromCorrect(acc: map<string, Json>, os: Origins)
    requires PrefixFree(os)
    requires forall j :: 0 <= j < |os| ==> CanInsert(acc, Parts(os[j].0))
    ensures RebuildFrom(acc, os).Some?
    ensures forall j :: 0 <= j < |os| ==>
      Lookup(JObj(RebuildFrom(acc, os).value), Parts(os[j].0)) == Some(os[j].1.value)
    ensures forall q :: (forall j :: 0 <= j < |os| ==> Diverge(Parts(os[j].0), q)) ==>
      Lookup(JObj(RebuildFrom(acc, os).value), q) == Lookup(JObj(acc), q)
    decreases |os|
  {
    if |os| > 0 {
      var parts := Parts(os[0].0);
      var v := os[0].1.value;
      InsertOk(acc, parts, v);
      var acc' := Insert(acc, parts, v).value;
      var rest := os[1..];
      forall j | 0 <= j < |rest| ensures CanInsert(acc', Parts(rest[j].0)) {
        assert rest[j] == os[j + 1];
        InsertKeepsCanInsert(acc, parts, v, Parts(rest[j].0));
      }
      assert PrefixFree(rest) by {
        forall i, j | 0 <= i < j < |rest| ensures Diverge(Parts(rest[i].0), Parts(rest[j].0)) {
          assert rest[i] == os[i + 1] && rest[j] == os[j + 1];
        }
      }
      RebuildFromCorrect(acc', rest);
      var out := RebuildFrom(acc', rest).value;
      assert RebuildFrom(acc, os) == Some(out);
      forall j | 0 <= j < |os| ensures Lookup(JObj(out), Parts(os[j].0)) == Some(os[j].1.value) {
        if j == 0 {
          forall m | 0 <= m < |rest| ensures Diverge(Parts(rest[m].0), parts) {
            assert rest[m] == os[m + 1];
            DivergeSymmetric(parts, Parts(rest[m].0));
          }
        } else {
          assert os[j] == rest[j - 1];
        }
      }
      forall q | (forall j :: 0 <= j < |os| ==> Diverge(Parts(os[j].0), q))
        ensures Lookup(JObj(out), q) == Lookup(JObj(acc), q)
      {
        forall m | 0 <= m < |rest| ensures Diverge(Parts(rest[m].0), q) {
          assert rest[m] == os[m + 1];
        }
        InsertKeepsDivergent(acc, parts, v, q);
      }
    }
  }

  /** When no origin path is a prefix of another, the rebuild succeeds, descending each
      origin path in `effective` yields exactly that origin's value, and a path that
      diverges from every origin path is absent from `effective`. */
  lemma RebuildReadsBack(os: Origins)
    requires PrefixFree(os)
    ensures Rebuild(os).Some?
    ensures forall j :: 0 <= j < |os| ==> Lookup(Rebuild(os).value, Parts(os[j].0)) == Some(os[j].1.value)
    ensures forall q :: |q| >= 1 && (forall j :: 0 <= j < |os| ==> Diverge(Parts(os[j].0), q)) ==>
      Lookup(Rebuild(os).value, q) == None
  {
    RebuildFromCorrect(map[], os);
  }

  lemma RebuildOkWhenPrefixFree(os: Origins)
    ensures PrefixFree(os) ==> Rebuild(os).Some?
  {
    if PrefixFree(os) {
      RebuildReadsBack(os);
    }
  }

  // ----- getEffectiveContext -----------------------------------------------------------

  datatype Resolution = Resolution(effective: Json, origins: Origins)

  /** `getEffectiveContext(id)`. `ancestors` is what the ancestor lookup returned for the
      node, in its own order; the lookup itself is not modelled. */
  function GetEffectiveContext(store: map<string, ContextNode>, id: string, ancestors: seq<ContextNode>)
    : (r: Result<Resolution, string>)
    ensures id !in store ==> r == Err(NotFoundMessage)
    ensures r.Ok? ==> r.value.origins == Collect(ProcessingOrder(store[id], ancestors))
    ensures r.Ok? ==> Some(r.value.effective) == Rebuild(r.value.origins)
    ensures id in store && PrefixFree(Collect(ProcessingOrder(store[id], ancestors))) ==> r.Ok?
  {
    if id !in store then Err(NotFoundMessage)
    else
      var os := Collect(ProcessingOrder(store[id], ancestors));
      RebuildOkWhenPrefixFree(os);
      match Rebuild(os)
      case None => Err(RebuildTypeError)
      case Some(eff) => Ok(Resolution(eff, os))
  }

  /** A path that no node of the lineage defines is absent from the origin map, and a
      resolved path is readable in `effective` at its dotted location. */
  lemma ResolvedPaths(store: map<string, ContextNode>, id: string, ancestors: seq<ContextNode>, k: string)
    requires GetEffectiveContext(store, id, ancestors).Ok?
    requires PrefixFree(GetEffectiveContext(store, id, ancestors).value.origins)
    ensures var order := ProcessingOrder(store[id], ancestors);
      FirstDefiner(order, k).None? ==> Find(GetEffectiveContext(store, id, ancestors).value.origins, k).None?
    ensures var res := GetEffectiveContext(store, id, ancestors).value;
      Find(res.origins, k).Some? ==> Lookup(res.effective, Parts(k)) == Some(Find(res.origins, k).value.value)
  {
    var res := GetEffectiveContext(store, id, ancestors).value;
    OriginIsFirstDefinition(ProcessingOrder(store[id], ancestors), k);
    RebuildReadsBack(res.origins);
  }
}

=== FILE: js.dfy ===
/** JSON values and the few JavaScript operators the server applies to them:
    truthiness, `??`, `||`, property reads and `String(...)`. */
module Js {
  import opened Wrappers

  /** A parsed JSON value. Objects are maps from keys to values. */
  datatype Json =
    | JNull
    | JBool(b: bool)
    | JNum(n: real)
    | JStr(s: string)
    | JArr(items: seq<Json>)
    | JObj(fields: map<string, Json>)

  /** The empty object literal `{}`. */
  const EmptyObject: Json := JObj(map[])

  /** JavaScript truthiness of a present value (NaN is not representable in this model). */
  predicate Truthy(j: Json) {
    match j
    case JNull => false
    case JBool(b) => b
    case JNum(n) => n != 0.0
    case JStr(s) => s != ""
    case _ => true
  }

  /** Truthiness of a possibly-undefined value. */
  predicate TruthyOpt(v: Option<Json>) {
    v.Some? && Truthy(v.value)
  }

  /** `undefined` or `null`: the values on which `??` takes its right operand. */
  predicate Nullish(v: Option<Json>) {
    v.None? || v.value.JNull?
  }

  /** `j[k]` for an own field of a JSON object; every other read yields `undefined`. */
  function Get(j: Json, k: string): (r: Option<Json>)
    ensures r.Some? <==> j.JObj? && k in j.fields
    ensures r.Some? ==> r.value == j.fields[k]
  {
    if j.JObj? && k in j.fields then Some(j.fields[k]) else None
  }

  /** `v?.[k]`: a read through a possibly-undefined value. */
  function GetOpt(v: Option<Json>, k: string): (r: Option<Json>)
    ensures v.None? ==> r.None?
    ensures v.Some? ==> r == Get(v.value, k)
  {
    match v
    case None => None
    case Some(j) => Get(j, k)
  }

  /** `v ?? d`. */
  function Coalesce(v: Option<Json>, d: Json): (r: Json)
    ensures Nullish(v) ==> r == d
    ensures !Nullish(v) ==> Some(r) == v
  {
    if Nullish(v) then d else v.value
  }

  /** `v || d`. */
  function Or(v: Option<Json>, d: Json): (r: Json)
    ensures TruthyOpt(v) ==> Some(r) == v
    ensures !TruthyOpt(v) ==> r == d
  {
    if TruthyOpt(v) then v.value else d
  }

  /** The number carried by a value for which `typeof v === "number"` holds. */
  function AsNumber(v: Option<Json>): (r: Option<real>)
    ensures r.Some? <==> v.Some? && v.value.JNum?
    ensures r.Some? ==> v.value == JNum(r.value)
  {
    if v.Some? && v.value.JNum? then Some(v.value.n) else None
  }

  /** `String(v)`. Rendering numbers, arrays and objects follows JavaScript's own number
      formatting and joining rules, which this model leaves to the `show` oracle. */
  function StringOf(v: Option<Json>, show: Json -> string): (r: string)
    ensures v == Some(JStr(r)) || v.None? || !v.value.JStr?
    ensures v.None? ==> r == "undefined"
    ensures v == Some(JNull) ==> r == "null"
  {
    match v
    case None => "undefined"
    case Some(JNull) => "null"
    case Some(JBool(b)) => if b then "true" else "false"
    case Some(JStr(s)) => s
    case Some(j) => show(j)
  }
}

=== FILE: jsontext.dfy ===
/** The tolerant readers the server applies to model output before trusting it as JSON:
    code-fence stripping, the greedy bracketed-span fallback of a regular-expression match,
    and the three readers built from them (`safeJson`, `parseArray`, `coerceObjectJSON`).
    `JSON.parse` is the oracle `parse`, which yields `None` where it would throw. */
module JsonText {
  import opened Wrappers
  import opened Js
  import opened Text

  // ----- Code fences -------------------------------------------------------------------

  /** The markdown code-fence marker "```" starts at position `k`. */
  predicate FenceAt(s: string, k: int) {
    0 <= k && k + 3 <= |s| && s[k] == '`' && s[k + 1] == '`' && s[k + 2] == '`'
  }

  /** The JSON-tagged marker "```json" starts at position `k`. */
  predicate TaggedFenceAt(s: string, k: int) {
    FenceAt(s, k) && k + 7 <= |s|
    && s[k + 3] == 'j' && s[k + 4] == 's' && s[k + 5] == 'o' && s[k + 6] == 'n'
  }

  /** `s.replace(/```json|```/g, "")`: scanning left to right, the tagged marker is
      preferred at each position, then the bare marker; other characters are kept. */
  function StripFences(s: string): (r: string)
    ensures |r| <= |s|
    decreases |s|
  {
    if TaggedFenceAt(s, 0) then StripFences(s[7..])
    else if FenceAt(s, 0) then StripFences(s[3..])
    else if |s| == 0 then ""
    else [s[0]] + StripFences(s[1..])
  }

  /** No fence marker occurs anywhere in `s`. */
  ghost predicate FenceFree(s: string) {
    forall k :: !FenceAt(s, k)
  }

  /** A text that does not start with a marker keeps its first character. */
  lemma StripKeepsHead(s: string)
    requires |s| > 0 && !FenceAt(s, 0)
    ensures StripFences(s) == [s[0]] + StripFences(s[1..])
  {
  }

  /** The first three characters of a stripped text that does not start with a marker are
      not a marker. */
  lemma HeadNotFence(s: string)
    requires |s| > 0 && !FenceAt(s, 0)
    ensures !FenceAt(StripFences(s), 0)
  {
    StripKeepsHead(s);
    if s[0] == '`' && |s| >= 2 {
      StripKeepsHead(s[1..]);
      if s[1] == '`' && |s| >= 3 {
        StripKeepsHead(s[2..]);
        assert StripFences(s)[2] == s[2];
      } else if s[1] != '`' {
        assert StripFences(s)[1] == s[1];
      }
    }
  }

  /** After stripping, no marker is left: removing one never glues two backtick runs into
      a new marker. */
  lemma {:induction false} StripFencesFenceFree(s: string)
    ensures FenceFree(StripFences(s))
    decreases |s|
  {
    if TaggedFenceAt(s, 0) {
      StripFencesFenceFree(s[7..]);
    } else if FenceAt(s, 0) {
      StripFencesFenceFree(s[3..]);
    } else if |s| > 0 {
      StripKeepsHead(s);
      HeadNotFence(s);
      var t := StripFences(s[1..]);
      StripFencesFenceFree(s[1..]);
      var r := [s[0]] + t;
      forall k ensures !FenceAt(r, k) {
        if k > 0 {
          assert FenceAt(r, k) ==> FenceAt(t, k - 1);
        }
      }
    }
  }

  /** A fence-free text is left unchanged. */
  lemma {:induction false} StripFencesIdentity(s: string)
    requires FenceFree(s)
    ensures StripFences(s) == s
    decreases |s|
  {
    if |s| > 0 {
      assert !FenceAt(s, 0);
      StripKeepsHead(s);
      assert FenceFree(s[1..]) by {
        forall k ensures !FenceAt(s[1..], k) {
          assert FenceAt(s[1..], k) ==> FenceAt(s, k + 1);
        }
      }
      StripFencesIdentity(s[1..]);
    }
  }

  /** Stripping twice is stripping once. */
  lemma StripFencesIdempotent(s: string)
    ensures StripFences(StripFences(s)) == StripFences(s)
  {
    StripFencesFenceFree(s);
    StripFencesIdentity(StripFences(s));
  }

  /** Every slice of a fence-free text is fence-free. */
  lemma FenceFreeSlice(s: string, a: nat, b: nat)
    requires FenceFree(s) && a <= b <= |s|
    ensures FenceFree(s[a..b])
  {
    forall k ensures !FenceAt(s[a..b], k) {
      assert FenceAt(s[a..b], k) ==> FenceAt(s, a + k);
    }
  }

  /** Trimming keeps a text fence-free. */
  lemma TrimFenceFree(u: string)
    requires FenceFree(u)
    ensures FenceFree(Trim(u))
  {
    var a := LeadingSpace(u);
    var t := Trim(u);
    FenceFreeSlice(u, a, a + |t|);
  }

  // ----- Greedy bracketed spans --------------------------------------------------------

  /** The position of the last `c` in `s`. */
  function LastIndexOf(s: string, c: char): (r: Option<nat>)
    ensures r.None? <==> c !in s
    ensures r.Some? ==> r.value < |s| && s[r.value] == c
    ensures r.Some? ==> forall k :: r.value < k < |s| ==> s[k] != c
    decreases |s|
  {
    if |s| == 0 then None
    else if s[|s| - 1] == c then Some(|s| - 1)
    else
      assert s == s[..|s| - 1] + [s[|s| - 1]];
      LastIndexOf(s[..|s| - 1], c)
  }

  /** One alternative `\<open>[\s\S]*\<close>` of a regular expression. */
  datatype Brackets = Brackets(open: char, close: char)

  const Square: Brackets := Brackets('[', ']')
  const Curly: Brackets := Brackets('{', '}')

  /** The alternative `b` matches starting at position `i`. */
  predicate OpensAt(s: string, i: int, b: Brackets) {
    0 <= i < |s| && s[i] == b.open && b.close in s[i + 1..]
  }

  /** A matched region `s[start..end]`. */
  datatype Span = Span(start: nat, end: nat)

  /** The alternative `b` matches at `sp.start` and, greedily, runs to the last `b.close`. */
  predicate GreedyMatch(s: string, sp: Span, b: Brackets) {
    && OpensAt(s, sp.start, b) && sp.start < sp.end <= |s| && s[sp.end - 1] == b.close
    && forall k :: sp.end <= k < |s| ==> s[k] != b.close
  }

  /** `t` is delimited by the brackets of `b`. */
  predicate Delimited(t: string, b: Brackets) {
    |t| >= 2 && t[0] == b.open && t[|t| - 1] == b.close
  }

  /** The first alternative, in pattern order, that matches at `i`. */
  function FirstAlt(s: string, i: int, alts: seq<Brackets>): (r: Option<Brackets>)
    ensures r.Some? ==> r.value in alts && OpensAt(s, i, r.value)
    ensures r.None? ==> forall b :: b in alts ==> !OpensAt(s, i, b)
  {
    if |alts| == 0 then None
    else if OpensAt(s, i, alts[0]) then Some(alts[0])
    else FirstAlt(s, i, alts[1..])
  }

  /** The matching the regex engine performs from position `i` onward. */
  function SpanFrom(s: string, alts: seq<Brackets>, i: nat): (r: Option<Span>)
    ensures r.Some? ==> i <= r.value.start < r.value.end <= |s|
    ensures r.Some? ==> exists b :: b in alts && GreedyMatch(s, r.value, b)
    ensures r.Some? ==> forall j, b :: i <= j < r.value.start && b in alts ==> !OpensAt(s, j, b)
    ensures r.None? ==> forall j, b :: i <= j < |s| && b in alts ==> !OpensAt(s, j, b)
    decreases |s| - i
  {
    if i >= |s| then None
    else match FirstAlt(s, i, alts)
      case Some(b) =>
        var last := LastIndexOf(s, b.close);
        assert last.Some? && last.value > i by {
          var k :| 0 <= k < |s[i + 1..]| && s[i + 1..][k] == b.close;
          assert s[i + 1 + k] in s;
        }
        Some(Span(i, last.value + 1))
      case None => SpanFrom(s, alts, i + 1)
  }

  /** `s.match(re)` for `re` the alternation of `alts`: the leftmost position at which some
      alternative matches; because the middle is greedy, the match runs to the last closing
      character of the alternative that matched. */
  function FirstSpan(s: string, alts: seq<Brackets>): (r: Option<Span>)
    ensures r.Some? ==> r.value.start < r.value.end <= |s|
    ensures r.Some? ==> exists b :: b in alts && GreedyMatch(s, r.value, b)
    ensures r.Some? ==> forall j, b :: 0 <= j < r.value.start && b in alts ==> !OpensAt(s, j, b)
    ensures r.None? <==> forall j, b :: 0 <= j < |s| && b in alts ==> !OpensAt(s, j, b)
  {
    SpanFrom(s, alts, 0)
  }

  /** The matched text, `m[0]`. */
  function MatchText(s: string, alts: seq<Brackets>): (r: Option<string>)
    ensures r.None? <==> FirstSpan(s, alts).None?
    ensures r.Some? ==> exists b :: b in alts && Delimited(r.value, b)
  {
    match FirstSpan(s, alts)
    case None => None
    case Some(sp) => Some(s[sp.start..sp.end])
  }

  // ----- The readers -------------------------------------------------------------------

  /** The cleaned text `safeJson` parses: fences removed, then trimmed. */
  function Cleaned(text: string): (r: string)
    ensures FenceFree(r)
  {
    var u := StripFences(text);
    StripFencesFenceFree(text);
    TrimFenceFree(u);
    Trim(u)
  }

  /** `safeJson(text)`: the parse of the cleaned text, else the parse of its first bracketed
      span (square or curly, whichever opens first), else `null` (here `None`). */
  function SafeJson(text: string, parse: string -> Option<Json>): (r: Option<Json>)
    ensures parse(Cleaned(text)).Some? ==> r == parse(Cleaned(text))
    ensures parse(Cleaned(text)).None? && FirstSpan(Cleaned(text), [Square, Curly]).None?
      ==> r.None?
    ensures r.Some? ==> exists u :: FenceFree(u) && parse(u) == r
  {
    var c := Cleaned(text);
    match parse(c)
    case Some(j) =>
      assert FenceFree(c) && parse(c) == Some(j);
      Some(j)
    case None => SpanParse(c, parse)
  }

  /** The parse of the first bracketed span of a cleaned text. */
  function SpanParse(c: string, parse: string -> Option<Json>): (r: Option<Json>)
    requires FenceFree(c)
    ensures FirstSpan(c, [Square, Curly]).None? ==> r.None?
    ensures r.Some? ==> exists u :: FenceFree(u) && parse(u) == r
  {
    match FirstSpan(c, [Square, Curly])
    case None => None
    case Some(sp) =>
      FenceFreeSlice(c, sp.start, sp.end);
      parse(c[sp.start..sp.end])
  }

  /** What real `JSON.parse` guarantees about bracketed texts: one that starts with `[`
      parses to an array and one that starts with `{` to an object. */
  ghost predicate BracketFaithful(parse: string -> Option<Json>) {
    forall u :: |u| > 0 && parse(u).Some? ==>
      (u[0] == '[' ==> parse(u).value.JArr?) && (u[0] == '{' ==> parse(u).value.JObj?)
  }

  /** `parseArray(text)`: the whole text when it parses (kept only if it is an array),
      otherwise the parse of its first square-bracketed span, otherwise `[]`. The span's
      parse is returned unchecked. */
  function ParseArray(text: string, parse: string -> Option<Json>): (r: Json)
    ensures parse(text).Some? ==>
      r == (if parse(text).value.JArr? then parse(text).value else JArr([]))
    ensures parse(text).None? && MatchText(text, [Square]).None? ==> r == JArr([])
  {
    match parse(text)
    case Some(j) => if j.JArr? then j else JArr([])
    case None =>
      match MatchText(text, [Square])
      case None => JArr([])
      case Some(m) => parse(m).GetOr(JArr([]))
  }

  /** With a faithful parser, `parseArray` always yields an array. */
  lemma ParseArrayIsArray(text: string, parse: string -> Option<Json>)
    requires BracketFaithful(parse)
    ensures ParseArray(text, parse).JArr?
  {
    if parse(text).None? {
      var m := MatchText(text, [Square]);
      if m.Some? && parse(m.value).Some? {
        assert m.value[0] == '[';
      }
    }
  }

  /** `coerceObjectJSON(text, fallback)` as written: an empty text gives the fallback; a
      whole text that parses to an object (arrays included) is returned as it is; then the
      first curly span is tried; then the first square span, whose array is wrapped as
      `{sections: array}`; otherwise the fallback. */
  function CoerceObjectAsWritten(text: string, fallback: Json, parse: string -> Option<Json>)
    : (r: Json)
    ensures text == "" ==> r == fallback
    ensures text != "" && parse(text).Some? && parse(text).value.JArr? ==> r == parse(text).value
  {
    if text == "" then fallback
    else if parse(text).Some? && (parse(text).value.JObj? || parse(text).value.JArr?) then
      parse(text).value
    else CoerceSpans(text, fallback, parse)
  }

  /** The span fallbacks shared by both readings of `coerceObjectJSON`. */
  function CoerceSpans(text: string, fallback: Json, parse: string -> Option<Json>): (r: Json)
    ensures r == fallback || r.JObj? || (exists o :: MatchText(text, [Curly]) == Some(o) && parse(o) == Some(r))
  {
    var obj := MatchText(text, [Curly]);
    if obj.Some? && parse(obj.value).Some? then parse(obj.value).value
    else
      var arr := MatchText(text, [Square]);
      if arr.Some? && parse(arr.value).Some? && parse(arr.value).value.JArr? then
        JObj(map["sections" := parse(arr.value).value])
      else fallback
  }

  /** `coerceObjectJSON` as its last branch shows it is meant: a parsed bare array, whether
      the whole text or a span, becomes `{sections: array}`. */
  function CoerceObject(text: string, fallback: Json, parse: string -> Option<Json>): (r: Json)
    ensures text == "" ==> r == fallback
    ensures text != "" && parse(text).Some? && parse(text).value.JArr? ==>
      r == JObj(map["sections" := parse(text).value])
    ensures text != "" && parse(text).Some? && parse(text).value.JObj? ==> r == parse(text).value
  {
    if text == "" then fallback
    else if parse(text).Some? && parse(text).value.JArr? then
      JObj(map["sections" := parse(text).value])
    else if parse(text).Some? && parse(text).value.JObj? then parse(text).value
    else CoerceSpans(text, fallback, parse)
  }

  /** With a faithful parser and an object fallback, the corrected reading always yields an
      object, so `structure.sections` is always readable. */
  lemma CoerceObjectIsObject(text: string, fallback: Json, parse: string -> Option<Json>)
    requires BracketFaithful(parse) && fallback.JObj?
    ensures CoerceObject(text, fallback, parse).JObj?
  {
    if text != "" && !(parse(text).Some? && (parse(text).value.JArr? || parse(text).value.JObj?)) {
      var obj := MatchText(text, [Curly]);
      if obj.Some? && parse(obj.value).Some? {
        assert obj.value[0] == '{';
      }
    }
  }

  /** The discrepancy: a reply that is exactly a JSON array of sections comes back from the
      code as written as the bare array, which has no `sections` field, while the corrected
      reading wraps it. */
  lemma BareArrayLosesSections(text: string, fallback: Json, parse: string -> Option<Json>,
                               items: seq<Json>)
    requires text != "" && parse(text) == Some(JArr(items))
    ensures Get(CoerceObjectAsWritten(text, fallback, parse), "sections").None?
    ensures Get(CoerceObject(text, fallback, parse), "sections") == Some(JArr(items))
  {
  }
}

=== FILE: llm.dfy ===
/** The provider fallback router: credential detection from the environment, candidate
    normalisation, the mock short-circuit and ordered attempts. Each provider call is an
    oracle that either returns a response or throws. */
module Llm {
  import opened Wrappers
  import opened Js
  import opened Text

  datatype Provider = Gemini | OpenAI | Anthropic

  function Name(p: Provider): string {
    match p
    case Gemini => "gemini"
    case OpenAI => "openai"
    case Anthropic => "anthropic"
  }

  /** The provider a candidate's provider string names, if any. */
  function ProviderNamed(s: string): (r: Option<Provider>)
    ensures r.Some? ==> Name(r.value) == s
    ensures forall p :: Name(p) == s ==> r == Some(p)
  {
    if s == "gemini" then Some(Gemini)
    else if s == "openai" then Some(OpenAI)
    else if s == "anthropic" then Some(Anthropic)
    else None
  }

  /** The environment variable holding each provider's credential. */
  function KeyVar(p: Provider): string {
    match p
    case OpenAI => "OPENAI_API_KEY"
    case Anthropic => "ANTHROPIC_API_KEY"
    case Gemini => "GEMINI_API_KEY"
  }

  /** The environment variable overriding each provider's default model. */
  function ModelVar(p: Provider): string {
    match p
    case OpenAI => "OPENAI_MODEL"
    case Anthropic => "ANTHROPIC_MODEL"
    case Gemini => "GEMINI_MODEL"
  }

  function BuiltinModel(p: Provider): string {
    match p
    case OpenAI => "gpt-4o-mini"
    case Anthropic => "claude-3-5-haiku-latest"
    case Gemini => "gemini-2.0-flash"
  }

  /** The process environment. */
  type Env = map<string, string>

  /** `process.env.X_MODEL || builtin`. */
  function DefaultModel(env: Env, p: Provider): (m: string)
    ensures m != ""
    ensures ModelVar(p) in env && env[ModelVar(p)] != "" ==> m == env[ModelVar(p)]
    ensures !(ModelVar(p) in env && env[ModelVar(p)] != "") ==> m == BuiltinModel(p)
  {
    if ModelVar(p) in env && env[ModelVar(p)] != "" then env[ModelVar(p)] else BuiltinModel(p)
  }

  /** `hasKey(p)`: the variable is set, non-empty, and non-empty after `trim()`. */
  predicate HasKey(env: Env, p: Provider) {
    KeyVar(p) in env && env[KeyVar(p)] != "" && |Trim(env[KeyVar(p)])| > 0
  }

  /** A provider has a key exactly when its variable holds a non-whitespace character. */
  lemma HasKeyIffNonBlank(env: Env, p: Provider)
    ensures HasKey(env, p) <==> KeyVar(p) in env && !AllSpace(env[KeyVar(p)])
  {
    if KeyVar(p) in env {
      TrimEmptyIffBlank(env[KeyVar(p)]);
    }
  }

  function Rank(p: Provider): nat {
    match p
    case Gemini => 0
    case OpenAI => 1
    case Anthropic => 2
  }

  /** The providers whose flags are set, in preference order. */
  function Pick(gemini: bool, openai: bool, anthropic: bool): (r: seq<Provider>)
    ensures forall p :: p in r <==> (p == Gemini && gemini) || (p == OpenAI && openai) || (p == Anthropic && anthropic)
    ensures forall i, j :: 0 <= i < j < |r| ==> Rank(r[i]) < Rank(r[j])
  {
    (if gemini then [Gemini] else []) + (if openai then [OpenAI] else []) + (if anthropic then [Anthropic] else [])
  }

  /** `availableProviders()`: the credentialed providers, in preference order. */
  function AvailableProviders(env: Env): (r: seq<Provider>)
    ensures forall p :: p in r <==> HasKey(env, p)
    ensures forall i, j :: 0 <= i < j < |r| ==> Rank(r[i]) < Rank(r[j])
  {
    Pick(HasKey(env, Gemini), HasKey(env, OpenAI), HasKey(env, Anthropic))
  }

  /** A candidate as callers pass it: a provider string and a model, "" when absent. */
  datatype Candidate = Candidate(provider: string, model: string)

  /** A normalised candidate: a known provider and a concrete model. */
  datatype Config = Config(provider: Provider, model: string)

  /** A generation request. */
  datatype Request = Request(system: Option<Json>, prompt: string, temperature: Option<Json>, maxTokens: Option<Json>)

  datatype Usage = Usage(input: Option<int>, output: Option<int>)

  /** The canonical response; `provider` is a provider name or "mock". */
  datatype Response = Response(text: string, usage: Option<Usage>, model: string, provider: string)

  /** What a failing call throws: an `Error` with its message, `undefined`/`null`, or some
      other value (whose `.message` reads as `undefined`). */
  datatype Thrown = ErrorValue(message: string) | NullishValue | OtherValue

  /** The outcome of one provider call. */
  datatype Attempt = Succeeded(response: Response) | Threw(thrown: Thrown)

  /** A router call: the configs actually attempted, in order, and its outcome. */
  datatype Run = Run(tried: seq<Config>, outcome: Result<Response, Thrown>)

  predicate MockMode(env: Env) {
    "LLM_MOCK" in env && env["LLM_MOCK"] == "1"
  }

  const MockMarker: string := "**[MOCK RESPONSE]**"
  const MockPromptLimit: nat := 800

  /** The deterministic echo returned in mock mode. */
  function MockResponse(prompt: string): (r: Response)
    ensures r.provider == "mock" && r.model == "mock-model"
    ensures r.usage == Some(Usage(Some(0), Some(0)))
    ensures StartsWith(r.text, MockMarker)
    ensures var shown := if |prompt| <= 800 then prompt else prompt[..800];
      r.text == MockMarker + "\n\nYou asked:\n\n" + shown
        + "\n\n(Set LLM_MOCK=0 and add an API key to hit real models.)"
  {
    var shown := if |prompt| <= MockPromptLimit then prompt else prompt[..MockPromptLimit];
    var text := MockMarker + "\n\nYou asked:\n\n" + shown
      + "\n\n(Set LLM_MOCK=0 and add an API key to hit real models.)";
    assert text[..|MockMarker|] == MockMarker;
    Response(text, Some(Usage(Some(0), Some(0))), "mock-model", "mock")
  }

  /** A candidate is kept when it names a known, credentialed provider. */
  predicate Keeps(env: Env, c: Candidate) {
    ProviderNamed(c.provider).Some? && HasKey(env, ProviderNamed(c.provider).value)
  }

  /** `{ provider, model: c.model || DEFAULT_MODEL[provider] }`. */
  function Normalized(env: Env, c: Candidate): Config
    requires Keeps(env, c)
  {
    var p := ProviderNamed(c.provider).value;
    Config(p, if c.model != "" then c.model else DefaultModel(env, p))
  }

  /** Step 1: the kept explicit candidates, normalised, in their original order. */
  function Explicit(env: Env, cs: seq<Candidate>): (r: seq<Config>)
    ensures |r| <= |cs|
    ensures forall c :: c in cs && Keeps(env, c) ==> Normalized(env, c) in r
    ensures forall x :: x in r ==> exists c :: c in cs && Keeps(env, c) && Normalized(env, c) == x
    decreases |cs|
  {
    if |cs| == 0 then []
    else
      var rest := Explicit(env, cs[1..]);
      assert forall c :: c in cs ==> c == cs[0] || c in cs[1..];
      (if Keeps(env, cs[0]) then [Normalized(env, cs[0])] else []) + rest
  }

  /** Every explicit survivor has a credential. */
  lemma ExplicitCredentialed(env: Env, cs: seq<Candidate>)
    ensures forall x :: x in Explicit(env, cs) ==> HasKey(env, x.provider)
  {
    forall x | x in Explicit(env, cs) ensures HasKey(env, x.provider) {
      var c :| c in cs && Keeps(env, c) && Normalized(env, c) == x;
    }
  }

  /** The source's loop pushes kept candidates one by one: the result grows at the end. */
  lemma {:induction false} ExplicitAppend(env: Env, cs: seq<Candidate>, c: Candidate)
    ensures Explicit(env, cs + [c]) == Explicit(env, cs) + (if Keeps(env, c) then [Normalized(env, c)] else [])
    decreases |cs|
  {
    if |cs| == 0 {
      assert cs + [c] == [c];
    } else {
      assert (cs + [c])[0] == cs[0];
      assert (cs + [c])[1..] == cs[1..] + [c];
      ExplicitAppend(env, cs[1..], c);
    }
  }

  function ProvidersOf(cs: seq<Config>): set<Provider> {
    set x | x in cs :: x.provider
  }

  /** The credentialed providers, in preference order, whose names are not in `present`,
      each with its default model. */
  function Secondary(env: Env, ps: seq<Provider>, present: set<Provider>): (r: seq<Config>)
    ensures forall x :: x in r ==> x.provider in ps && x.provider !in present && x.model == DefaultModel(env, x.provider)
    ensures forall p :: p in ps && p !in present ==> Config(p, DefaultModel(env, p)) in r
    decreases |ps|
  {
    if |ps| == 0 then []
    else
      var head := if ps[0] in present then [] else [Config(ps[0], DefaultModel(env, ps[0]))];
      head + Secondary(env, ps[1..], present)
  }

  /** Steps 1-3 of `withFallback`: the explicit candidates that survive, then every other
      credentialed provider; or every credentialed provider when none survives. */
  function Normalize(env: Env, cs: seq<Candidate>): (r: seq<Config>)
    ensures |r| >= |Explicit(env, cs)|
    ensures var e := Explicit(env, cs);
      |e| > 0 ==> r[..|e|] == e && r[|e|..] == Secondary(env, AvailableProviders(env), ProvidersOf(e))
    ensures Explicit(env, cs) == [] ==> r == Secondary(env, AvailableProviders(env), {})
    ensures forall x :: x in r ==> HasKey(env, x.provider)
    ensures forall p :: HasKey(env, p) ==> p in ProvidersOf(r)
    ensures |r| == 0 <==> AvailableProviders(env) == []
  {
    var e := Explicit(env, cs);
    var r := e + Secondary(env, AvailableProviders(env), ProvidersOf(e));
    NormalizeFacts(env, cs, e, r);
    r
  }

  lemma NormalizeFacts(env: Env, cs: seq<Candidate>, e: seq<Config>, r: seq<Config>)
    requires e == Explicit(env, cs)
    requires r == e + Secondary(env, AvailableProviders(env), ProvidersOf(e))
    ensures |r| >= |e|
    ensures |e| > 0 ==> r[..|e|] == e && r[|e|..] == Secondary(env, AvailableProviders(env), ProvidersOf(e))
    ensures e == [] ==> r == Secondary(env, AvailableProviders(env), {})
    ensures forall x :: x in r ==> HasKey(env, x.provider)
    ensures forall p :: HasKey(env, p) ==> p in ProvidersOf(r)
    ensures |r| == 0 <==> AvailableProviders(env) == []
  {
    assert r[..|e|] == e;
    assert r[|e|..] == Secondary(env, AvailableProviders(env), ProvidersOf(e));
    if e == [] {
      assert ProvidersOf(e) == {};
    }
    ExplicitCredentialed(env, cs);
    forall p | HasKey(env, p) ensures p in ProvidersOf(r) {
      if p !in ProvidersOf(e) {
        assert Config(p, DefaultModel(env, p)) in r;
      } else {
        var x :| x in e && x.provider == p;
        assert x in r;
      }
    }
    if |r| > 0 {
      assert r[0] in r;
      assert HasKey(env, r[0].provider);
      assert r[0].provider in AvailableProviders(env);
    }
  }

  const NoProvidersMessage: string :=
    "No LLM providers configured. Set one of GEMINI_API_KEY / OPENAI_API_KEY / ANTHROPIC_API_KEY, "
    + "or set LLM_MOCK=1 for mock replies."

  function ConfigLabel(c: Config): string {
    Name(c.provider) + ":" + c.model
  }

  function JoinLabels(cs: seq<Config>): string
    decreases |cs|
  {
    if |cs| == 0 then ""
    else if |cs| == 1 then ConfigLabel(cs[0])
    else ConfigLabel(cs[0]) + ", " + JoinLabels(cs[1..])
  }

  function AllFailedMessage(cs: seq<Config>): string {
    "All LLM fallbacks failed. Tried: " + JoinLabels(cs)
  }

  /** The attempt loop over `cs` (all of `tried` is `done + ...`); `last` is the most recent
      thrown value. */
  function TryEach(all: seq<Config>, cs: seq<Config>, req: Request, call: (Config, Request) -> Attempt, last: Thrown)
    : (r: Run)
    requires |all| >= |cs| && all[|all| - |cs|..] == cs
    ensures |r.tried| <= |cs| && r.tried == cs[..|r.tried|]
    ensures r.outcome.Ok? ==> |r.tried| >= 1 && call(r.tried[|r.tried| - 1], req) == Succeeded(r.outcome.value)
    ensures forall i :: 0 <= i < |r.tried| - 1 ==> call(r.tried[i], req).Threw?
    ensures r.outcome.Err? ==> r.tried == cs && forall i :: 0 <= i < |cs| ==> call(cs[i], req).Threw?
    ensures r.outcome.Err? && |cs| > 0 ==>
      r.outcome.error == (var t := call(cs[|cs| - 1], req).thrown;
                          if t.NullishValue? then ErrorValue(AllFailedMessage(all)) else t)
    ensures r.outcome.Err? && |cs| == 0 ==>
      r.outcome.error == (if last.NullishValue? then ErrorValue(AllFailedMessage(all)) else last)
    decreases |cs|
  {
    if |cs| == 0 then
      Run([], Err(if last.NullishValue? then ErrorValue(AllFailedMessage(all)) else last))
    else match call(cs[0], req)
      case Succeeded(res) => Run([cs[0]], Ok(res))
      case Threw(t) =>
        var rest := TryEach(all, cs[1..], req, call, t);
        assert all[|all| - |cs[1..]|..] == cs[1..];
        Run([cs[0]] + rest.tried, rest.outcome)
  }

  /** The router once the mock flag and the normalised list are known. */
  function Dispatch(mock: bool, n: seq<Config>, req: Request, call: (Config, Request) -> Attempt): (r: Run)
    ensures mock ==> r == Run([], Ok(MockResponse(req.prompt)))
    ensures !mock && n == [] ==> r == Run([], Err(ErrorValue(NoProvidersMessage)))
    ensures !mock ==> |r.tried| <= |n| && r.tried == n[..|r.tried|]
    ensures !mock && n != [] ==> |r.tried| >= 1
    ensures r.outcome.Ok? && !mock ==>
      |r.tried| >= 1 && call(r.tried[|r.tried| - 1], req) == Succeeded(r.outcome.value)
    ensures forall i :: 0 <= i < |r.tried| - 1 ==> call(r.tried[i], req).Threw?
    ensures !mock && n != [] && r.outcome.Err? ==>
      && r.tried == n
      && (forall i :: 0 <= i < |n| ==> call(n[i], req).Threw?)
      && r.outcome.error == (var t := call(n[|n| - 1], req).thrown;
                             if t.NullishValue? then ErrorValue(AllFailedMessage(n)) else t)
  {
    if mock then Run([], Ok(MockResponse(req.prompt)))
    else if |n| == 0 then Run([], Err(ErrorValue(NoProvidersMessage)))
    else
      assert n[0..] == n;
      TryEach(n, n, req, call, NullishValue)
  }

  /** `withFallback(configs, req)`: mock short-circuit, normalisation, ordered attempts. */
  function WithFallback(env: Env, cands: seq<Candidate>, req: Request, call: (Config, Request) -> Attempt)
    : (r: Run)
    ensures MockMode(env) ==> r == Run([], Ok(MockResponse(req.prompt)))
    ensures !MockMode(env) && AvailableProviders(env) == [] ==> r == Run([], Err(ErrorValue(NoProvidersMessage)))
    ensures !MockMode(env) ==> |r.tried| <= |Normalize(env, cands)| && r.tried == Normalize(env, cands)[..|r.tried|]
    ensures !MockMode(env) && AvailableProviders(env) != [] ==> |r.tried| >= 1
  {
    var n := Normalize(env, cands);
    Dispatch(MockMode(env), n, req, call)
  }

  /** Only providers with a credential are ever called. */
  lemma OnlyCredentialedCalled(env: Env, cands: seq<Candidate>, req: Request, call: (Config, Request) -> Attempt)
    ensures forall x :: x in WithFallback(env, cands, req, call).tried ==> HasKey(env, x.provider)
  {
    var r := WithFallback(env, cands, req, call);
    if !MockMode(env) {
      var n := Normalize(env, cands);
      forall x | x in r.tried ensures HasKey(env, x.provider) {
        var i :| 0 <= i < |r.tried| && r.tried[i] == x;
        assert x == n[i];
      }
    }
  }

  /** The response is the first success, and nothing after it is attempted: if candidates
      A and B fail and C succeeds, the router returns C's response having tried exactly
      A, B, C. */
  lemma FirstSuccessWins(n: seq<Config>, req: Request, call: (Config, Request) -> Attempt, k: nat)
    requires k < |n|
    requires forall i :: 0 <= i < k ==> call(n[i], req).Threw?
    requires call(n[k], req).Succeeded?
    ensures Dispatch(false, n, req, call).tried == n[..k + 1]
    ensures Dispatch(false, n, req, call).outcome == Ok(call(n[k], req).response)
  {
    var r := Dispatch(false, n, req, call);
    assert call(n[k], req).Succeeded?;
    assert r.outcome.Ok?;
    var m := |r.tried| - 1;
    assert r.tried[m] == n[m];
    assert call(n[m], req).Succeeded?;
    assert m == k;
  }
}

=== FILE: memory.dfy ===
/** Memory extraction for one stored message: one provider call lists candidate memories,
    a second call per candidate classifies it, and each surviving candidate is scored and
    stored as a memory record. */
module MemoryPipeline {
  import opened Wrappers
  import opened Js
  import opened Text
  import opened Models
  import Llm
  import JsonText

  // ----- Scores ------------------------------------------------------------------------

  /** `clamp01(x)`: `x` moved into the unit interval. */
  function Clamp01(x: real): (r: real)
    ensures InUnit(r)
    ensures InUnit(x) ==> r == x
    ensures x < 0.0 ==> r == 0.0
    ensures x > 1.0 ==> r == 1.0
  {
    if x < 0.0 then 0.0 else if x > 1.0 then 1.0 else x
  }

  /** The weight each kind of memory starts from: actions above facts above insights above
      everything else. */
  function BaseWeight(mtype: string): (w: real)
    ensures 0.55 <= w <= 0.85
  {
    if mtype == "action" then 0.85
    else if mtype == "fact" then 0.75
    else if mtype == "insight" then 0.65
    else 0.55
  }

  /** `importanceFor(type, conf)`: the type's weight scaled by `0.5 + conf / 2`, clamped. */
  function ImportanceFor(mtype: string, conf: real): (r: real)
    ensures InUnit(r)
    ensures InUnit(conf) ==> BaseWeight(mtype) / 2.0 <= r <= BaseWeight(mtype)
  {
    Clamp01(BaseWeight(mtype) * (0.5 + conf / 2.0))
  }

  /** Full confidence gives the type's weight and zero confidence half of it. */
  lemma ImportanceEndpoints(mtype: string)
    ensures ImportanceFor(mtype, 1.0) == BaseWeight(mtype)
    ensures ImportanceFor(mtype, 0.0) == BaseWeight(mtype) / 2.0
    ensures ImportanceFor("action", 1.0) == 0.85 && ImportanceFor("action", 0.0) == 0.425
  {
  }

  /** Within the unit interval, more confidence never lowers importance, and at equal
      confidence actions outrank facts, facts outrank insights and insights outrank
      questions. */
  lemma ImportanceOrder(conf: real, conf': real)
    requires InUnit(conf) && InUnit(conf') && conf <= conf'
    ensures forall t :: ImportanceFor(t, conf) <= ImportanceFor(t, conf')
    ensures ImportanceFor("question", conf) < ImportanceFor("insight", conf)
    ensures ImportanceFor("insight", conf) < ImportanceFor("fact", conf)
    ensures ImportanceFor("fact", conf) < ImportanceFor("action", conf)
  {
  }

  // ----- The per-candidate cascade ------------------------------------------------------

  /** The memory type: the classifier's if it names one of the four kinds, else the
      extractor's if it does, else "insight". Both are read through `String(...)`. */
  function FinalType(classified: Json, item: Json, show: Json -> string): (t: string)
    ensures t in MemoryTypes
    ensures StringOf(Get(classified, "type"), show) in MemoryTypes ==>
      t == StringOf(Get(classified, "type"), show)
    ensures StringOf(Get(classified, "type"), show) !in MemoryTypes ==>
      t == (if StringOf(Get(item, "type"), show) in MemoryTypes
            then StringOf(Get(item, "type"), show) else "insight")
  {
    var ct := StringOf(Get(classified, "type"), show);
    var it := StringOf(Get(item, "type"), show);
    if ct in MemoryTypes then ct else if it in MemoryTypes then it else "insight"
  }

  /** The unclamped confidence: the classifier's number, else the extractor's, else 0.7. */
  function RawConfidence(classified: Json, item: Json): (c: real)
    ensures AsNumber(Get(classified, "confidence")).Some? ==>
      c == AsNumber(Get(classified, "confidence")).value
    ensures AsNumber(Get(classified, "confidence")).None? ==>
      c == AsNumber(Get(item, "confidence")).GetOr(0.7)
  {
    match AsNumber(Get(classified, "confidence"))
    case Some(n) => n
    case None => AsNumber(Get(item, "confidence")).GetOr(0.7)
  }

  /** The stored confidence. */
  function Confidence(classified: Json, item: Json): (c: real)
    ensures InUnit(c)
    ensures InUnit(RawConfidence(classified, item)) ==> c == RawConfidence(classified, item)
  {
    Clamp01(RawConfidence(classified, item))
  }

  /** The stored importance: the extractor's number clamped, else derived from the final
      type and confidence. */
  function Importance(item: Json, mtype: string, conf: real): (r: real)
    ensures InUnit(r)
    ensures AsNumber(Get(item, "importance")).Some? ==>
      r == Clamp01(AsNumber(Get(item, "importance")).value)
    ensures AsNumber(Get(item, "importance")).None? ==> r == ImportanceFor(mtype, conf)
  {
    match AsNumber(Get(item, "importance"))
    case Some(n) => Clamp01(n)
    case None => ImportanceFor(mtype, conf)
  }

  /** Who said it: the speaking context's id (or "agent") for agent messages, and "user" for
      every other sender, system notes included. */
  function Source(msg: Message): (s: string)
    ensures msg.sender != "agent" ==> s == "user"
    ensures msg.sender == "agent" && msg.senderContextId.Some? ==> s == msg.senderContextId.value
    ensures msg.sender == "agent" && msg.senderContextId.None? ==> s == "agent"
  {
    if msg.sender == "agent" then msg.senderContextId.GetOr("agent") else "user"
  }

  /** `String(item.content || "").trim()`; `None` for a null candidate, whose property read
      throws. */
  function RawContent(item: Json, show: Json -> string): (r: Option<string>)
    ensures item.JNull? <==> r.None?
    ensures r.Some? ==> r.value == "" || (!IsSpace(r.value[0]) && !IsSpace(r.value[|r.value| - 1]))
  {
    if item.JNull? then None
    else
      var c := Get(item, "content");
      Some(Trim(if TruthyOpt(c) then StringOf(c, show) else ""))
  }

  // ----- Provider calls ----------------------------------------------------------------

  /** The provider chain of the extraction call. */
  const ExtractChain: seq<Llm.Candidate> :=
    [Llm.Candidate("openai", "gpt-4o-mini"), Llm.Candidate("anthropic", "claude-3-5-sonnet-latest")]

  /** The provider chain of the classification call. */
  const ClassifyChain: seq<Llm.Candidate> :=
    [Llm.Candidate("anthropic", "claude-3-5-sonnet-latest"), Llm.Candidate("openai", "gpt-4o-mini")]

  const ExtractInstructions: string :=
    "Extract 0-8 concise memories from the text below. Return STRICT JSON array like: "
    + "[{\"content\":\"...\", \"type\":\"fact|insight|question|action\"?, \"confidence\":0..1?}]"
    + "\n\nText:\n"

  const ClassifyInstructions: string :=
    "Classify the following memory as one of: fact, insight, question, action. "
    + "Return strict JSON: {\"type\":\"fact|insight|question|action\", \"confidence\":0..1}\n\n"
    + "Memory: \""

  function ExtractRequest(content: string): (q: Llm.Request)
    ensures EndsWith(q.prompt, content) && StartsWith(q.prompt, ExtractInstructions)
    ensures q.temperature == Some(JNum(0.0)) && q.maxTokens == Some(JNum(600.0)) && q.system.None?
  {
    var p := ExtractInstructions + content;
    assert p[..|ExtractInstructions|] == ExtractInstructions;
    Llm.Request(None, p, Some(JNum(0.0)), Some(JNum(600.0)))
  }

  function ClassifyRequest(content: string): (q: Llm.Request)
    ensures EndsWith(q.prompt, content + "\"") && StartsWith(q.prompt, ClassifyInstructions)
    ensures q.temperature == Some(JNum(0.0)) && q.maxTokens == Some(JNum(120.0)) && q.system.None?
  {
    var p := ClassifyInstructions + content + "\"";
    assert p[..|ClassifyInstructions|] == ClassifyInstructions;
    Llm.Request(None, p, Some(JNum(0.0)), Some(JNum(120.0)))
  }

  /** The `provider:model` label recorded on a memory. */
  function ModelLabel(r: Llm.Response): string {
    r.provider + ":" + r.model
  }

  /** The services the pipeline calls: provider credentials, the provider oracle, the
      parser and the number formatter. */
  datatype Services = Services(
    env: Llm.Env, call: (Llm.Config, Llm.Request) -> Llm.Attempt,
    parse: string -> Option<Json>, show: Json -> string)

  /** What one extraction leaves behind: the records stored, in order, and whether the run
      finished (a throw part-way keeps the records stored before it). */
  datatype Extraction = Extraction(stored: seq<MemoryRec>, completed: bool)

  /** The content of each record. */
  function Contents(ms: seq<MemoryRec>): (cs: seq<string>)
    ensures |cs| == |ms|
    ensures forall i :: 0 <= i < |ms| ==> cs[i] == ms[i].content
  {
    if |ms| == 0 then [] else [ms[0].content] + Contents(ms[1..])
  }

  /** The trimmed content a candidate contributes when it is not blank. */
  function Kept(item: Json, show: Json -> string): (cs: seq<string>)
    ensures |cs| <= 1 && forall c :: c in cs ==> c != ""
  {
    match RawContent(item, show)
    case Some(c) => if c == "" then [] else [c]
    case None => []
  }

  /** The candidates' trimmed contents that are not blank, in order: the reference for what
      a complete run stores. */
  function KeptContents(items: seq<Json>, show: Json -> string): (cs: seq<string>)
    ensures |cs| <= |items|
    ensures forall c :: c in cs ==> c != ""
  {
    if |items| == 0 then [] else Kept(items[0], show) + KeptContents(items[1..], show)
  }

  /** `a` is a prefix of `b`. */
  predicate IsPrefix<T(==)>(a: seq<T>, b: seq<T>) {
    |a| <= |b| && b[..|a|] == a
  }

  lemma PrefixCons<T>(x: T, a: seq<T>, b: seq<T>)
    requires IsPrefix(a, b)
    ensures IsPrefix([x] + a, [x] + b)
  {
    assert ([x] + b)[..|a| + 1] == [x] + b[..|a|];
  }

  /** A valid record carrying the message's attribution and the extraction label. */
  predicate FromMessage(m: MemoryRec, msg: Message, extractedBy: string) {
    && ValidMemory(m)
    && m.source == Source(msg)
    && m.extractedBy == Some(extractedBy)
    && m.conversationId == Some(msg.conversationId)
    && m.timestamp == msg.timestamp
  }

  /** The classifier's reply as an object: its parsed JSON, or `{}` when nothing parses. */
  function Classification(svc: Services, classified: Llm.Response): (c: Json)
    ensures c == EmptyObject || Some(c) == JsonText.SafeJson(classified.text, svc.parse)
  {
    Or(JsonText.SafeJson(classified.text, svc.parse), EmptyObject)
  }

  /** The stored type, confidence and importance are the scoring steps' results for the
      classification and the candidate. */
  predicate Scored(m: MemoryRec, c: Json, item: Json, show: Json -> string) {
    && m.mtype == FinalType(c, item, show)
    && m.confidence == Confidence(c, item)
    && m.importance == Importance(item, m.mtype, m.confidence)
  }

  /** The record one candidate turns into, or `None` when `Memory.create` rejects it. */
  function ScoreItem(svc: Services, msg: Message, extractedBy: string, item: Json,
                     content: string, classified: Llm.Response): (r: Option<MemoryRec>)
    requires content != ""
    ensures r.Some? <==> Source(msg) != ""
    ensures r.Some? ==> FromMessage(r.value, msg, extractedBy) && r.value.content == content
    ensures r.Some? ==> r.value.classifiedBy == Some(ModelLabel(classified))
    ensures r.Some? ==> Scored(r.value, Classification(svc, classified), item, svc.show)
  {
    var c := Classification(svc, classified);
    var t := FinalType(c, item, svc.show);
    var conf := Confidence(c, item);
    var imp := Importance(item, t, conf);
    var draft := MemoryDraft(content, t, Source(msg), Some(msg.conversationId),
      Some(msg.timestamp), Some(conf), Some(imp), Some(extractedBy), Some(ModelLabel(classified)));
    CreateMemory(draft, msg.timestamp).ToOption()
  }

  /** The classification call for a candidate's content. */
  function ClassifyRun(svc: Services, content: string): Llm.Run {
    Llm.WithFallback(svc.env, ClassifyChain, ClassifyRequest(content), svc.call)
  }

  /** Whether a candidate ends the run: a null candidate throws; one with non-blank content
      throws when its classification call fails or when the message has no sender to
      attribute the record to. */
  predicate Halts(svc: Services, msg: Message, item: Json) {
    match RawContent(item, svc.show)
    case None => true
    case Some(c) => c != "" && (ClassifyRun(svc, c).outcome.Err? || Source(msg) == "")
  }

  /** What one candidate does to the run. */
  datatype Step = Skip | Keep(rec: MemoryRec) | Halt

  /** One iteration: a null candidate throws, a blank one is skipped, otherwise the
      classification call runs (and may throw) and the record is created. */
  function ItemStep(svc: Services, msg: Message, extractedBy: string, item: Json): (s: Step)
    ensures s.Skip? <==> RawContent(item, svc.show) == Some("")
    ensures s.Keep? ==> Kept(item, svc.show) == [s.rec.content]
    ensures s.Keep? ==> FromMessage(s.rec, msg, extractedBy)
    ensures s.Keep? ==> ClassifyRun(svc, s.rec.content).outcome.Ok?
    ensures s.Keep? && ClassifyRun(svc, s.rec.content).outcome.Ok? ==>
      Scored(s.rec, Classification(svc, ClassifyRun(svc, s.rec.content).outcome.value), item, svc.show)
    ensures item.JNull? ==> s.Halt?
    ensures s.Halt? <==> Halts(svc, msg, item)
  {
    match RawContent(item, svc.show)
    case None => Halt
    case Some(content) =>
      if content == "" then Skip
      else
        match ClassifyRun(svc, content).outcome
        case Err(_) => Halt
        case Ok(res) =>
          match ScoreItem(svc, msg, extractedBy, item, content, res)
          case None => Halt
          case Some(m) => Keep(m)
  }

  /** The loop over the extracted candidates. */
  function StoreItems(svc: Services, msg: Message, extractedBy: string, items: seq<Json>)
    : (r: Extraction)
    ensures |r.stored| <= |items|
    ensures forall m :: m in r.stored ==> FromMessage(m, msg, extractedBy)
    ensures IsPrefix(Contents(r.stored), KeptContents(items, svc.show))
    ensures r.completed ==> Contents(r.stored) == KeptContents(items, svc.show)
    decreases |items|
  {
    if |items| == 0 then Extraction([], true)
    else
      var kept := KeptContents(items, svc.show);
      assert kept == Kept(items[0], svc.show) + KeptContents(items[1..], svc.show);
      match ItemStep(svc, msg, extractedBy, items[0])
      case Halt => Extraction([], false)
      case Skip =>
        assert Kept(items[0], svc.show) == [];
        StoreItems(svc, msg, extractedBy, items[1..])
      case Keep(m) =>
        var rest := StoreItems(svc, msg, extractedBy, items[1..]);
        assert Contents([m] + rest.stored) == [m.content] + Contents(rest.stored);
        PrefixCons(m.content, Contents(rest.stored), KeptContents(items[1..], svc.show));
        Extraction([m] + rest.stored, rest.completed)
  }

  /** The loop runs to the end exactly when no candidate halts it. */
  lemma {:induction false} StoreItemsCompletes(svc: Services, msg: Message, extractedBy: string, items: seq<Json>)
    ensures StoreItems(svc, msg, extractedBy, items).completed
      <==> forall i :: 0 <= i < |items| ==> !ItemStep(svc, msg, extractedBy, items[i]).Halt?
    decreases |items|
  {
    if |items| > 0 {
      var tail := items[1..];
      if ItemStep(svc, msg, extractedBy, items[0]).Halt? {
        assert !StoreItems(svc, msg, extractedBy, items).completed;
      } else {
        StoreItemsCompletes(svc, msg, extractedBy, tail);
        assert StoreItems(svc, msg, extractedBy, items).completed == StoreItems(svc, msg, extractedBy, tail).completed;
        assert forall i :: 1 <= i < |items| ==> items[i] == tail[i - 1];
      }
    }
  }

  /** The candidates the extraction reply lists: `safeJson(text) || []`, kept only when it is
      a non-empty array. */
  function Candidates(svc: Services, text: string): (items: seq<Json>)
    ensures (exists j :: JsonText.SafeJson(text, svc.parse) == Some(j) && j.JArr?) || items == []
    ensures forall j :: JsonText.SafeJson(text, svc.parse) == Some(JArr(j)) ==> items == j
  {
    match JsonText.SafeJson(text, svc.parse)
    case Some(JArr(xs)) => xs
    case _ => []
  }

  /** The extraction call for a message's content. */
  function ExtractRun(svc: Services, content: string): (r: Llm.Run)
    ensures Llm.MockMode(svc.env) ==> r.outcome == Ok(Llm.MockResponse(ExtractRequest(content).prompt))
  {
    Llm.WithFallback(svc.env, ExtractChain, ExtractRequest(content), svc.call)
  }

  /** `extractMemoriesForMessage(id)` given the looked-up message: nothing for a missing
      message or an empty extraction; otherwise one record per candidate with non-blank
      content, until a provider failure, a null candidate or a rejected record ends the
      run. */
  function ExtractMemories(svc: Services, msg: Option<Message>): (r: Extraction)
    ensures msg.None? ==> r == Extraction([], true)
    ensures msg.Some? && ExtractRun(svc, msg.value.content).outcome.Err? ==> r == Extraction([], false)
    ensures msg.Some? && ExtractRun(svc, msg.value.content).outcome.Ok? ==>
      var res := ExtractRun(svc, msg.value.content).outcome.value;
      && |r.stored| <= |Candidates(svc, res.text)|
      && (forall m :: m in r.stored ==> FromMessage(m, msg.value, ModelLabel(res)))
      && (r.completed ==> Contents(r.stored) == KeptContents(Candidates(svc, res.text), svc.show))
  {
    match msg
    case None => Extraction([], true)
    case Some(m) =>
      match ExtractRun(svc, m.content).outcome
      case Err(_) => Extraction([], false)
      case Ok(res) => StoreItems(svc, m, ModelLabel(res), Candidates(svc, res.text))
  }

  /** Once the extraction call answers, the run finishes exactly when none of the listed
      candidates halts it. */
  lemma ExtractMemoriesCompletes(svc: Services, msg: Message)
    requires ExtractRun(svc, msg.content).outcome.Ok?
    ensures var items := Candidates(svc, ExtractRun(svc, msg.content).outcome.value.text);
      ExtractMemories(svc, Some(msg)).completed <==> forall item :: item in items ==> !Halts(svc, msg, item)
  {
    var res := ExtractRun(svc, msg.content).outcome.value;
    var items := Candidates(svc, res.text);
    var tag := ModelLabel(res);
    assert ExtractMemories(svc, Some(msg)) == StoreItems(svc, msg, tag, items);
    StoreItemsCompletes(svc, msg, tag, items);
    NoneHalts(svc, msg, tag, items);
  }

  lemma NoneHalts(svc: Services, msg: Message, extractedBy: string, items: seq<Json>)
    ensures (forall i :: 0 <= i < |items| ==> !ItemStep(svc, msg, extractedBy, items[i]).Halt?)
       <==> (forall item :: item in items ==> !Halts(svc, msg, item))
  {
    forall item | item in items ensures ItemStep(svc, msg, extractedBy, item).Halt? <==> Halts(svc, msg, item) {}
    assert forall item :: item in items ==> exists i :: 0 <= i < |items| && items[i] == item;
  }

  /** Every stored record satisfies the memory schema. */
  lemma StoredRecordsValid(svc: Services, msg: Option<Message>)
    ensures forall m :: m in ExtractMemories(svc, msg).stored ==> ValidMemory(m)
  {
  }

  /** In mock mode every record is labelled as extracted by the mock model. */
  lemma MockLabels(svc: Services, msg: Message)
    requires Llm.MockMode(svc.env)
    ensures forall m :: m in ExtractMemories(svc, Some(msg)).stored ==>
      m.extractedBy == Some("mock:mock-model")
  {
    var res := ExtractRun(svc, msg.content).outcome.value;
    assert res.provider == "mock" && res.model == "mock-model";
    MockLabelText();
    assert ModelLabel(res) == "mock:mock-model";
  }

  lemma MockLabelText()
    ensures "mock" + ":" + "mock-model" == "mock:mock-model"
  {
  }
}

=== FILE: memory_routes.dfy ===
/** The memory listing route: the filter condition built from the query string, the escape
    that turns the model filter into a literal case-insensitive regular expression, the
    choice of sort order and the clamp on the number of rows. `Number(...)` of a query value
    is an oracle returning `None` for NaN; the full-text `$text` search is an oracle on the
    search string and a record. */
module MemoryRoutes {
  import opened Wrappers
  import opened Models
  import opened Text
  import Sorting

  /** The query-string parameters of `GET /memories`, each absent or a string. */
  datatype Query = Query(
    mtype: Option<string>, source: Option<string>, conversationId: Option<string>,
    minImportance: Option<string>, model: Option<string>, q: Option<string>,
    sort: Option<string>, limit: Option<string>)

  /** A query parameter that is present and truthy, that is, a non-empty string. */
  predicate Given(v: Option<string>) {
    v.Some? && v.value != ""
  }

  // ----- The model filter ----------------------------------------------------------------

  /** The escape character of a regular expression source (code point 92). */
  const Backslash: char := 92 as char

  /** The characters a regular expression source treats as syntax: the dot, star, plus,
      question mark, caret, dollar, both braces (code points 123 and 125), both parentheses,
      the bar, both square brackets and the backslash. */
  const Specials: set<char> :=
    {'.', '*', '+', '?', '^', '$', 123 as char, 125 as char, '(', ')', '|', '[', ']', Backslash}

  /** The model filter's escaping, memories.ts lines 40-41: a backslash before every special
      character. */
  function Escape(s: string): (r: string)
    ensures |r| >= |s|
    ensures forall c :: c in r ==> c in s || c == Backslash
    decreases |s|
  {
    if |s| == 0 then []
    else (if s[0] in Specials then [Backslash, s[0]] else [s[0]]) + Escape(s[1..])
  }

  /** The text a regular expression source stands for when it is made of plain characters
      and backslash-escaped special characters only, each of which matches itself; `None`
      for any other source, which this model does not interpret. */
  function Literal(p: string): (r: Option<string>)
    ensures r.Some? ==> |r.value| <= |p|
    decreases |p|
  {
    if |p| == 0 then Some([])
    else if p[0] == Backslash then
      if |p| >= 2 && p[1] in Specials then
        match Literal(p[2..])
        case Some(t) => Some([p[1]] + t)
        case None => None
      else None
    else if p[0] in Specials then None
    else
      match Literal(p[1..])
      case Some(t) => Some([p[0]] + t)
      case None => None
  }

  /** The escaped filter is a literal pattern standing for the filter text itself. */
  lemma {:induction false} EscapeIsLiteral(s: string)
    ensures Literal(Escape(s)) == Some(s)
    decreases |s|
  {
    if |s| > 0 {
      EscapeIsLiteral(s[1..]);
      var e := Escape(s);
      if s[0] in Specials {
        assert e == [Backslash, s[0]] + Escape(s[1..]);
        assert e[2..] == Escape(s[1..]);
      } else {
        assert e == [s[0]] + Escape(s[1..]);
        assert e[1..] == Escape(s[1..]);
      }
      assert s == [s[0]] + s[1..];
    }
  }

  /** Escaping is the only way to write a literal pattern: removing the backslashes and
      escaping again gives the pattern back. */
  lemma {:induction false} LiteralIsEscaped(p: string)
    requires Literal(p).Some?
    ensures Escape(Literal(p).value) == p
    decreases |p|
  {
    if |p| > 0 {
      var t := Literal(p).value;
      if p[0] == Backslash {
        LiteralIsEscaped(p[2..]);
        assert t == [p[1]] + Literal(p[2..]).value;
        assert t[1..] == Literal(p[2..]).value;
        assert p == [Backslash, p[1]] + p[2..];
      } else {
        LiteralIsEscaped(p[1..]);
        assert t == [p[0]] + Literal(p[1..]).value;
        assert t[1..] == Literal(p[1..]).value;
        assert p == [p[0]] + p[1..];
      }
    }
  }

  /** `new RegExp(p, "i").test(text)` for a literal pattern: the text it stands for occurs
      in `text`, letters compared without case. */
  function TestI(p: string, text: string): (r: Option<bool>)
    ensures r.Some? <==> Literal(p).Some?
  {
    match Literal(p)
    case Some(t) => Some(Contains(Lower(text), Lower(t)))
    case None => None
  }

  /** A `{field: regex}` condition: a missing field never matches. */
  predicate FieldMatches(field: Option<string>, p: string) {
    field.Some? && TestI(p, field.value) == Some(true)
  }

  // ----- The condition -------------------------------------------------------------------

  /** The `cond` object: each member present only when its parameter was given. */
  datatype Cond = Cond(
    mtype: Option<string>, source: Option<string>, conversationId: Option<string>,
    minImportance: Option<real>, pattern: Option<string>, search: Option<string>)

  /** Builds `cond` from the query. A given `minImportance` that is not a number fails the
      cast of the `importance` path, and the request is answered with an error. */
  function BuildCond(q: Query, num: string -> Option<real>): (r: Result<Cond, string>)
    ensures r.Err? <==> Given(q.minImportance) && num(q.minImportance.value).None?
    ensures r.Ok? ==>
      && (r.value.mtype.Some? <==> Given(q.mtype))
      && (r.value.source.Some? <==> Given(q.source))
      && (r.value.conversationId.Some? <==> Given(q.conversationId))
      && (r.value.minImportance.Some? <==> Given(q.minImportance))
      && (r.value.pattern.Some? <==> Given(q.model))
      && (r.value.search.Some? <==> Given(q.q))
    ensures r.Ok? && Given(q.model) ==> Literal(r.value.pattern.value) == Some(q.model.value)
  {
    if Given(q.minImportance) && num(q.minImportance.value).None? then Err("CastError: importance")
    else
      EscapeIsLiteral(q.model.GetOr(""));
      Ok(Cond(
        if Given(q.mtype) then q.mtype else None,
        if Given(q.source) then q.source else None,
        if Given(q.conversationId) then q.conversationId else None,
        if Given(q.minImportance) then num(q.minImportance.value) else None,
        if Given(q.model) then Some(Escape(q.model.value)) else None,
        if Given(q.q) then q.q else None))
  }

  /** Whether a record satisfies `cond`: every present member constrains it, the two model
      regexes through `$or`, and the search through the `$text` oracle. */
  predicate Matches(c: Cond, m: MemoryRec, textMatch: (string, MemoryRec) -> bool) {
    && (c.mtype.Some? ==> m.mtype == c.mtype.value)
    && (c.source.Some? ==> m.source == c.source.value)
    && (c.conversationId.Some? ==> m.conversationId == c.conversationId)
    && (c.minImportance.Some? ==> m.importance >= c.minImportance.value)
    && (c.pattern.Some? ==> FieldMatches(m.extractedBy, c.pattern.value) || FieldMatches(m.classifiedBy, c.pattern.value))
    && (c.search.Some? ==> textMatch(c.search.value, m))
  }

  /** The model filter read as text: it occurs, without case, in the field. */
  predicate MentionsI(field: Option<string>, model: string) {
    field.Some? && Contains(Lower(field.value), Lower(model))
  }

  /** Which records the listing selects, stated on the query itself: the given parameters
      are equalities, a lower bound and substring tests; absent ones constrain nothing. */
  predicate Selected(q: Query, num: string -> Option<real>, textMatch: (string, MemoryRec) -> bool, m: MemoryRec) {
    && (Given(q.mtype) ==> m.mtype == q.mtype.value)
    && (Given(q.source) ==> m.source == q.source.value)
    && (Given(q.conversationId) ==> m.conversationId == q.conversationId)
    && (Given(q.minImportance) && num(q.minImportance.value).Some? ==>
          m.importance >= num(q.minImportance.value).value)
    && (Given(q.model) ==> MentionsI(m.extractedBy, q.model.value) || MentionsI(m.classifiedBy, q.model.value))
    && (Given(q.q) ==> textMatch(q.q.value, m))
  }

  /** The condition the handler builds selects exactly the records `Selected` describes. */
  lemma CondSelects(q: Query, num: string -> Option<real>, textMatch: (string, MemoryRec) -> bool, m: MemoryRec)
    requires BuildCond(q, num).Ok?
    ensures Matches(BuildCond(q, num).value, m, textMatch) <==> Selected(q, num, textMatch, m)
  {
    if Given(q.model) {
      var p := BuildCond(q, num).value.pattern.value;
      assert Literal(p) == Some(q.model.value);
    }
  }

  /** An empty query selects every record. */
  lemma EmptyQuerySelectsAll(num: string -> Option<real>, textMatch: (string, MemoryRec) -> bool, m: MemoryRec)
    ensures BuildCond(Query(None, None, None, None, None, None, None, None), num).Ok?
    ensures Matches(BuildCond(Query(None, None, None, None, None, None, None, None), num).value, m, textMatch)
  {
  }

  /** `Memory.find(cond)`: the records that satisfy the condition, in collection order. */
  function Found(ms: seq<MemoryDoc>, c: Cond, textMatch: (string, MemoryRec) -> bool): (r: seq<MemoryDoc>)
    ensures forall d :: d in r <==> d in ms && Matches(c, d.rec, textMatch)
  {
    Sorting.Filter(ms, (d: MemoryDoc) => Matches(c, d.rec, textMatch))
  }

  // ----- Sort and limit ------------------------------------------------------------------

  datatype SortKey = ByImportance | ByConfidence | ByNewest

  /** `switch (sort)`: "importance" and "confidence" pick their orders, anything else,
      absence included, the newest first. */
  function SortOf(sort: Option<string>): (k: SortKey)
    ensures k == ByImportance <==> sort == Some("importance")
    ensures k == ByConfidence <==> sort == Some("confidence")
  {
    if sort == Some("importance") then ByImportance
    else if sort == Some("confidence") then ByConfidence
    else ByNewest
  }

  /** `a` before `b` under keys compared in order, each descending. */
  predicate Desc3(a1: real, a2: real, a3: int, b1: real, b2: real, b3: int) {
    a1 > b1 || (a1 == b1 && (a2 > b2 || (a2 == b2 && a3 >= b3)))
  }

  /** The order a sort key asks for: `{importance: -1, confidence: -1, timestamp: -1}`,
      `{confidence: -1, importance: -1, timestamp: -1}` or `{timestamp: -1}`. */
  function Before(k: SortKey): (MemoryDoc, MemoryDoc) -> bool {
    match k
    case ByImportance => (a: MemoryDoc, b: MemoryDoc) =>
      Desc3(a.rec.importance, a.rec.confidence, a.rec.timestamp, b.rec.importance, b.rec.confidence, b.rec.timestamp)
    case ByConfidence => (a: MemoryDoc, b: MemoryDoc) =>
      Desc3(a.rec.confidence, a.rec.importance, a.rec.timestamp, b.rec.confidence, b.rec.importance, b.rec.timestamp)
    case ByNewest => (a: MemoryDoc, b: MemoryDoc) => a.rec.timestamp >= b.rec.timestamp
  }

  lemma BeforeTotal(k: SortKey)
    ensures Sorting.TotalPreorder(Before(k))
  {
  }

  const DefaultLimit: real := 200.0
  const MaxLimit: real := 1000.0

  /** `Math.max(1, Math.min(1000, Number(limit) || 200))`: a missing, zero or non-numeric
      limit means 200. */
  function EffectiveLimit(limit: Option<string>, num: string -> Option<real>): (n: real)
    ensures 1.0 <= n <= 1000.0
    ensures limit.None? ==> n == 200.0
    ensures limit.Some? && (num(limit.value).None? || num(limit.value) == Some(0.0)) ==> n == 200.0
    ensures limit.Some? && num(limit.value).Some? && 1.0 <= num(limit.value).value <= 1000.0 ==> n == num(limit.value).value
  {
    var x := if limit.None? || num(limit.value).None? || num(limit.value) == Some(0.0) then DefaultLimit
             else num(limit.value).value;
    var capped := if x < MaxLimit then x else MaxLimit;
    if capped > 1.0 then capped else 1.0
  }

  /** The number of rows `.limit(n)` lets through; a fractional limit counts its whole part. */
  function RowLimit(limit: Option<string>, num: string -> Option<real>): (n: nat)
    ensures 1 <= n <= 1000
    ensures n as real <= EffectiveLimit(limit, num) < n as real + 1.0
  {
    EffectiveLimit(limit, num).Floor
  }

  // ----- GET /memories -------------------------------------------------------------------

  /** `Memory.find(cond).sort(order).limit(n)`: the selected records, in the requested
      order, at most `n` of them, none left out that would come before one listed. */
  function ListMemories(ms: seq<MemoryDoc>, q: Query, num: string -> Option<real>,
                        textMatch: (string, MemoryRec) -> bool): (r: Result<seq<MemoryDoc>, string>)
    ensures r.Err? <==> Given(q.minImportance) && num(q.minImportance.value).None?
    ensures r.Ok? ==> |r.value| <= RowLimit(q.limit, num)
    ensures r.Ok? ==> var n := |Found(ms, BuildCond(q, num).value, textMatch)|;
      |r.value| == if n < RowLimit(q.limit, num) then n else RowLimit(q.limit, num)
    ensures r.Ok? ==> Sorting.SortedBy(Before(SortOf(q.sort)), r.value)
    ensures r.Ok? ==> forall d :: d in r.value ==> d in ms && Selected(q, num, textMatch, d.rec)
    ensures r.Ok? ==> forall d, x :: d in ms && Selected(q, num, textMatch, d.rec) && d !in r.value && x in r.value ==>
      Before(SortOf(q.sort))(x, d)
  {
    match BuildCond(q, num)
    case Err(e) => Err(e)
    case Ok(c) =>
      var found := Found(ms, c, textMatch);
      BeforeTotal(SortOf(q.sort));
      var r := Sorting.TopN(Before(SortOf(q.sort)), found, RowLimit(q.limit, num));
      forall d | d in ms
        ensures Matches(c, d.rec, textMatch) <==> Selected(q, num, textMatch, d.rec)
      {
        CondSelects(q, num, textMatch, d.rec);
      }
      Ok(r)
  }

  /** When the selected records fit under the limit, every one of them is listed. */
  lemma ListsAllWhenFew(ms: seq<MemoryDoc>, q: Query, num: string -> Option<real>,
                        textMatch: (string, MemoryRec) -> bool)
    requires BuildCond(q, num).Ok?
    requires |Found(ms, BuildCond(q, num).value, textMatch)| <= RowLimit(q.limit, num)
    ensures ListMemories(ms, q, num, textMatch).Ok?
    ensures multiset(ListMemories(ms, q, num, textMatch).value) == multiset(Found(ms, BuildCond(q, num).value, textMatch))
  {
    BeforeTotal(SortOf(q.sort));
  }
}

=== FILE: models.dfy ===
/** The persisted records of the server (contexts, conversations, messages, memories), the
    schema's enumerations, bounds and defaults, and the validity predicates that every
    operation of the model must respect. */
module Models {
  import opened Wrappers
  import opened Js

  const Phases: seq<string> := ["research", "analysis", "synthesis", "report"]
  const Levels: seq<string> := ["Domain", "Project", "Room", "Agent"]
  const AgentTypes: seq<string> := ["Researcher", "Analyzer", "Synthesizer", "Author"]
  const MemoryTypes: seq<string> := ["fact", "insight", "question", "action"]
  const Statuses: seq<string> := ["active", "archived"]
  const Senders: seq<string> := ["user", "agent", "system"]

  /** Scores are stored as numbers bounded to the unit interval. */
  predicate InUnit(x: real) {
    0.0 <= x <= 1.0
  }

  // ----- Context -----------------------------------------------------------------------

  /** The eight trait scores of a context node, in schema order. */
  datatype Traits = Traits(
    curiosity: real, thoroughness: real, creativity: real, analytical: real,
    communication: real, structure: real, clarity: real, persuasiveness: real)

  const TraitKeys: seq<string> :=
    ["curiosity", "thoroughness", "creativity", "analytical",
     "communication", "structure", "clarity", "persuasiveness"]

  /** The stored trait values in schema order, aligned with `TraitKeys`. */
  function TraitValues(t: Traits): (vs: seq<real>)
    ensures |vs| == |TraitKeys|
  {
    [t.curiosity, t.thoroughness, t.creativity, t.analytical,
     t.communication, t.structure, t.clarity, t.persuasiveness]
  }

  /** The inheritable model-selection block of a context node. */
  datatype ModelConfig = ModelConfig(
    provider: string, model: string, temperature: real, maxTokens: int,
    contextWindow: int, parameters: Option<Json>)

  /** A stored context node. The property bag is kept as its list of own entries in
      insertion order. */
  datatype ContextNode = ContextNode(
    id: string, name: string, level: string, parentId: Option<string>,
    properties: seq<(string, Json)>, agentType: Option<string>, traits: Traits,
    modelConfig: Option<ModelConfig>)

  predicate ValidTraits(t: Traits) {
    forall i :: 0 <= i < |TraitValues(t)| ==> InUnit(TraitValues(t)[i])
  }

  predicate ValidModelConfig(m: ModelConfig) {
    m.provider != "" && m.model != ""
  }

  /** Schema invariants of a context node: a name, a level from the enumeration, a role
      exactly required at the Agent level, bounded traits and a complete model block. */
  predicate ValidContext(c: ContextNode) {
    && c.name != ""
    && c.level in Levels
    && (c.level == "Agent" ==> c.agentType.Some?)
    && (c.agentType.Some? ==> c.agentType.value in AgentTypes)
    && ValidTraits(c.traits)
    && (c.modelConfig.Some? ==> ValidModelConfig(c.modelConfig.value))
  }

  /** Trait values as supplied to `create`; absent ones take the schema default. */
  datatype TraitsDraft = TraitsDraft(
    curiosity: Option<real>, thoroughness: Option<real>, creativity: Option<real>,
    analytical: Option<real>, communication: Option<real>, structure: Option<real>,
    clarity: Option<real>, persuasiveness: Option<real>)

  datatype ModelConfigDraft = ModelConfigDraft(
    provider: Option<string>, model: Option<string>, temperature: Option<real>,
    maxTokens: Option<int>, contextWindow: Option<int>, parameters: Option<Json>)

  datatype ContextDraft = ContextDraft(
    name: Option<string>, level: Option<string>, parentId: Option<string>,
    properties: Option<seq<(string, Json)>>, agentType: Option<string>,
    traits: TraitsDraft, modelConfig: Option<ModelConfigDraft>)

  const DefaultTrait: real := 0.5
  const DefaultTemperature: real := 0.2
  const DefaultMaxTokens: int := 2048
  const DefaultContextWindow: int := 128000

  function DefaultTraits(d: TraitsDraft): Traits {
    Traits(
      d.curiosity.GetOr(DefaultTrait), d.thoroughness.GetOr(DefaultTrait),
      d.creativity.GetOr(DefaultTrait), d.analytical.GetOr(DefaultTrait),
      d.communication.GetOr(DefaultTrait), d.structure.GetOr(DefaultTrait),
      d.clarity.GetOr(DefaultTrait), d.persuasiveness.GetOr(DefaultTrait))
  }

  function DefaultModelConfig(d: ModelConfigDraft): ModelConfig {
    ModelConfig(
      d.provider.GetOr(""), d.model.GetOr(""), d.temperature.GetOr(DefaultTemperature),
      d.maxTokens.GetOr(DefaultMaxTokens), d.contextWindow.GetOr(DefaultContextWindow),
      d.parameters)
  }

  /** The supplied trait values in schema order, aligned with `TraitKeys`. */
  function DraftTraitValues(d: TraitsDraft): (vs: seq<Option<real>>)
    ensures |vs| == |TraitKeys|
  {
    [d.curiosity, d.thoroughness, d.creativity, d.analytical,
     d.communication, d.structure, d.clarity, d.persuasiveness]
  }

  /** What `create` accepts, read off the draft: a non-empty name, a known level, a known
      role that is present at the Agent level, supplied traits in the unit interval and,
      when a model block is given, a non-empty provider and model. */
  predicate AcceptableDraft(d: ContextDraft) {
    && d.name.Some? && d.name.value != ""
    && d.level.Some? && d.level.value in Levels
    && (d.level.value == "Agent" ==> d.agentType.Some?)
    && (d.agentType.Some? ==> d.agentType.value in AgentTypes)
    && (forall i :: 0 <= i < |TraitKeys| && DraftTraitValues(d.traits)[i].Some? ==>
          InUnit(DraftTraitValues(d.traits)[i].value))
    && (d.modelConfig.Some? ==>
          && d.modelConfig.value.provider.Some? && d.modelConfig.value.provider.value != ""
          && d.modelConfig.value.model.Some? && d.modelConfig.value.model.value != "")
  }

  /** `Context.create(draft)`: applies the schema defaults, then validates. A missing
      required string is stored as "" here, which the `required` validator rejects. */
  function CreateContext(id: string, d: ContextDraft): (r: Result<ContextNode, string>)
    ensures r.Ok? <==> AcceptableDraft(d)
    ensures r.Ok? ==> ValidContext(r.value)
    ensures r.Ok? ==> r.value.id == id
    ensures r.Ok? ==> forall i :: 0 <= i < |TraitKeys| ==>
      TraitValues(r.value.traits)[i] == DraftTraitValues(d.traits)[i].GetOr(0.5)
    ensures r.Ok? ==> r.value.parentId == d.parentId
    ensures r.Ok? && d.properties.None? ==> r.value.properties == []
    ensures r.Ok? && d.traits.curiosity.None? ==> r.value.traits.curiosity == 0.5
    ensures r.Ok? && d.traits.persuasiveness.None? ==> r.value.traits.persuasiveness == 0.5
    ensures r.Ok? && d.traits.clarity.Some? ==> r.value.traits.clarity == d.traits.clarity.value
    ensures r.Ok? ==> (r.value.modelConfig.Some? <==> d.modelConfig.Some?)
    ensures r.Ok? && d.modelConfig.Some? && d.modelConfig.value.temperature.None?
      ==> r.value.modelConfig.Some? && r.value.modelConfig.value.temperature == 0.2
    ensures r.Ok? && d.modelConfig.Some? && d.modelConfig.value.maxTokens.None?
      ==> r.value.modelConfig.Some? && r.value.modelConfig.value.maxTokens == 2048
    ensures r.Ok? && d.modelConfig.Some? && d.modelConfig.value.contextWindow.None?
      ==> r.value.modelConfig.Some? && r.value.modelConfig.value.contextWindow == 128000
    ensures d.level == Some("Agent") && d.agentType.None? ==> r.Err?
    ensures d.traits.curiosity.Some? && !InUnit(d.traits.curiosity.value) ==> r.Err?
    ensures d.level.Some? && d.level.value !in Levels ==> r.Err?
    ensures d.modelConfig.Some? && d.modelConfig.value.model.None? ==> r.Err?
  {
    var c := ContextNode(
      id, d.name.GetOr(""), d.level.GetOr(""), d.parentId, d.properties.GetOr([]),
      d.agentType, DefaultTraits(d.traits),
      match d.modelConfig case None => None case Some(m) => Some(DefaultModelConfig(m)));
    assert TraitValues(c.traits)[0] == c.traits.curiosity;
    assert forall i :: 0 <= i < |TraitKeys| ==>
      TraitValues(c.traits)[i] == DraftTraitValues(d.traits)[i].GetOr(DefaultTrait);
    assert ValidTraits(c.traits) <==> forall i :: 0 <= i < |TraitKeys| && DraftTraitValues(d.traits)[i].Some? ==>
      InUnit(DraftTraitValues(d.traits)[i].value);
    if ValidContext(c) then Ok(c) else Err("Context validation failed")
  }

  // ----- Conversation ------------------------------------------------------------------

  datatype PhaseEntry = PhaseEntry(phase: string, at: int)

  /** A stored conversation. `phase` is the stored string ("" when the field is unset) and
      `topic` is `None` when null or missing. */
  datatype Conversation = Conversation(
    id: string, title: string, participantIds: seq<string>, status: string,
    topic: Option<string>, phase: string, phaseHistory: seq<PhaseEntry>,
    createdAt: int, updatedAt: int)

  /** Schema invariants: a title, a status and a phase from their enumerations. */
  predicate ValidConversation(c: Conversation) {
    c.title != "" && c.status in Statuses && c.phase in Phases
  }

  /** `Conversation.create({title, participantIds})` with its schema defaults. */
  function CreateConversation(id: string, title: string, participantIds: seq<string>, now: int)
    : (r: Result<Conversation, string>)
    ensures r.Ok? <==> title != ""
    ensures r.Ok? ==> ValidConversation(r.value)
    ensures r.Ok? ==> r.value.phase == "research" && r.value.status == "active"
    ensures r.Ok? ==> r.value.phaseHistory == [] && r.value.topic.None?
    ensures r.Ok? ==> r.value.title == title && r.value.participantIds == participantIds
  {
    if title == "" then Err("Conversation validation failed")
    else Ok(Conversation(id, title, participantIds, "active", None, "research", [], now, now))
  }

  // ----- Message -----------------------------------------------------------------------

  /** The metadata fields the message schema keeps; other metadata keys are dropped when a
      message is saved. */
  datatype MessageMeta = MessageMeta(
    modelProvider: Option<string>, model: Option<string>, tokensInput: Option<int>,
    tokensOutput: Option<int>, error: Option<string>)

  const NoMeta: MessageMeta := MessageMeta(None, None, None, None, None)

  datatype Message = Message(
    id: string, conversationId: string, sender: string, senderContextId: Option<string>,
    content: string, meta: MessageMeta, timestamp: int)

  predicate ValidMessage(m: Message) {
    m.sender in Senders && m.content != ""
  }

  /** The error message of a message whose required content is empty. */
  const MessageContentRequired: string :=
    "Message validation failed: content: Path `content` is required."

  /** `Message.create(...)`: rejects an empty content. */
  function CreateMessage(m: Message): (r: Result<Message, string>)
    requires m.sender in Senders
    ensures r.Ok? <==> m.content != ""
    ensures r.Ok? ==> r.value == m && ValidMessage(r.value)
    ensures r.Err? ==> r.error == MessageContentRequired
  {
    if m.content == "" then Err(MessageContentRequired) else Ok(m)
  }

  // ----- Memory ------------------------------------------------------------------------

  datatype MemoryRec = MemoryRec(
    content: string, mtype: string, source: string, sourceMessageId: Option<string>,
    conversationId: Option<string>, timestamp: int, confidence: real, importance: real,
    extractedBy: Option<string>, classifiedBy: Option<string>, phase: string,
    agentName: Option<string>, agentType: Option<string>)

  /** Schema invariants of a memory record. */
  predicate ValidMemory(m: MemoryRec) {
    && m.content != ""
    && m.mtype in MemoryTypes
    && m.source != ""
    && InUnit(m.confidence)
    && InUnit(m.importance)
    && m.phase in Phases
  }

  datatype MemoryDraft = MemoryDraft(
    content: string, mtype: string, source: string, conversationId: Option<string>,
    timestamp: Option<int>, confidence: Option<real>, importance: Option<real>,
    extractedBy: Option<string>, classifiedBy: Option<string>)

  const DefaultConfidence: real := 0.7
  const DefaultImportance: real := 0.5

  /** `Memory.create(draft)`: defaults confidence to 0.7, importance to 0.5, the phase to
      research and the timestamp to `now`, then validates. */
  function CreateMemory(d: MemoryDraft, now: int): (r: Result<MemoryRec, string>)
    ensures r.Ok? ==> ValidMemory(r.value)
    ensures r.Ok? ==> (r.value.content == d.content && r.value.mtype == d.mtype
      && r.value.source == d.source)
    ensures r.Ok? ==> r.value.confidence == d.confidence.GetOr(0.7)
    ensures r.Ok? ==> r.value.importance == d.importance.GetOr(0.5)
    ensures r.Ok? ==> r.value.phase == "research"
    ensures r.Ok? ==> r.value.timestamp == d.timestamp.GetOr(now)
    ensures r.Ok? <==>
      && d.content != "" && d.source != "" && d.mtype in MemoryTypes
      && (d.confidence.Some? ==> InUnit(d.confidence.value))
      && (d.importance.Some? ==> InUnit(d.importance.value))
  {
    var m := MemoryRec(
      d.content, d.mtype, d.source, None, d.conversationId, d.timestamp.GetOr(now),
      d.confidence.GetOr(DefaultConfidence), d.importance.GetOr(DefaultImportance),
      d.extractedBy, d.classifiedBy, "research", None, None);
    if ValidMemory(m) then Ok(m) else Err("Memory validation failed")
  }

  /** A stored memory with the identifier the database assigned to it. */
  datatype MemoryDoc = MemoryDoc(id: string, rec: MemoryRec)
}

=== FILE: namegraph.dfy ===
/** The entity graph keyed by entity name: the bulk upsert of entities and relations, the
    sanitiser for relation types spliced into query text, and the snapshot ordered by
    mentions and confidence. */
module NameGraph {
  import opened Wrappers
  import opened Text
  import Sorting

  // ----- Relation-type sanitiser -------------------------------------------------------

  /** The characters a sanitised relation type may contain. */
  predicate RelTypeChar(c: char) {
    ('A' <= c <= 'Z') || ('0' <= c <= '9') || c == '_'
  }

  /** One character after upper-casing: kept when allowed, otherwise an underscore. */
  function SanitizeChar(c: char): (d: char)
    ensures RelTypeChar(d)
    ensures RelTypeChar(UpperChar(c)) ==> d == UpperChar(c)
    ensures !RelTypeChar(UpperChar(c)) ==> d == '_'
  {
    var u := UpperChar(c);
    if RelTypeChar(u) then u else '_'
  }

  const DefaultRelType: string := "RELATED_TO"

  /** `s || "RELATED_TO"`. */
  function RelTypeOrDefault(s: Option<string>): (b: string)
    ensures |b| > 0
    ensures s.Some? && s.value != "" ==> b == s.value
  {
    if s.None? || s.value == "" then DefaultRelType else s.value
  }

  /** `safeRel(s)`: `(s || "RELATED_TO").toUpperCase().replace(/[^A-Z0-9_]/g, "_")`. */
  function SafeRel(s: Option<string>): (r: string)
    ensures |r| == |RelTypeOrDefault(s)|
    ensures forall i :: 0 <= i < |r| ==> r[i] == SanitizeChar(RelTypeOrDefault(s)[i])
    ensures |r| > 0 && forall i :: 0 <= i < |r| ==> RelTypeChar(r[i])
  {
    var base := RelTypeOrDefault(s);
    seq(|base|, i requires 0 <= i < |base| => SanitizeChar(base[i]))
  }

  /** An absent or empty type becomes the default relation. */
  lemma SafeRelDefault(s: Option<string>)
    requires s.None? || s.value == ""
    ensures SafeRel(s) == DefaultRelType
  {
    var r := SafeRel(s);
    forall i | 0 <= i < |r| ensures r[i] == DefaultRelType[i] {
      assert RelTypeChar(DefaultRelType[i]);
    }
  }

  /** Sanitising a sanitised type changes nothing. */
  lemma SafeRelIdempotent(s: Option<string>)
    ensures SafeRel(Some(SafeRel(s))) == SafeRel(s)
  {
    var r := SafeRel(s);
    var r' := SafeRel(Some(r));
    forall i | 0 <= i < |r| ensures r'[i] == r[i] {
      assert RelTypeChar(r[i]);
    }
  }

  // ----- Store -------------------------------------------------------------------------

  /** A stored node; the name is its key. */
  datatype Node = Node(etype: string, confidence: real, mentions: int)

  datatype RelKey = RelKey(source: string, target: string, rtype: string)

  /** Nodes and relations with their creation orders; a relation carries its confidence. */
  datatype Graph = Graph(nodes: map<string, Node>, nodeOrder: seq<string>,
                         rels: map<RelKey, real>, relOrder: seq<RelKey>)

  const EmptyGraph: Graph := Graph(map[], [], map[], [])

  ghost predicate GraphInv(g: Graph) {
    && (forall i, j :: 0 <= i < j < |g.nodeOrder| ==> g.nodeOrder[i] != g.nodeOrder[j])
    && (forall k :: k in g.nodes <==> k in g.nodeOrder)
    && (forall i, j :: 0 <= i < j < |g.relOrder| ==> g.relOrder[i] != g.relOrder[j])
    && (forall k :: k in g.rels <==> k in g.relOrder)
    && (forall k :: k in g.rels ==> k.source in g.nodes && k.target in g.nodes)
    && (forall k :: k in g.nodes ==> g.nodes[k].mentions >= 1)
  }

  lemma EmptyGraphInv()
    ensures GraphInv(EmptyGraph)
  {
  }

  /** An entity of the payload. */
  datatype EntityIn = EntityIn(name: string, etype: Option<string>, confidence: Option<real>)

  /** A relation of the payload. */
  datatype RelationIn = RelationIn(source: string, target: string, rtype: Option<string>,
                                   confidence: Option<real>)

  /** `e.type || "Entity"`. */
  function TypeOrDefault(t: Option<string>): (r: string)
    ensures r != ""
    ensures t.Some? && t.value != "" ==> r == t.value
  {
    if t.Some? && t.value != "" then t.value else "Entity"
  }

  /** The entity `MERGE` by name: a new node takes the given (or default) type and
      confidence with one mention; an existing one keeps its type, has its confidence
      overwritten and gains a mention. */
  function UpsertEntity(g: Graph, e: EntityIn): (r: Graph)
    ensures e.name !in g.nodes ==>
      r.nodes == g.nodes[e.name := Node(TypeOrDefault(e.etype), e.confidence.GetOr(0.7), 1)]
    ensures e.name in g.nodes ==> r.nodes == g.nodes[e.name := Node(g.nodes[e.name].etype,
      e.confidence.GetOr(0.7), g.nodes[e.name].mentions + 1)]
    ensures r.rels == g.rels && r.relOrder == g.relOrder
    ensures GraphInv(g) ==> GraphInv(r)
  {
    var conf := e.confidence.GetOr(0.7);
    if e.name in g.nodes then
      var n := g.nodes[e.name];
      g.(nodes := g.nodes[e.name := Node(n.etype, conf, n.mentions + 1)])
    else
      var g' := Graph(g.nodes[e.name := Node(TypeOrDefault(e.etype), conf, 1)],
        g.nodeOrder + [e.name], g.rels, g.relOrder);
      assert GraphInv(g) ==> GraphInv(g') by {
        if GraphInv(g) {
          assert forall k :: k in g'.nodeOrder <==> k in g.nodeOrder || k == e.name;
        }
      }
      g'
  }

  /** A relation whose sanitised type starts with a digit, which Cypher does not accept as
      a relationship type. */
  predicate TypeRejected(rel: RelationIn) {
    '0' <= SafeRel(rel.rtype)[0] <= '9'
  }

  /** The key a relation is merged under. */
  function KeyOf(rel: RelationIn): RelKey {
    RelKey(rel.source, rel.target, SafeRel(rel.rtype))
  }

  /** The relation `MERGE`: nothing happens unless both names are stored; the confidence
      (0.6 when not given) is set on creation and overwritten on a repeat. A sanitised type
      starting with a digit is not an identifier and the statement fails. */
  function UpsertRelation(g: Graph, rel: RelationIn): (r: Result<Graph, string>)
    ensures r.Err? <==> TypeRejected(rel)
    ensures r.Ok? && (rel.source !in g.nodes || rel.target !in g.nodes) ==> r.value == g
    ensures r.Ok? && rel.source in g.nodes && rel.target in g.nodes ==>
      r.value.rels == g.rels[KeyOf(rel) := rel.confidence.GetOr(0.6)]
    ensures r.Ok? ==> r.value.nodes == g.nodes && r.value.nodeOrder == g.nodeOrder
    ensures r.Ok? && GraphInv(g) ==> GraphInv(r.value)
  {
    var t := SafeRel(rel.rtype);
    if '0' <= t[0] <= '9' then Err("Neo4jError: invalid relationship type")
    else if rel.source !in g.nodes || rel.target !in g.nodes then Ok(g)
    else
      var key := RelKey(rel.source, rel.target, t);
      var conf := rel.confidence.GetOr(0.6);
      if key in g.rels then Ok(g.(rels := g.rels[key := conf]))
      else
        var g' := g.(rels := g.rels[key := conf], relOrder := g.relOrder + [key]);
        assert GraphInv(g) ==> GraphInv(g') by {
          if GraphInv(g) {
            assert forall k :: k in g'.relOrder <==> k in g.relOrder || k == key;
          }
        }
        Ok(g')
  }

  /** The payload of a bulk upsert; absent lists read as empty. */
  datatype Payload = Payload(entities: Option<seq<EntityIn>>, relations: Option<seq<RelationIn>>)

  function UpsertEntities(g: Graph, es: seq<EntityIn>): (r: Graph)
    ensures GraphInv(g) ==> GraphInv(r)
    ensures forall i :: 0 <= i < |es| ==> es[i].name in r.nodes
    ensures forall k :: k in g.nodes ==> k in r.nodes
    ensures r.rels == g.rels
    decreases |es|
  {
    if |es| == 0 then g
    else
      var r := UpsertEntities(UpsertEntity(g, es[0]), es[1..]);
      assert forall i :: 1 <= i < |es| ==> es[i] == es[1..][i - 1];
      r
  }

  /** The relation upserts in order; a failing statement ends the loop with the earlier
      writes kept. */
  function UpsertRelations(g: Graph, rs: seq<RelationIn>): (r: Result<Graph, Graph>)
    ensures GraphInv(g) ==> GraphInv(After(r))
    ensures After(r).nodes == g.nodes
    ensures forall k :: k in g.rels ==> k in After(r).rels
    ensures r.Ok? <==> forall i :: 0 <= i < |rs| ==> !TypeRejected(rs[i])
    decreases |rs|
  {
    if |rs| == 0 then Ok(g)
    else match UpsertRelation(g, rs[0])
      case Err(_) => Err(g)
      case Ok(g') =>
        var r := UpsertRelations(g', rs[1..]);
        assert forall i :: 1 <= i < |rs| ==> rs[i] == rs[1..][i - 1];
        r
  }

  /** A key no relation of the list is merged under keeps its confidence. */
  lemma {:induction false} UpsertRelationsFrame(g: Graph, rs: seq<RelationIn>, k: RelKey)
    requires k in g.rels && forall j :: 0 <= j < |rs| ==> KeyOf(rs[j]) != k
    ensures After(UpsertRelations(g, rs)).rels[k] == g.rels[k]
    decreases |rs|
  {
    if |rs| > 0 && UpsertRelation(g, rs[0]).Ok? {
      var tail := rs[1..];
      assert forall j :: 0 <= j < |tail| ==> tail[j] == rs[j + 1];
      UpsertRelationsFrame(UpsertRelation(g, rs[0]).value, tail, k);
    }
  }

  /** A finished run has merged every relation whose endpoints are stored, and a key keeps
      the confidence of the last relation merged under it. */
  lemma {:induction false} UpsertRelationsStores(g: Graph, rs: seq<RelationIn>)
    ensures var r := UpsertRelations(g, rs);
      r.Ok? ==> forall i :: 0 <= i < |rs| && rs[i].source in g.nodes && rs[i].target in g.nodes ==>
        && KeyOf(rs[i]) in r.value.rels
        && ((forall j :: i < j < |rs| ==> KeyOf(rs[j]) != KeyOf(rs[i])) ==>
              r.value.rels[KeyOf(rs[i])] == rs[i].confidence.GetOr(0.6))
    decreases |rs|
  {
    if |rs| > 0 && UpsertRelation(g, rs[0]).Ok? {
      var g' := UpsertRelation(g, rs[0]).value;
      var tail := rs[1..];
      UpsertRelationsStores(g', tail);
      assert forall i :: 1 <= i < |rs| ==> rs[i] == tail[i - 1];
      if rs[0].source in g.nodes && rs[0].target in g.nodes && forall j :: 0 <= j < |tail| ==> KeyOf(tail[j]) != KeyOf(rs[0]) {
        UpsertRelationsFrame(g', tail, KeyOf(rs[0]));
      }
    }
  }

  /** The graph a bulk upsert leaves behind, whether or not it finished. */
  function After(r: Result<Graph, Graph>): Graph {
    match r
    case Ok(h) => h
    case Err(h) => h
  }

  /** `upsertEntitiesAndRelations(payload)`: every entity, then every relation. `Err`
      carries the graph left behind when a statement failed. */
  function Upsert(g: Graph, p: Payload): (r: Result<Graph, Graph>)
    ensures GraphInv(g) ==> GraphInv(After(r))
    ensures forall e :: e in p.entities.GetOr([]) ==> e.name in After(r).nodes
    ensures r.Ok? <==> forall rel :: rel in p.relations.GetOr([]) ==> !TypeRejected(rel)
    ensures r.Ok? ==> forall rel :: rel in p.relations.GetOr([]) ==>
      rel.source in r.value.nodes && rel.target in r.value.nodes ==> KeyOf(rel) in r.value.rels
  {
    var es := p.entities.GetOr([]);
    var rs := p.relations.GetOr([]);
    var g1 := UpsertEntities(g, es);
    assert forall e :: e in es ==> e.name in g1.nodes;
    assert forall rel :: rel in rs ==> exists i :: 0 <= i < |rs| && rs[i] == rel;
    UpsertRelationsStores(g1, rs);
    UpsertRelations(g1, rs)
  }

  // ----- Snapshot ----------------------------------------------------------------------

  datatype NodeView = NodeView(name: string, etype: string, confidence: real, mentions: int)

  datatype EdgeView = EdgeView(source: string, target: string, rtype: string, confidence: real)

  datatype Snapshot = Snapshot(nodes: seq<NodeView>, edges: seq<EdgeView>)

  /** A node as reported: `type || "Entity"`. */
  function ViewOf(name: string, n: Node): NodeView {
    NodeView(name, if n.etype == "" then "Entity" else n.etype, n.confidence, n.mentions)
  }

  function NodeViews(nodes: map<string, Node>, order: seq<string>): (vs: seq<NodeView>)
    ensures |vs| <= |order|
    ensures forall v :: v in vs ==> v.name in nodes && v == ViewOf(v.name, nodes[v.name])
  {
    if |order| == 0 then []
    else
      var here := if order[0] in nodes then [ViewOf(order[0], nodes[order[0]])] else [];
      here + NodeViews(nodes, order[1..])
  }

  /** Every stored node the scan visits is in the scan. */
  lemma {:induction false} NodeViewsHas(nodes: map<string, Node>, order: seq<string>, k: string)
    requires k in order && k in nodes
    ensures ViewOf(k, nodes[k]) in NodeViews(nodes, order)
  {
    if order[0] != k {
      NodeViewsHas(nodes, order[1..], k);
    }
  }

  /** A scan over stored names yields one view per name. */
  lemma {:induction false} NodeViewsCount(nodes: map<string, Node>, order: seq<string>)
    requires forall k :: k in order ==> k in nodes
    ensures |NodeViews(nodes, order)| == |order|
  {
    if |order| > 0 {
      NodeViewsCount(nodes, order[1..]);
    }
  }

  /** No two views share a name. */
  ghost predicate DistinctNames(vs: seq<NodeView>) {
    forall i, j :: 0 <= i < j < |vs| ==> vs[i].name != vs[j].name
  }

  /** A scan over stored names yields their views in order. */
  lemma {:induction false} NodeViewsAt(nodes: map<string, Node>, order: seq<string>)
    requires forall k :: k in order ==> k in nodes
    ensures |NodeViews(nodes, order)| == |order|
    ensures forall i :: 0 <= i < |order| ==> NodeViews(nodes, order)[i] == ViewOf(order[i], nodes[order[i]])
  {
    if |order| > 0 {
      NodeViewsAt(nodes, order[1..]);
      assert forall i :: 1 <= i < |order| ==> order[i] == order[1..][i - 1];
    }
  }

  /** `ORDER BY mentions DESC, confidence DESC`. */
  function ByMentionsThenConfidence(): (NodeView, NodeView) -> bool {
    (x: NodeView, y: NodeView) =>
      x.mentions > y.mentions || (x.mentions == y.mentions && x.confidence >= y.confidence)
  }

  lemma OrderTotal()
    ensures Sorting.TotalPreorder(ByMentionsThenConfidence())
  {
  }

  /** A relation as reported. */
  function EdgeOf(k: RelKey, confidence: real): EdgeView {
    EdgeView(k.source, k.target, k.rtype, confidence)
  }

  /** The stored relations between two of `names`. */
  ghost function RelsWithin(g: Graph, names: set<string>): set<RelKey> {
    set k | k in g.rels && k.source in names && k.target in names
  }

  function EdgesWithin(rels: map<RelKey, real>, order: seq<RelKey>, names: set<string>)
    : (es: seq<EdgeView>)
    ensures |es| <= |order|
    ensures forall e :: e in es ==>
      exists k :: k in rels && k.source in names && k.target in names && e == EdgeOf(k, rels[k])
  {
    if |order| == 0 then []
    else
      var k := order[0];
      var here := if k in rels && k.source in names && k.target in names
        then [EdgeOf(k, rels[k])] else [];
      here + EdgesWithin(rels, order[1..], names)
  }

  /** Every qualifying relation the scan visits is in the scan. */
  lemma {:induction false} EdgesWithinHas(rels: map<RelKey, real>, order: seq<RelKey>, names: set<string>,
                                          k: RelKey)
    requires k in order && k in rels && k.source in names && k.target in names
    ensures EdgeOf(k, rels[k]) in EdgesWithin(rels, order, names)
  {
    if order[0] != k {
      EdgesWithinHas(rels, order[1..], names, k);
    }
  }

  /** A scan without repeats yields one edge per qualifying relation. */
  lemma {:induction false} EdgesWithinCount(rels: map<RelKey, real>, order: seq<RelKey>, names: set<string>)
    requires Sorting.Distinct(order)
    ensures |EdgesWithin(rels, order, names)|
      == |set k | k in order && k in rels && k.source in names && k.target in names|
  {
    if |order| > 0 {
      var rest := order[1..];
      assert Sorting.Distinct(rest) by {
        forall i, j | 0 <= i < j < |rest| ensures rest[i] != rest[j] {
          assert rest[i] == order[i + 1] && rest[j] == order[j + 1];
        }
      }
      EdgesWithinCount(rels, rest, names);
      var k := order[0];
      var all := set x | x in order && x in rels && x.source in names && x.target in names;
      var tail := set x | x in rest && x in rels && x.source in names && x.target in names;
      assert k !in rest by {
        forall j | 0 <= j < |rest| ensures rest[j] != k {
          assert rest[j] == order[j + 1];
        }
      }
      if k in rels && k.source in names && k.target in names {
        assert all == tail + {k};
      } else {
        assert all == tail;
      }
    }
  }

  function Names(vs: seq<NodeView>): (s: set<string>)
    ensures forall v :: v in vs ==> v.name in s
    ensures forall x :: x in s ==> exists v :: v in vs && v.name == x
  {
    set v | v in vs :: v.name
  }

  /** The nodes kept by a top-`limit` selection `top` of the scan: none left out comes
      before a kept one. */
  lemma TopOutranks(g: Graph, top: seq<NodeView>)
    ensures GraphInv(g)
      && (forall m, x :: m in NodeViews(g.nodes, g.nodeOrder) && m !in top && x in top ==>
            ByMentionsThenConfidence()(x, m))
      ==> forall k, v :: k in g.nodes && k !in Names(top) && v in top ==>
            ByMentionsThenConfidence()(v, ViewOf(k, g.nodes[k]))
  {
    if GraphInv(g)
      && (forall m, x :: m in NodeViews(g.nodes, g.nodeOrder) && m !in top && x in top ==>
            ByMentionsThenConfidence()(x, m))
    {
      forall k, v | k in g.nodes && k !in Names(top) && v in top
        ensures ByMentionsThenConfidence()(v, ViewOf(k, g.nodes[k]))
      {
        NodeViewsHas(g.nodes, g.nodeOrder, k);
        assert ViewOf(k, g.nodes[k]) !in top;
      }
    }
  }

  /** A selection holding the whole scan lists every stored node when they fit. */
  lemma TopCovers(g: Graph, top: seq<NodeView>, limit: nat)
    ensures GraphInv(g) && |g.nodes| <= limit
      && (|NodeViews(g.nodes, g.nodeOrder)| <= limit ==> multiset(top) == multiset(NodeViews(g.nodes, g.nodeOrder)))
      ==> forall k :: k in g.nodes ==> k in Names(top)
  {
    var views := NodeViews(g.nodes, g.nodeOrder);
    if GraphInv(g) && |g.nodes| <= limit && (|views| <= limit ==> multiset(top) == multiset(views)) {
      NodeViewsCount(g.nodes, g.nodeOrder);
      Sorting.DistinctCard(g.nodeOrder);
      assert (set x | x in g.nodeOrder) == g.nodes.Keys;
      forall k | k in g.nodes ensures k in Names(top) {
        NodeViewsHas(g.nodes, g.nodeOrder, k);
        Sorting.SameElements(views, top, ViewOf(k, g.nodes[k]));
      }
    }
  }

  /** A top-`limit` selection `top` of the scan, as long as the scan allows and without
      repeats, holds `limit` nodes, or every node when fewer are stored, each once. */
  lemma TopSize(g: Graph, top: seq<NodeView>, limit: nat)
    ensures var views := NodeViews(g.nodes, g.nodeOrder);
      GraphInv(g) && |top| == (if |views| < limit then |views| else limit)
      && (Sorting.Distinct(views) ==> Sorting.Distinct(top)) && (forall v :: v in top ==> v in views)
      ==> |top| == (if |g.nodes| < limit then |g.nodes| else limit) && DistinctNames(top)
  {
    var views := NodeViews(g.nodes, g.nodeOrder);
    if GraphInv(g) && |top| == (if |views| < limit then |views| else limit)
      && (Sorting.Distinct(views) ==> Sorting.Distinct(top)) && (forall v :: v in top ==> v in views)
    {
      NodeViewsAt(g.nodes, g.nodeOrder);
      Sorting.DistinctCard(g.nodeOrder);
      assert (set x | x in g.nodeOrder) == g.nodes.Keys;
      assert Sorting.Distinct(views) by {
        forall i, j | 0 <= i < j < |views| ensures views[i] != views[j] {
          assert views[i].name == g.nodeOrder[i] && views[j].name == g.nodeOrder[j];
        }
      }
      forall i, j | 0 <= i < j < |top| ensures top[i].name != top[j].name {
        assert top[i] in views && top[j] in views;
      }
    }
  }

  /** The edge scan among `names` lists every stored relation between two of them, one
      edge each. */
  lemma EdgesAmong(g: Graph, names: set<string>)
    ensures GraphInv(g) ==> |EdgesWithin(g.rels, g.relOrder, names)| == |RelsWithin(g, names)|
    ensures GraphInv(g) ==>
      forall k :: k in RelsWithin(g, names) ==> EdgeOf(k, g.rels[k]) in EdgesWithin(g.rels, g.relOrder, names)
  {
    if !GraphInv(g) {
      return;
    }
    EdgesWithinCount(g.rels, g.relOrder, names);
    assert (set k | k in g.relOrder && k in g.rels && k.source in names && k.target in names)
      == RelsWithin(g, names);
    forall k | k in RelsWithin(g, names)
      ensures EdgeOf(k, g.rels[k]) in EdgesWithin(g.rels, g.relOrder, names)
    {
      EdgesWithinHas(g.rels, g.relOrder, names, k);
    }
  }

  /** The node half of the snapshot: the `limit` nodes first by mentions then confidence,
      each once. */
  function TopNodes(g: Graph, limit: nat): (top: seq<NodeView>)
    ensures |top| <= limit
    ensures Sorting.SortedBy(ByMentionsThenConfidence(), top)
    ensures forall v :: v in top ==> v.name in g.nodes && v == ViewOf(v.name, g.nodes[v.name])
    ensures GraphInv(g) ==> forall k, v :: k in g.nodes && k !in Names(top) && v in top ==>
      ByMentionsThenConfidence()(v, ViewOf(k, g.nodes[k]))
    ensures GraphInv(g) && |g.nodes| <= limit ==> forall k :: k in g.nodes ==> k in Names(top)
    ensures GraphInv(g) ==> |top| == (if |g.nodes| < limit then |g.nodes| else limit)
    ensures GraphInv(g) ==> DistinctNames(top)
  {
    OrderTotal();
    var top := Sorting.TopN(ByMentionsThenConfidence(), NodeViews(g.nodes, g.nodeOrder), limit);
    TopOutranks(g, top);
    TopCovers(g, top, limit);
    TopSize(g, top, limit);
    top
  }

  /** The edge half of the snapshot: at most `cap` of the stored edges between two of
      `names`, all of them when they fit. */
  function TopEdges(g: Graph, names: set<string>, cap: nat): (es: seq<EdgeView>)
    ensures |es| <= cap
    ensures forall e :: e in es ==> exists k :: k in RelsWithin(g, names) && e == EdgeOf(k, g.rels[k])
    ensures GraphInv(g) && |RelsWithin(g, names)| <= cap ==>
      forall k :: k in RelsWithin(g, names) ==> EdgeOf(k, g.rels[k]) in es
  {
    var within := EdgesWithin(g.rels, g.relOrder, names);
    var edges := Sorting.Take(within, cap);
    assert forall e :: e in edges ==> e in within;
    EdgesAmong(g, names);
    edges
  }

  /** `getGraphSnapshot(limit)`: the `limit` nodes first by mentions then confidence, and
      at most `5 * limit` relations among them. */
  function GraphSnapshot(g: Graph, limit: nat): (s: Snapshot)
    ensures |s.nodes| <= limit
    ensures Sorting.SortedBy(ByMentionsThenConfidence(), s.nodes)
    ensures forall v :: v in s.nodes ==> v.name in g.nodes && v == ViewOf(v.name, g.nodes[v.name])
    ensures GraphInv(g) ==> forall k, v :: k in g.nodes && k !in Names(s.nodes) && v in s.nodes ==>
      ByMentionsThenConfidence()(v, ViewOf(k, g.nodes[k]))
    ensures GraphInv(g) && |g.nodes| <= limit ==> forall k :: k in g.nodes ==> k in Names(s.nodes)
    ensures GraphInv(g) ==> |s.nodes| == (if |g.nodes| < limit then |g.nodes| else limit)
    ensures GraphInv(g) ==> DistinctNames(s.nodes)
    ensures |s.edges| <= 5 * limit
    ensures forall e :: e in s.edges ==>
      exists k :: k in RelsWithin(g, Names(s.nodes)) && e == EdgeOf(k, g.rels[k])
    ensures GraphInv(g) && |RelsWithin(g, Names(s.nodes))| <= 5 * limit ==>
      forall k :: k in RelsWithin(g, Names(s.nodes)) ==> EdgeOf(k, g.rels[k]) in s.edges
  {
    var top := TopNodes(g, limit);
    Snapshot(top, TopEdges(g, Names(top), 5 * limit))
  }
}

=== FILE: prompting.dfy ===
/** The role prompt an agent receives: its role line, the research topic, its trait scores
    (three more for the Author) and the user's message. */
module Prompting {
  import opened Wrappers
  import opened Js
  import opened Text

  datatype Role = Researcher | Analyzer | Synthesizer | Author

  /** The role an `agentType` string names, if any. */
  function RoleNamed(s: string): (r: Option<Role>)
    ensures r.Some? <==> s in ["Researcher", "Analyzer", "Synthesizer", "Author"]
    ensures r.Some? ==> RoleName(r.value) == s
  {
    if s == "Researcher" then Some(Researcher)
    else if s == "Analyzer" then Some(Analyzer)
    else if s == "Synthesizer" then Some(Synthesizer)
    else if s == "Author" then Some(Author)
    else None
  }

  function RoleName(r: Role): string {
    match r
    case Researcher => "Researcher"
    case Analyzer => "Analyzer"
    case Synthesizer => "Synthesizer"
    case Author => "Author"
  }

  function BaseLine(r: Role): string {
    match r
    case Researcher => "Role: Researcher. Explore sources, discover info, cite where possible. Ask 1-2 follow-up questions."
    case Analyzer => "Role: Analyzer. Evaluate critically. Identify risks, contradictions. Be concise."
    case Synthesizer => "Role: Synthesizer. Connect ideas; produce a short synthesis."
    case Author => "Role: Author. Organize clearly with headings and bullets."
  }

  /** The traits every role lists, as (key, label) pairs. */
  const CommonTraits: seq<(string, string)> :=
    [("curiosity", "Curiosity"), ("thoroughness", "Thoroughness"), ("creativity", "Creativity"),
     ("analytical", "Analytical"), ("communication", "Communication")]

  /** The traits only the Author lists. */
  const AuthorTraits: seq<(string, string)> :=
    [("structure", "Structure"), ("clarity", "Clarity"), ("persuasiveness", "Persuasiveness")]

  function ListedTraits(r: Role): (ts: seq<(string, string)>)
    ensures |ts| == if r == Author then 8 else 5
    ensures ts[..5] == CommonTraits
    ensures r == Author ==> ts[5..] == AuthorTraits
  {
    if r == Author then CommonTraits + AuthorTraits else CommonTraits
  }

  /** `- Label ${traits.key ?? 0.5}`. */
  function TraitLine(traits: Json, t: (string, string), show: Json -> string): string {
    "- " + t.1 + " " + StringOf(Some(Coalesce(Get(traits, t.0), JNum(0.5))), show)
  }

  /** `${topic ?? "general"}`. */
  function TopicText(topic: Option<Json>, show: Json -> string): (s: string)
    ensures Nullish(topic) ==> s == "general"
    ensures topic.Some? && topic.value.JStr? ==> s == topic.value.s
  {
    if Nullish(topic) then "general" else StringOf(topic, show)
  }

  function HeadLines(role: Role, topic: Option<Json>, show: Json -> string): seq<string> {
    [BaseLine(role), "Topic: " + TopicText(topic, show), "Traits:"]
  }

  function TraitLines(role: Role, traits: Json, show: Json -> string): (ls: seq<string>)
    ensures |ls| == |ListedTraits(role)|
    ensures forall i :: 0 <= i < |ls| ==> ls[i] == TraitLine(traits, ListedTraits(role)[i], show)
  {
    var ts := ListedTraits(role);
    seq(|ts|, i requires 0 <= i < |ts| => TraitLine(traits, ts[i], show))
  }

  /** The non-Author template ends its trait block with a newline followed by an empty
      interpolation, so it has one more blank line before "User message:" than the Author's. */
  function Gap(role: Role): seq<string> {
    if role == Author then [""] else ["", ""]
  }

  function TailLines(role: Role, userMsg: string): seq<string> {
    Gap(role) + ["User message:", userMsg, "", "Respond in Markdown."]
  }

  /** The prompt template, line by line. */
  function PromptLines(role: Role, traits: Json, userMsg: string, topic: Option<Json>, show: Json -> string)
    : (ls: seq<string>)
    ensures |ls| == if role == Author then 16 else 14
  {
    HeadLines(role, topic, show) + TraitLines(role, traits, show) + TailLines(role, userMsg)
  }

  /** The role line, the topic line and the trait header open the prompt. */
  lemma PromptHead(role: Role, traits: Json, userMsg: string, topic: Option<Json>, show: Json -> string)
    ensures PromptLines(role, traits, userMsg, topic, show)[..3]
      == [BaseLine(role), "Topic: " + TopicText(topic, show), "Traits:"]
  {
    ConcatParts(HeadLines(role, topic, show), TraitLines(role, traits, show), TailLines(role, userMsg));
  }

  /** The trait lines follow the header, one per listed trait. */
  lemma PromptTraits(role: Role, traits: Json, userMsg: string, topic: Option<Json>, show: Json -> string)
    ensures PromptLines(role, traits, userMsg, topic, show)[3..3 + |ListedTraits(role)|]
      == TraitLines(role, traits, show)
  {
    ConcatParts(HeadLines(role, topic, show), TraitLines(role, traits, show), TailLines(role, userMsg));
  }

  /** The user's message, verbatim on its own line, closes the prompt before the
      formatting instruction. */
  lemma PromptTail(role: Role, traits: Json, userMsg: string, topic: Option<Json>, show: Json -> string)
    ensures var ls := PromptLines(role, traits, userMsg, topic, show);
      ls[|ls| - 4..] == ["User message:", userMsg, "", "Respond in Markdown."]
  {
    LastFour(HeadLines(role, topic, show) + TraitLines(role, traits, show), Gap(role),
      "User message:", userMsg, "", "Respond in Markdown.");
  }

  lemma LastFour<T>(h: seq<T>, g: seq<T>, a: T, b: T, c: T, d: T)
    ensures var ls := h + (g + [a, b, c, d]); ls[|ls| - 4..] == [a, b, c, d]
  {
    var ls := h + (g + [a, b, c, d]);
    assert ls[|ls| - 4..] == [a, b, c, d];
  }

  lemma ConcatParts<T>(h: seq<T>, t: seq<T>, u: seq<T>)
    requires |h| == 3 && |u| >= 4
    ensures var ls := h + t + u;
      && ls[..3] == h
      && ls[3..3 + |t|] == t
      && ls[|ls| - 4..] == u[|u| - 4..]
  {
    var ls := h + t + u;
    assert ls[..3] == h;
    assert ls[3..3 + |t|] == t;
    assert ls[|ls| - 4..] == u[|u| - 4..];
  }

  /** `buildPrompt(role, traits, userMsg, topic)`: the template lines joined by newlines. */
  function BuildPrompt(role: Role, traits: Json, userMsg: string, topic: Option<Json>, show: Json -> string)
    : (p: string)
    ensures StartsWith(p, BaseLine(role))
    ensures EndsWith(p, "Respond in Markdown.")
    ensures Contains(p, userMsg)
  {
    var ls := PromptLines(role, traits, userMsg, topic, show);
    PromptTail(role, traits, userMsg, topic, show);
    assert ls[0] == BaseLine(role);
    assert ls[|ls| - 1] == "Respond in Markdown.";
    assert ls[|ls| - 3] == userMsg;
    JoinEnds(ls, '\n');
    JoinContainsPart(ls, '\n', |ls| - 3);
    Join(ls, '\n')
  }

  predicate SingleLines(ls: seq<string>) {
    forall i :: 0 <= i < |ls| ==> '\n' !in ls[i]
  }

  /** A prompt can be read back line by line when none of its lines, in particular the
      interpolated user message, topic and trait values, spans several lines. */
  lemma PromptLinesRoundTrip(role: Role, traits: Json, userMsg: string, topic: Option<Json>, show: Json -> string)
    requires SingleLines(PromptLines(role, traits, userMsg, topic, show))
    ensures Split(BuildPrompt(role, traits, userMsg, topic, show), '\n') == PromptLines(role, traits, userMsg, topic, show)
  {
    SplitJoin(PromptLines(role, traits, userMsg, topic, show), '\n');
  }

  /** A user message that spans several lines cannot be read back as one line. */
  lemma MultiLineMessageSplits(role: Role, traits: Json, userMsg: string, topic: Option<Json>, show: Json -> string)
    requires '\n' in userMsg
    ensures !SingleLines(PromptLines(role, traits, userMsg, topic, show))
  {
    PromptTail(role, traits, userMsg, topic, show);
    TailBreaks(PromptLines(role, traits, userMsg, topic, show), userMsg);
  }

  lemma TailBreaks(ls: seq<string>, userMsg: string)
    requires '\n' in userMsg
    requires |ls| >= 4 && ls[|ls| - 4..] == ["User message:", userMsg, "", "Respond in Markdown."]
    ensures !SingleLines(ls)
  {
    assert ls[|ls| - 3] == ls[|ls| - 4..][1];
  }

  /** A trait line shows the stored value, or 0.5 when the trait is absent or null. */
  lemma TraitLineValue(traits: Json, t: (string, string), show: Json -> string)
    requires show(JNum(0.5)) == "0.5"
    ensures TraitLine(traits, t, show)
      == "- " + t.1 + " " + (if Nullish(Get(traits, t.0)) then "0.5" else StringOf(Get(traits, t.0), show))
  {
    var v := Get(traits, t.0);
    if !Nullish(v) {
      assert Some(Coalesce(v, JNum(0.5))) == v;
    }
  }

  /** Line `3 + i` of the prompt is the `i`-th listed trait. */
  lemma TraitBlock(role: Role, traits: Json, userMsg: string, topic: Option<Json>, show: Json -> string, i: nat)
    requires i < |ListedTraits(role)|
    ensures PromptLines(role, traits, userMsg, topic, show)[3 + i] == TraitLine(traits, ListedTraits(role)[i], show)
  {
    PromptTraits(role, traits, userMsg, topic, show);
    assert PromptLines(role, traits, userMsg, topic, show)[3 + i] == TraitLines(role, traits, show)[i];
  }
}

=== FILE: report.dfy ===
/** Report generation: the outline call, the coercion of its reply into a section list, one
    provider call per section with a specialist chosen by the section key, and the stored
    report record. */
module Report {
  import opened Wrappers
  import opened Js
  import opened Models
  import Llm
  import JsonText
  import Sorting

  // ----- Settings ----------------------------------------------------------------------

  const Formats: seq<string> := ["executive", "standard", "comprehensive"]
  const DetailLevels: seq<string> := ["brief", "balanced", "in-depth"]

  /** The request of `generateReport`; the prompt-only `style` is carried along. */
  datatype GenInput = GenInput(conversationId: string, title: Option<string>,
                               format: Option<string>, style: Option<string>,
                               detailLevel: Option<string>)

  /** What the prompts are built from. */
  datatype Settings = Settings(topic: string, format: string, detailLevel: string, style: string)

  /** `pickMaxTokens(detail)`: the section budget grows with the detail level. */
  function PickMaxTokens(d: string): (n: nat)
    ensures n == 1600 <==> d == "in-depth"
    ensures n == 1100 <==> d == "balanced"
    ensures n == 700 <==> d != "in-depth" && d != "balanced"
  {
    if d == "in-depth" then 1600 else if d == "balanced" then 1100 else 700
  }

  /** `convo.topic || input.title || "Research Report"`. */
  function TopicFor(convo: Conversation, title: Option<string>): (t: string)
    ensures t != ""
    ensures convo.topic.Some? && convo.topic.value != "" ==> t == convo.topic.value
    ensures !(convo.topic.Some? && convo.topic.value != "") && title.Some? && title.value != ""
      ==> t == title.value
    ensures t == convo.topic.GetOr("") || t == title.GetOr("") || t == "Research Report"
  {
    if convo.topic.Some? && convo.topic.value != "" then convo.topic.value
    else if title.Some? && title.value != "" then title.value
    else "Research Report"
  }

  /** The detail level: the one requested, otherwise brief for an executive report,
      in-depth for a comprehensive one and balanced for any other format. */
  function DetailFor(format: string, d: Option<string>): (r: string)
    ensures d.Some? ==> r == d.value
    ensures d.None? ==> r in DetailLevels
    ensures d.None? ==> (r == "brief" <==> format == "executive")
    ensures d.None? ==> (r == "in-depth" <==> format == "comprehensive")
  {
    match d
    case Some(v) => v
    case None =>
      if format == "executive" then "brief"
      else if format == "comprehensive" then "in-depth"
      else "balanced"
  }

  function SettingsFor(convo: Conversation, input: GenInput): (st: Settings)
    ensures st.topic == TopicFor(convo, input.title)
    ensures st.format == input.format.GetOr("standard")
    ensures st.style == input.style.GetOr("concise")
    ensures st.detailLevel == DetailFor(st.format, input.detailLevel)
  {
    var format := input.format.GetOr("standard");
    Settings(TopicFor(convo, input.title), format, DetailFor(format, input.detailLevel),
             input.style.GetOr("concise"))
  }

  /** A requested format's default detail level always passes the report schema. */
  lemma DefaultDetailValid(format: string)
    ensures DetailFor(format, None) in DetailLevels
    ensures PickMaxTokens(DetailFor(format, None)) == (if format == "executive" then 700
      else if format == "comprehensive" then 1600 else 1100)
  {
  }

  // ----- Specialists -------------------------------------------------------------------

  const SummaryPack: Llm.Candidate := Llm.Candidate("gemini", "gemini-2.0-flash")
  const NarrativePack: Llm.Candidate := Llm.Candidate("openai", "gpt-4o-mini")
  const TechPack: Llm.Candidate := Llm.Candidate("anthropic", "claude-3-5-sonnet-latest")

  /** `pickPackForSection(s.key)`: the summary specialist for the executive summary, the
      technical one for the entity graph, the narrative one for every other key. */
  function PickPack(key: Option<Json>): (p: Llm.Candidate)
    ensures p == SummaryPack <==> key == Some(JStr("exec_summary"))
    ensures p == TechPack <==> key == Some(JStr("entity_graph"))
    ensures p == NarrativePack <==> key != Some(JStr("exec_summary")) && key != Some(JStr("entity_graph"))
  {
    if key == Some(JStr("exec_summary")) then SummaryPack
    else if key == Some(JStr("entity_graph")) then TechPack
    else NarrativePack
  }

  const OutlineChain: seq<Llm.Candidate> := [SummaryPack, NarrativePack, TechPack]

  /** A section is tried with its specialist, then the summary and narrative ones. */
  function SectionChain(key: Option<Json>): (c: seq<Llm.Candidate>)
    ensures |c| == 3 && c[0] == PickPack(key) && c[1..] == [SummaryPack, NarrativePack]
  {
    [PickPack(key), SummaryPack, NarrativePack]
  }

  function OutlineRequest(prompt: string): Llm.Request {
    Llm.Request(None, prompt, Some(JNum(0.2)), Some(JNum(700.0)))
  }

  function SectionRequest(prompt: string, detail: string): (q: Llm.Request)
    ensures q.maxTokens == Some(JNum(PickMaxTokens(detail) as real))
  {
    Llm.Request(None, prompt, Some(JNum(0.4)), Some(JNum(PickMaxTokens(detail) as real)))
  }

  // ----- Outline -----------------------------------------------------------------------

  function SectionSpec(key: string, title: string): Json {
    JObj(map["key" := JStr(key), "title" := JStr(title)])
  }

  /** The keys and titles of the outline used when the reply cannot be read. */
  const DefaultKeys: seq<string> := ["exec_summary", "key_findings", "detailed_analysis",
                                     "entity_graph", "open_questions", "recommendations"]
  const DefaultTitles: seq<string> := ["Executive Summary", "Key Findings", "Detailed Analysis",
                                       "Entity Relationships", "Open Questions", "Recommendations"]

  const DefaultSections: seq<Json> := [
    SectionSpec(DefaultKeys[0], DefaultTitles[0]), SectionSpec(DefaultKeys[1], DefaultTitles[1]),
    SectionSpec(DefaultKeys[2], DefaultTitles[2]), SectionSpec(DefaultKeys[3], DefaultTitles[3]),
    SectionSpec(DefaultKeys[4], DefaultTitles[4]), SectionSpec(DefaultKeys[5], DefaultTitles[5])]

  const DefaultStructure: Json := JObj(map["sections" := JArr(DefaultSections)])

  /** Why a report could not be produced. */
  datatype Fail =
    | NotFound
    | ProviderFailed(thrown: Llm.Thrown)
    | TypeError(message: string)
    | ValidationFailed

  /** A string iterated by `for ... of`: one single-character string per character. */
  function Chars(s: string): (r: seq<Json>)
    ensures |r| == |s|
    ensures forall i :: 0 <= i < |s| ==> r[i] == JStr([s[i]])
  {
    if |s| == 0 then [] else [JStr([s[0]])] + Chars(s[1..])
  }

  /** The values `for (const s of structure.sections || [])` visits: an array's elements
      or a string's characters; `structure` being null, or a truthy `sections` that is
      neither, throws. */
  function SectionItems(structure: Json): (r: Result<seq<Json>, Fail>)
    ensures r.Err? ==> r.error.TypeError?
    ensures r.Err? <==> (structure.JNull? || (TruthyOpt(Get(structure, "sections"))
      && !Get(structure, "sections").value.JArr? && !Get(structure, "sections").value.JStr?))
    ensures !structure.JNull? && !TruthyOpt(Get(structure, "sections")) ==> r == Ok([])
    ensures Get(structure, "sections").Some? && Get(structure, "sections").value.JArr? ==>
      r == Ok(Get(structure, "sections").value.items)
    ensures Get(structure, "sections").Some? && Get(structure, "sections").value.JStr? ==>
      r == Ok(Chars(Get(structure, "sections").value.s))
  {
    if structure.JNull? then Err(TypeError("Cannot read properties of null (reading 'sections')"))
    else
      var v := Get(structure, "sections");
      if !TruthyOpt(v) then Ok([])
      else match v.value
        case JArr(xs) => Ok(xs)
        case JStr(s) => Ok(Chars(s))
        case _ => Err(TypeError("structure.sections is not iterable"))
  }

  // ----- Sections ----------------------------------------------------------------------

  /** One stored section: its title as given by the outline and the reply's text. */
  datatype SectionOut = SectionOut(title: Option<Json>, markdown: string)

  /** The services the generator calls. The prompt texts (which embed the selected
      memories and the graph snapshot) are built by `outlinePrompt` and `sectionPrompt`. */
  datatype Services = Services(
    env: Llm.Env, call: (Llm.Config, Llm.Request) -> Llm.Attempt,
    parse: string -> Option<Json>, show: Json -> string,
    outlinePrompt: (Settings, seq<MemoryDoc>) -> string,
    sectionPrompt: (Settings, Json, seq<MemoryDoc>) -> string)

  /** `sections[s.key]`: the property name a section is stored under. */
  function KeyOf(s: Json, show: Json -> string): string {
    StringOf(Get(s, "key"), show)
  }

  function KeysOf(items: seq<Json>, show: Json -> string): (ks: set<string>)
    ensures forall i :: 0 <= i < |items| ==> KeyOf(items[i], show) in ks
    ensures forall k :: k in ks ==> exists i :: 0 <= i < |items| && KeyOf(items[i], show) == k
  {
    set i | 0 <= i < |items| :: KeyOf(items[i], show)
  }

  /** One pass of the loop body: reading the key of a null section throws; otherwise the
      section's provider chain is run and its reply becomes the entry. */
  function SectionStep(svc: Services, st: Settings, mems: seq<MemoryDoc>, s: Json)
    : (r: Result<SectionOut, Fail>)
    ensures s.JNull? ==> r.Err? && r.error.TypeError?
    ensures r.Err? ==> r.error.TypeError? || r.error.ProviderFailed?
    ensures r.Ok? ==> r.value.title == Get(s, "title")
  {
    if s.JNull? then Err(TypeError("Cannot read properties of null (reading 'key')"))
    else
      var run := Llm.WithFallback(svc.env, SectionChain(Get(s, "key")),
                                  SectionRequest(svc.sectionPrompt(st, s, mems), st.detailLevel),
                                  svc.call);
      match run.outcome
      case Err(t) => Err(ProviderFailed(t))
      case Ok(res) => Ok(SectionOut(Get(s, "title"), res.text))
  }

  /** `items[i]` is the last item stored under its key. */
  predicate LastWithKey(items: seq<Json>, i: int, show: Json -> string) {
    0 <= i < |items| && forall j :: i < j < |items| ==> KeyOf(items[j], show) != KeyOf(items[i], show)
  }

  /** `items[i]` is the first item on which the step fails. */
  predicate FirstFailing(step: Json -> Result<SectionOut, Fail>, items: seq<Json>, i: int) {
    0 <= i < |items| && step(items[i]).Err? && forall j :: 0 <= j < i ==> step(items[j]).Ok?
  }

  /** What the section loop leaves behind, from `acc` on: it fails exactly when some item's
      step fails, and then with the first such failure; otherwise every key ends up with
      the entry of the last item stored under it, and keys the items do not mention keep
      their entries. */
  ghost predicate Written(step: Json -> Result<SectionOut, Fail>, show: Json -> string,
                          items: seq<Json>, acc: map<string, SectionOut>,
                          r: Result<map<string, SectionOut>, Fail>) {
    && (r.Ok? <==> forall i :: 0 <= i < |items| ==> step(items[i]).Ok?)
    && (r.Err? ==> exists i :: FirstFailing(step, items, i) && r.error == step(items[i]).error)
    && (r.Ok? ==> r.value.Keys == acc.Keys + KeysOf(items, show))
    && (r.Ok? ==> forall k :: k in acc && k !in KeysOf(items, show) ==> r.value[k] == acc[k])
    && (r.Ok? ==> forall i :: LastWithKey(items, i, show) ==>
          r.value[KeyOf(items[i], show)] == step(items[i]).value)
  }

  /** The section loop: `sections[String(s.key)] = entry` for each item in turn. */
  function WriteSections(step: Json -> Result<SectionOut, Fail>, show: Json -> string,
                         items: seq<Json>, acc: map<string, SectionOut>)
    : (r: Result<map<string, SectionOut>, Fail>)
    ensures r.Ok? <==> forall i :: 0 <= i < |items| ==> step(items[i]).Ok?
    ensures Written(step, show, items, acc, r)
    decreases |items|
  {
    if |items| == 0 then Ok(acc)
    else match step(items[0])
      case Err(e) =>
        assert FirstFailing(step, items, 0);
        Err(e)
      case Ok(entry) =>
        var r := WriteSections(step, show, items[1..], acc[KeyOf(items[0], show) := entry]);
        WriteStep(step, show, items, acc, r);
        r
  }

  lemma KeysOfCons(items: seq<Json>, show: Json -> string)
    requires |items| > 0
    ensures KeysOf(items, show) == {KeyOf(items[0], show)} + KeysOf(items[1..], show)
  {
    var rest := items[1..];
    forall x | x in KeysOf(items, show) ensures x in {KeyOf(items[0], show)} + KeysOf(rest, show) {
      var i :| 0 <= i < |items| && KeyOf(items[i], show) == x;
      if i > 0 {
        assert KeyOf(rest[i - 1], show) == x;
      }
    }
    forall x | x in KeysOf(rest, show) ensures x in KeysOf(items, show) {
      var i :| 0 <= i < |rest| && KeyOf(rest[i], show) == x;
      assert items[i + 1] == rest[i];
    }
  }

  /** The inductive step of `WriteSections`. */
  lemma WriteStep(step: Json -> Result<SectionOut, Fail>, show: Json -> string, items: seq<Json>,
                  acc: map<string, SectionOut>, r: Result<map<string, SectionOut>, Fail>)
    requires |items| > 0 && step(items[0]).Ok?
    ensures Written(step, show, items[1..], acc[KeyOf(items[0], show) := step(items[0]).value], r) ==>
      Written(step, show, items, acc, r)
  {
    var k := KeyOf(items[0], show);
    var rest := items[1..];
    var acc' := acc[k := step(items[0]).value];
    KeysOfCons(items, show);
    if !Written(step, show, rest, acc', r) {
    } else if r.Err? {
      var i :| FirstFailing(step, rest, i) && r.error == step(rest[i]).error;
      assert rest[i] == items[i + 1];
      assert FirstFailing(step, items, i + 1);
    } else {
      var m := r.value;
      forall i | 0 <= i < |items| ensures step(items[i]).Ok? {
        if i > 0 {
          assert rest[i - 1] == items[i];
        }
      }
      assert m.Keys == acc.Keys + KeysOf(items, show);
      forall x | x in acc && x !in KeysOf(items, show) ensures m[x] == acc[x] {
        assert x != k && x in acc' && x !in KeysOf(rest, show);
      }
      WriteStepLast(step, show, items, acc, m);
    }
  }

  /** The last-writer-wins part of the inductive step. */
  lemma WriteStepLast(step: Json -> Result<SectionOut, Fail>, show: Json -> string, items: seq<Json>,
                      acc: map<string, SectionOut>, m: map<string, SectionOut>)
    requires |items| > 0 && step(items[0]).Ok?
    requires forall i :: 0 <= i < |items| ==> step(items[i]).Ok?
    requires m.Keys == acc.Keys + KeysOf(items, show)
    requires KeyOf(items[0], show) !in KeysOf(items[1..], show) ==>
      m[KeyOf(items[0], show)] == step(items[0]).value
    requires forall i :: LastWithKey(items[1..], i, show) ==>
      KeyOf(items[1..][i], show) in m && m[KeyOf(items[1..][i], show)] == step(items[1..][i]).value
    ensures forall i :: LastWithKey(items, i, show) ==> m[KeyOf(items[i], show)] == step(items[i]).value
  {
    var k := KeyOf(items[0], show);
    var rest := items[1..];
    forall i | LastWithKey(items, i, show) ensures m[KeyOf(items[i], show)] == step(items[i]).value {
      if i == 0 {
        assert k !in KeysOf(rest, show) by {
          forall j | 0 <= j < |rest| ensures KeyOf(rest[j], show) != k {
            assert KeyOf(items[j + 1], show) != k;
          }
        }
      } else {
        assert rest[i - 1] == items[i];
        assert LastWithKey(rest, i - 1, show);
      }
    }
  }

  // ----- Source memories ---------------------------------------------------------------

  /** `Memory.find({conversationId})`, in scan order. */
  function OfConversation(ms: seq<MemoryDoc>, cid: string): (r: seq<MemoryDoc>)
    ensures |r| <= |ms|
    ensures forall m :: m in r <==> m in ms && m.rec.conversationId == Some(cid)
  {
    Sorting.Filter(ms, (m: MemoryDoc) => m.rec.conversationId == Some(cid))
  }

  /** `sort({importance: -1, confidence: -1, timestamp: 1})`. */
  function ReportOrder(): (MemoryDoc, MemoryDoc) -> bool {
    (a: MemoryDoc, b: MemoryDoc) =>
      a.rec.importance > b.rec.importance
      || (a.rec.importance == b.rec.importance && a.rec.confidence > b.rec.confidence)
      || (a.rec.importance == b.rec.importance && a.rec.confidence == b.rec.confidence
          && a.rec.timestamp <= b.rec.timestamp)
  }

  lemma ReportOrderTotal()
    ensures Sorting.TotalPreorder(ReportOrder())
  {
  }

  const MemoryLimit: nat := 1000

  /** The memories the report is built from: the conversation's, best first, at most
      1000 of them, and none left out that ranks strictly before one kept. */
  function Selected(ms: seq<MemoryDoc>, cid: string): (r: seq<MemoryDoc>)
    ensures |r| <= MemoryLimit
    ensures |r| == if |OfConversation(ms, cid)| < MemoryLimit then |OfConversation(ms, cid)| else MemoryLimit
    ensures Sorting.SortedBy(ReportOrder(), r)
    ensures forall m :: m in r ==> m in ms && m.rec.conversationId == Some(cid)
    ensures |OfConversation(ms, cid)| <= MemoryLimit ==> multiset(r) == multiset(OfConversation(ms, cid))
    ensures forall m, x :: m in OfConversation(ms, cid) && m !in r && x in r ==> ReportOrder()(x, m)
  {
    ReportOrderTotal();
    Sorting.TopN(ReportOrder(), OfConversation(ms, cid), MemoryLimit)
  }

  function Ids(ms: seq<MemoryDoc>): (ids: seq<string>)
    ensures |ids| == |ms|
    ensures forall i :: 0 <= i < |ms| ==> ids[i] == ms[i].id
  {
    seq(|ms|, i requires 0 <= i < |ms| => ms[i].id)
  }

  // ----- The report --------------------------------------------------------------------

  datatype ModelUse = ModelUse(provider: string, model: string, purpose: string)

  const ModelsUsed: seq<ModelUse> := [
    ModelUse("gemini", "gemini-2.0-flash", "outline"),
    ModelUse("openai", "gpt-4o-mini", "sections"),
    ModelUse("anthropic", "claude-3-5-sonnet-latest", "entity_graph")
  ]

  /** The stored report. The generator sets neither the conversation link nor the topic
      field, so they keep their schema defaults. */
  datatype ReportDoc = ReportDoc(
    title: string, topic: string, conversationId: Option<string>, format: string,
    detailLevel: string, structure: Json, content: map<string, SectionOut>,
    sourceMemoryIds: seq<string>, versionNumber: int, modelsUsed: seq<ModelUse>)

  /** The outline call. */
  function OutlineRun(svc: Services, st: Settings, mems: seq<MemoryDoc>): Llm.Run {
    Llm.WithFallback(svc.env, OutlineChain, OutlineRequest(svc.outlinePrompt(st, mems)), svc.call)
  }

  /** The structure and the written sections, before the report is stored. */
  datatype Drafted = Drafted(structure: Json, content: map<string, SectionOut>)

  /** Every item was written, and each key holds the entry of the last item under it. */
  ghost predicate SectionsFrom(svc: Services, st: Settings, mems: seq<MemoryDoc>, items: seq<Json>,
                               content: map<string, SectionOut>) {
    && (forall i :: 0 <= i < |items| ==> SectionStep(svc, st, mems, items[i]).Ok?)
    && content.Keys == KeysOf(items, svc.show)
    && (forall i :: LastWithKey(items, i, svc.show) ==>
          content[KeyOf(items[i], svc.show)] == SectionStep(svc, st, mems, items[i]).value)
  }

  /** The generator's own loop step. */
  function StepOf(svc: Services, st: Settings, mems: seq<MemoryDoc>): Json -> Result<SectionOut, Fail> {
    s => SectionStep(svc, st, mems, s)
  }

  /** The section loop run with the generator's own step, from an empty record. */
  function WriteAll(svc: Services, st: Settings, mems: seq<MemoryDoc>, items: seq<Json>)
    : (r: Result<map<string, SectionOut>, Fail>)
    ensures r.Ok? <==> forall i :: 0 <= i < |items| ==> SectionStep(svc, st, mems, items[i]).Ok?
    ensures r.Ok? ==> SectionsFrom(svc, st, mems, items, r.value)
    ensures r.Err? ==> r.error.TypeError? || r.error.ProviderFailed?
  {
    var r := WriteSections(StepOf(svc, st, mems), svc.show, items, map[]);
    WriteAllFacts(svc, st, mems, items, r);
    r
  }

  lemma WriteAllFacts(svc: Services, st: Settings, mems: seq<MemoryDoc>, items: seq<Json>,
                      r: Result<map<string, SectionOut>, Fail>)
    requires Written(StepOf(svc, st, mems), svc.show, items, map[], r)
    ensures r.Ok? <==> forall i :: 0 <= i < |items| ==> SectionStep(svc, st, mems, items[i]).Ok?
    ensures r.Ok? ==> SectionsFrom(svc, st, mems, items, r.value)
    ensures r.Err? ==> r.error.TypeError? || r.error.ProviderFailed?
  {
    var step := StepOf(svc, st, mems);
    assert forall i :: 0 <= i < |items| ==> step(items[i]) == SectionStep(svc, st, mems, items[i]);
    if r.Err? {
      var i :| FirstFailing(step, items, i) && r.error == step(items[i]).error;
      assert step(items[i]) == SectionStep(svc, st, mems, items[i]);
    }
  }

  /** From the outline reply to the sections: the reply is coerced into a structure whose
      section list is iterated, each key holding the entry of the last section under it. */
  function Draft(svc: Services, st: Settings, mems: seq<MemoryDoc>, text: string)
    : (r: Result<Drafted, Fail>)
    ensures r.Ok? ==> r.value.structure == JsonText.CoerceObject(text, DefaultStructure, svc.parse)
    ensures r.Ok? ==> SectionItems(r.value.structure).Ok?
    ensures r.Ok? ==> r.value.content.Keys == KeysOf(SectionItems(r.value.structure).value, svc.show)
    ensures r.Ok? ==> SectionsFrom(svc, st, mems, SectionItems(r.value.structure).value, r.value.content)
    ensures r.Ok? && JsonText.BracketFaithful(svc.parse) ==> r.value.structure.JObj?
    ensures r.Err? ==> r.error.TypeError? || r.error.ProviderFailed?
  {
    var structure := JsonText.CoerceObject(text, DefaultStructure, svc.parse);
    match SectionItems(structure)
    case Err(e) => Err(e)
    case Ok(items) =>
      match WriteAll(svc, st, mems, items)
      case Err(e) => Err(e)
      case Ok(content) =>
        assert JsonText.BracketFaithful(svc.parse) ==> structure.JObj? by {
          if JsonText.BracketFaithful(svc.parse) {
            JsonText.CoerceObjectIsObject(text, DefaultStructure, svc.parse);
          }
        }
        Ok(Drafted(structure, content))
  }

  /** `Report.create(...)`: the schema requires the format and the detail level to be
      among its enumerations; the conversation link and the topic are not passed. */
  function Store(st: Settings, d: Drafted, ids: seq<string>): (r: Result<ReportDoc, Fail>)
    ensures r.Ok? <==> st.format in Formats && st.detailLevel in DetailLevels
    ensures r.Err? ==> r.error == ValidationFailed
    ensures r.Ok? ==> r.value.title == st.topic && r.value.topic == "" && r.value.conversationId.None?
    ensures r.Ok? ==> r.value.format == st.format && r.value.detailLevel == st.detailLevel
    ensures r.Ok? ==> r.value.structure == d.structure && r.value.content == d.content
    ensures r.Ok? ==> r.value.sourceMemoryIds == ids
    ensures r.Ok? ==> r.value.versionNumber == 1 && r.value.modelsUsed == ModelsUsed
  {
    if st.format in Formats && st.detailLevel in DetailLevels then
      Ok(ReportDoc(st.topic, "", None, st.format, st.detailLevel, d.structure, d.content,
                   ids, 1, ModelsUsed))
    else Err(ValidationFailed)
  }

  /** The outline call followed by the section writing. */
  function Outline(svc: Services, st: Settings, mems: seq<MemoryDoc>): (r: Result<Drafted, Fail>)
    ensures r.Err? ==> !r.error.NotFound? && !r.error.ValidationFailed?
    ensures r.Ok? ==> (SectionItems(r.value.structure).Ok?
      && r.value.content.Keys == KeysOf(SectionItems(r.value.structure).value, svc.show))
    ensures r.Ok? && JsonText.BracketFaithful(svc.parse) ==> r.value.structure.JObj?
  {
    match OutlineRun(svc, st, mems).outcome
    case Err(t) => Err(ProviderFailed(t))
    case Ok(res) => Draft(svc, st, mems, res.text)
  }

  /** The generator once the conversation is found. */
  function FromConversation(svc: Services, convo: Conversation, memories: seq<MemoryDoc>,
                            input: GenInput): (r: Result<ReportDoc, Fail>)
    ensures r.Err? ==> !r.error.NotFound?
    ensures r.Ok? ==> r.value.title == TopicFor(convo, input.title)
    ensures r.Ok? ==> r.value.title != "" && r.value.topic == "" && r.value.conversationId.None?
    ensures r.Ok? ==> r.value.format in Formats && r.value.detailLevel in DetailLevels
    ensures r.Ok? ==> r.value.format == input.format.GetOr("standard")
    ensures r.Ok? ==> r.value.sourceMemoryIds == Ids(Selected(memories, input.conversationId))
    ensures r.Ok? ==> r.value.versionNumber == 1 && r.value.modelsUsed == ModelsUsed
    ensures r.Ok? ==> (SectionItems(r.value.structure).Ok?
      && r.value.content.Keys == KeysOf(SectionItems(r.value.structure).value, svc.show))
    ensures r.Ok? && JsonText.BracketFaithful(svc.parse) ==> r.value.structure.JObj?
  {
    var st := SettingsFor(convo, input);
    var mems := Selected(memories, input.conversationId);
    match Outline(svc, st, mems)
    case Err(e) => Err(e)
    case Ok(d) => Store(st, d, Ids(mems))
  }

  /** `generateReport(input)`: look the conversation up, select its memories, ask for an
      outline, write each section, and store the report, whose schema rejects a format or
      detail level outside its enumerations. */
  function GenerateReport(svc: Services, convos: map<string, Conversation>,
                          memories: seq<MemoryDoc>, input: GenInput): (r: Result<ReportDoc, Fail>)
    ensures r == Err(NotFound) <==> input.conversationId !in convos
    ensures input.conversationId in convos ==>
      r == FromConversation(svc, convos[input.conversationId], memories, input)
  {
    if input.conversationId !in convos then Err(NotFound)
    else FromConversation(svc, convos[input.conversationId], memories, input)
  }

  // ----- Properties --------------------------------------------------------------------

  lemma SpecKey(key: string, title: string, show: Json -> string)
    ensures KeyOf(SectionSpec(key, title), show) == key
  {
    assert Get(SectionSpec(key, title), "key") == Some(JStr(key));
  }

  /** The default outline iterates to its six sections, stored under its six keys. */
  lemma DefaultSectionKeys(show: Json -> string)
    ensures SectionItems(DefaultStructure) == Ok(DefaultSections)
    ensures forall k :: k in KeysOf(DefaultSections, show) <==> k in DefaultKeys
  {
    assert Get(DefaultStructure, "sections") == Some(JArr(DefaultSections));
    forall i | 0 <= i < 6 ensures KeyOf(DefaultSections[i], show) == DefaultKeys[i] {
      SpecKey(DefaultKeys[i], DefaultTitles[i], show);
    }
    forall k | k in DefaultKeys ensures k in KeysOf(DefaultSections, show) {
      var i :| 0 <= i < 6 && DefaultKeys[i] == k;
      assert KeyOf(DefaultSections[i], show) == k;
    }
  }

  /** In mock mode every provider call succeeds; with a reply no parse can read and a
      schema-valid format, the report always comes out with the six default sections. */
  lemma MockReportHasDefaultSections(svc: Services, convos: map<string, Conversation>,
                                     memories: seq<MemoryDoc>, input: GenInput)
    requires Llm.MockMode(svc.env)
    requires input.conversationId in convos
    requires forall u :: svc.parse(u).None?
    requires input.format.None? || input.format.value in Formats
    requires input.detailLevel.None?
    ensures GenerateReport(svc, convos, memories, input).Ok?
    ensures GenerateReport(svc, convos, memories, input).value.structure == DefaultStructure
    ensures forall k :: k in GenerateReport(svc, convos, memories, input).value.content <==> k in DefaultKeys
  {
    var st := SettingsFor(convos[input.conversationId], input);
    var mems := Selected(memories, input.conversationId);
    var run := OutlineRun(svc, st, mems);
    assert run.outcome.Ok?;
    MockDraft(svc, st, mems, run.outcome.value.text);
    DefaultDetailValid(st.format);
  }

  lemma MockDraft(svc: Services, st: Settings, mems: seq<MemoryDoc>, text: string)
    requires Llm.MockMode(svc.env)
    requires forall u :: svc.parse(u).None?
    ensures Draft(svc, st, mems, text).Ok?
    ensures Draft(svc, st, mems, text).value.structure == DefaultStructure
    ensures forall k :: k in Draft(svc, st, mems, text).value.content <==> k in DefaultKeys
  {
    MockCoercesToDefault(text, svc.parse);
    DefaultSectionKeys(svc.show);
    forall i | 0 <= i < |DefaultSections| ensures SectionStep(svc, st, mems, DefaultSections[i]).Ok? {
      MockSectionSucceeds(svc, st, mems, DefaultSections[i]);
    }
    assert WriteAll(svc, st, mems, DefaultSections).Ok?;
  }

  lemma MockCoercesToDefault(text: string, parse: string -> Option<Json>)
    requires forall u :: parse(u).None?
    ensures JsonText.CoerceObject(text, DefaultStructure, parse) == DefaultStructure
  {
    var c := JsonText.MatchText(text, [JsonText.Curly]);
    var sq := JsonText.MatchText(text, [JsonText.Square]);
    assert c.Some? ==> parse(c.value).None?;
    assert sq.Some? ==> parse(sq.value).None?;
  }

  lemma MockSectionSucceeds(svc: Services, st: Settings, mems: seq<MemoryDoc>, s: Json)
    requires Llm.MockMode(svc.env) && !s.JNull?
    ensures SectionStep(svc, st, mems, s).Ok?
  {
  }

  /** The report-level effect of the coercion finding: when the outline reply is exactly
      a non-empty JSON array of sections, the coercion as written leaves nothing to
      iterate, while the corrected one yields every section. */
  lemma BareArrayOutlineDropsSections(text: string, parse: string -> Option<Json>, items: seq<Json>)
    requires text != "" && parse(text) == Some(JArr(items)) && |items| > 0
    ensures SectionItems(JsonText.CoerceObjectAsWritten(text, DefaultStructure, parse)) == Ok([])
    ensures SectionItems(JsonText.CoerceObject(text, DefaultStructure, parse)) == Ok(items)
  {
    JsonText.BareArrayLosesSections(text, DefaultStructure, parse, items);
  }
}

=== FILE: sorting.dfy ===
/** Sequence helpers: the stable sort the model uses wherever the server or the browser sorts
    records, the `LIMIT` that follows most sorts, and the filter of a query over a scan. */
module Sorting {

  /** `le(a, b)`: `a` may be placed before `b`. */
  ghost predicate TotalPreorder<T(!new)>(le: (T, T) -> bool) {
    && (forall a, b :: le(a, b) || le(b, a))
    && (forall a, b, c :: le(a, b) && le(b, c) ==> le(a, c))
  }

  ghost predicate SortedBy<T>(le: (T, T) -> bool, s: seq<T>) {
    forall i, j :: 0 <= i < j < |s| ==> le(s[i], s[j])
  }

  /** Inserts `x` before the first element it may precede. */
  function Insert<T>(le: (T, T) -> bool, x: T, s: seq<T>): (r: seq<T>)
    ensures multiset(r) == multiset(s) + multiset{x}
    ensures |r| == |s| + 1
    decreases |s|
  {
    if |s| == 0 then [x]
    else if le(x, s[0]) then [x] + s
    else
      assert s == [s[0]] + s[1..];
      [s[0]] + Insert(le, x, s[1..])
  }

  lemma {:induction false} InsertSorted<T(!new)>(le: (T, T) -> bool, x: T, s: seq<T>)
    requires TotalPreorder(le)
    requires SortedBy(le, s)
    ensures SortedBy(le, Insert(le, x, s))
    decreases |s|
  {
    if |s| > 0 && !le(x, s[0]) {
      var rest := Insert(le, x, s[1..]);
      InsertSorted(le, x, s[1..]);
      assert le(s[0], x);
      forall k | 0 <= k < |rest| ensures le(s[0], rest[k]) {
        assert rest[k] in multiset(rest);
        assert rest[k] == x || rest[k] in multiset(s[1..]);
        if rest[k] != x {
          var m :| 0 <= m < |s[1..]| && s[1..][m] == rest[k];
          assert s[m + 1] == rest[k];
        }
      }
    }
  }

  /** A stable insertion sort: the result is a permutation of `s`, ordered by `le`. */
  function SortBy<T(!new)>(le: (T, T) -> bool, s: seq<T>): (r: seq<T>)
    requires TotalPreorder(le)
    ensures multiset(r) == multiset(s)
    ensures |r| == |s|
    ensures SortedBy(le, r)
    decreases |s|
  {
    if |s| == 0 then []
    else
      assert s == [s[0]] + s[1..];
      InsertSorted(le, s[0], SortBy(le, s[1..]));
      Insert(le, s[0], SortBy(le, s[1..]))
  }

  /** `LIMIT n`: the first `n` elements, or all of them when there are fewer. */
  function Take<T>(s: seq<T>, n: int): (r: seq<T>)
    ensures |r| == if n < 0 then 0 else if n < |s| then n else |s|
    ensures r == s[..|r|]
  {
    if n <= 0 then [] else if n < |s| then s[..n] else s
  }

  lemma TakeSorted<T>(le: (T, T) -> bool, s: seq<T>, n: int)
    requires SortedBy(le, s)
    ensures SortedBy(le, Take(s, n))
  {
  }

  /** Sorting what is already sorted changes nothing. */
  lemma {:induction false} SortBySorted<T(!new)>(le: (T, T) -> bool, s: seq<T>)
    requires TotalPreorder(le)
    requires SortedBy(le, s)
    ensures SortBy(le, s) == s
    decreases |s|
  {
    if |s| > 0 {
      SortBySorted(le, s[1..]);
      assert SortBy(le, s[1..]) == s[1..];
      if |s| > 1 {
        assert le(s[0], s[1..][0]);
      }
      assert s == [s[0]] + s[1..];
    }
  }

  /** `sort(le).limit(n)`: the first `n` elements in `le` order. Nothing left out may be
      placed strictly before something kept, and when there are at most `n` elements all
      of them are kept. */
  function TopN<T(!new)>(le: (T, T) -> bool, s: seq<T>, n: nat): (r: seq<T>)
    requires TotalPreorder(le)
    ensures |r| <= n && |r| <= |s|
    ensures SortedBy(le, r)
    ensures forall x :: x in r ==> x in s
    ensures |s| <= n ==> multiset(r) == multiset(s)
    ensures forall m, x :: m in s && m !in r && x in r ==> le(x, m)
    ensures |r| == if |s| < n then |s| else n
    ensures Distinct(s) ==> Distinct(r)
  {
    var sorted := SortBy(le, s);
    var r := Take(sorted, n);
    TakeSorted(le, sorted, n);
    TopNFacts(le, s, sorted, r);
    DistinctPermutation(s, sorted);
    r
  }

  lemma TopNFacts<T>(le: (T, T) -> bool, s: seq<T>, sorted: seq<T>, r: seq<T>)
    requires multiset(sorted) == multiset(s)
    requires SortedBy(le, sorted)
    requires |r| <= |sorted| && r == sorted[..|r|]
    ensures forall x :: x in r ==> x in s
    ensures |r| == |sorted| ==> multiset(r) == multiset(s)
    ensures forall m, x :: m in s && m !in r && x in r ==> le(x, m)
  {
    forall x | x in r ensures x in s {
      SameElements(s, sorted, x);
    }
    if |r| == |sorted| {
      assert r == sorted;
    }
    forall m, x | m in s && m !in r && x in r ensures le(x, m) {
      SameElements(s, sorted, m);
      var j :| 0 <= j < |sorted| && sorted[j] == m;
      var i :| 0 <= i < |r| && r[i] == x;
      assert !(j < |r|);
      assert sorted[i] == x;
    }
  }

  lemma {:induction false} SameElements<T>(s: seq<T>, r: seq<T>, x: T)
    requires multiset(r) == multiset(s)
    ensures x in r <==> x in s
  {
    assert x in r <==> x in multiset(r);
    assert x in s <==> x in multiset(s);
  }

  /** The elements of `s` that satisfy `p`, in order: a query's filter over a scan. */
  function Filter<T(!new)>(s: seq<T>, p: T -> bool): (r: seq<T>)
    ensures |r| <= |s|
    ensures forall x :: x in r <==> x in s && p(x)
    decreases |s|
  {
    if |s| == 0 then []
    else
      assert forall x :: x in s <==> x == s[0] || x in s[1..];
      if p(s[0]) then [s[0]] + Filter(s[1..], p) else Filter(s[1..], p)
  }

  /** No element occurs twice. */
  ghost predicate Distinct<T>(s: seq<T>) {
    forall i, j :: 0 <= i < j < |s| ==> s[i] != s[j]
  }

  /** A sequence without repeats has as many elements as the set of its elements. */
  lemma {:induction false} DistinctCard<T>(s: seq<T>)
    requires Distinct(s)
    ensures |set x | x in s| == |s|
  {
    if |s| > 0 {
      var rest := s[1..];
      assert Distinct(rest) by {
        forall i, j | 0 <= i < j < |rest| ensures rest[i] != rest[j] {
          assert rest[i] == s[i + 1] && rest[j] == s[j + 1];
        }
      }
      DistinctCard(rest);
      assert (set x | x in s) == (set x | x in rest) + {s[0]};
      assert s[0] !in rest by {
        forall j | 0 <= j < |rest| ensures rest[j] != s[0] {
          assert rest[j] == s[j + 1];
        }
      }
    }
  }

  /** An element occurs at most once in a sequence without repeats. */
  lemma {:induction false} DistinctCount<T>(s: seq<T>, x: T)
    requires Distinct(s)
    ensures multiset(s)[x] <= 1
  {
    if |s| > 0 {
      var rest := s[1..];
      assert s == [s[0]] + rest;
      assert Distinct(rest) by {
        forall i, j | 0 <= i < j < |rest| ensures rest[i] != rest[j] {
          assert rest[i] == s[i + 1] && rest[j] == s[j + 1];
        }
      }
      DistinctCount(rest, x);
      if x == s[0] {
        assert x !in rest by {
          forall j | 0 <= j < |rest| ensures rest[j] != x {
            assert rest[j] == s[j + 1];
          }
        }
      }
    }
  }

  /** An element found at two positions occurs at least twice. */
  lemma RepeatCount<T>(s: seq<T>, i: nat, j: nat)
    requires i < j < |s| && s[i] == s[j]
    ensures multiset(s)[s[i]] >= 2
  {
    assert s == s[..j] + [s[j]] + s[j + 1..];
    assert s[i] in s[..j];
  }

  /** A reordering of a sequence without repeats has none either. */
  /** Filtering a sequence without repeats leaves one without repeats. */
  lemma {:induction false} FilterDistinct<T(!new)>(s: seq<T>, p: T -> bool)
    requires Distinct(s)
    ensures Distinct(Filter(s, p))
    decreases |s|
  {
    if |s| > 0 {
      FilterDistinct(s[1..], p);
      assert s[0] !in s[1..];
    }
  }

  lemma DistinctPermutation<T>(a: seq<T>, b: seq<T>)
    requires multiset(a) == multiset(b)
    ensures Distinct(a) ==> Distinct(b)
  {
    if Distinct(a) {
      forall i, j | 0 <= i < j < |b| ensures b[i] != b[j] {
        if b[i] == b[j] {
          RepeatCount(b, i, j);
          DistinctCount(a, b[i]);
        }
      }
    }
  }
}

=== FILE: text.dfy ===
/** Character-level string operations of the JavaScript runtime, restricted to the ASCII
    alphabet for case mapping. */
module Text {

  /** Whitespace and line terminators removed by `String.prototype.trim`: tab, vertical tab,
      form feed, the byte order mark, the space separators of Unicode category Zs and the
      four line terminators. */
  predicate IsSpace(c: char) {
    c == '\t' || c == '\n' || c == '\U{000B}' || c == '\U{000C}' || c == '\r'
    || c == ' ' || c == '\U{00A0}' || c == '\U{1680}'
    || ('\U{2000}' <= c <= '\U{200A}')
    || c == '\U{2028}' || c == '\U{2029}' || c == '\U{202F}' || c == '\U{205F}'
    || c == '\U{3000}' || c == '\U{FEFF}'
  }

  /** The number of leading whitespace characters of `s`. */
  function LeadingSpace(s: string): (n: nat)
    ensures n <= |s|
    ensures forall k :: 0 <= k < n ==> IsSpace(s[k])
    ensures n < |s| ==> !IsSpace(s[n])
    decreases |s|
  {
    if |s| > 0 && IsSpace(s[0]) then 1 + LeadingSpace(s[1..]) else 0
  }

  /** The number of trailing whitespace characters of `s`. */
  function TrailingSpace(s: string): (n: nat)
    ensures n <= |s|
    ensures forall k :: |s| - n <= k < |s| ==> IsSpace(s[k])
    ensures n < |s| ==> !IsSpace(s[|s| - 1 - n])
    decreases |s|
  {
    if |s| > 0 && IsSpace(s[|s| - 1]) then 1 + TrailingSpace(s[..|s| - 1]) else 0
  }

  /** `s.trim()`: the slice of `s` left after removing leading and trailing whitespace. */
  function Trim(s: string): (r: string)
    ensures LeadingSpace(s) + |r| <= |s|
    ensures r == s[LeadingSpace(s)..LeadingSpace(s) + |r|]
    ensures forall k :: LeadingSpace(s) + |r| <= k < |s| ==> IsSpace(s[k])
    ensures |r| > 0 ==> !IsSpace(r[0]) && !IsSpace(r[|r| - 1])
  {
    var a := LeadingSpace(s);
    if a == |s| then ""
    else
      var t := TrailingSpace(s);
      assert !IsSpace(s[a]);
      assert a < |s| - t;
      s[a..|s| - t]
  }

  /** Every character of `s` is whitespace. */
  predicate AllSpace(s: string) {
    forall k :: 0 <= k < |s| ==> IsSpace(s[k])
  }

  /** `s.trim()` is empty exactly when `s` is blank. */
  lemma TrimEmptyIffBlank(s: string)
    ensures Trim(s) == "" <==> AllSpace(s)
  {
    if AllSpace(s) {
      assert LeadingSpace(s) == |s|;
    }
  }

  /** ASCII `toLowerCase` of one character. */
  function LowerChar(c: char): char {
    if 'A' <= c <= 'Z' then (c as int + 32) as char else c
  }

  /** ASCII `toUpperCase` of one character. */
  function UpperChar(c: char): char {
    if 'a' <= c <= 'z' then (c as int - 32) as char else c
  }

  function Lower(s: string): (r: string)
    ensures |r| == |s|
    ensures forall i :: 0 <= i < |s| ==> r[i] == LowerChar(s[i])
  {
    seq(|s|, i requires 0 <= i < |s| => LowerChar(s[i]))
  }

  function Upper(s: string): (r: string)
    ensures |r| == |s|
    ensures forall i :: 0 <= i < |s| ==> r[i] == UpperChar(s[i])
  {
    seq(|s|, i requires 0 <= i < |s| => UpperChar(s[i]))
  }

  predicate StartsWith(s: string, prefix: string) {
    |prefix| <= |s| && s[..|prefix|] == prefix
  }

  predicate EndsWith(s: string, suffix: string) {
    |suffix| <= |s| && s[|s| - |suffix|..] == suffix
  }

  /** `hay.includes(needle)`, computed by scanning each start position. */
  predicate Contains(hay: string, needle: string)
    decreases |hay|
  {
    StartsWith(hay, needle) || (|hay| > 0 && Contains(hay[1..], needle))
  }

  /** The occurrence-based reading of `Contains`. */
  ghost predicate OccursAt(hay: string, needle: string, i: int) {
    0 <= i && i + |needle| <= |hay| && hay[i..i + |needle|] == needle
  }

  lemma {:induction false} ContainsIffOccurs(hay: string, needle: string)
    ensures Contains(hay, needle) <==> exists i :: OccursAt(hay, needle, i)
    decreases |hay|
  {
    if Contains(hay, needle) {
      var i := ContainsWitness(hay, needle);
      assert OccursAt(hay, needle, i);
    }
    forall i | OccursAt(hay, needle, i) ensures Contains(hay, needle) {
      OccursContains(hay, needle, i);
    }
  }

  /** A position at which `needle` occurs in `hay`, when `Contains` holds. */
  lemma {:induction false} ContainsWitness(hay: string, needle: string) returns (i: int)
    requires Contains(hay, needle)
    ensures OccursAt(hay, needle, i)
    decreases |hay|
  {
    if StartsWith(hay, needle) {
      i := 0;
    } else {
      var j := ContainsWitness(hay[1..], needle);
      assert hay[1..][j..j + |needle|] == hay[j + 1..j + 1 + |needle|];
      i := j + 1;
    }
  }

  lemma {:induction false} OccursContains(hay: string, needle: string, i: int)
    requires OccursAt(hay, needle, i)
    ensures Contains(hay, needle)
    decreases i
  {
    if i > 0 {
      assert hay[1..][i - 1..i - 1 + |needle|] == hay[i..i + |needle|];
      OccursContains(hay[1..], needle, i - 1);
    }
  }

  /** `s.split(sep)`: the pieces between occurrences of `sep`; never empty. */
  function Split(s: string, sep: char): (r: seq<string>)
    ensures |r| >= 1
    ensures forall i :: 0 <= i < |r| ==> sep !in r[i]
    decreases |s|
  {
    if |s| == 0 then [""]
    else if s[0] == sep then [""] + Split(s[1..], sep)
    else
      var rest := Split(s[1..], sep);
      [[s[0]] + rest[0]] + rest[1..]
  }

  /** `parts.join(sep)`. */
  function Join(parts: seq<string>, sep: char): string
    decreases |parts|
  {
    if |parts| == 0 then ""
    else if |parts| == 1 then parts[0]
    else parts[0] + [sep] + Join(parts[1..], sep)
  }

  /** Splitting undoes joining when no piece contains the separator. */
  lemma {:induction false} SplitJoin(parts: seq<string>, sep: char)
    requires |parts| >= 1
    requires forall i :: 0 <= i < |parts| ==> sep !in parts[i]
    ensures Split(Join(parts, sep), sep) == parts
    decreases |parts|
  {
    if |parts| == 1 {
      SplitNoSep(parts[0], sep);
    } else {
      SplitJoin(parts[1..], sep);
      SplitAfterPiece(parts[0], Join(parts[1..], sep), sep);
    }
  }

  /** Joining undoes splitting. */
  lemma {:induction false} JoinSplit(s: string, sep: char)
    ensures Join(Split(s, sep), sep) == s
    decreases |s|
  {
    if |s| == 0 {
    } else if s[0] == sep {
      JoinSplit(s[1..], sep);
      assert s == [sep] + s[1..];
    } else {
      JoinSplit(s[1..], sep);
      var rest := Split(s[1..], sep);
      if |rest| == 1 {
        assert s == [s[0]] + s[1..];
      } else {
        assert Join(rest, sep) == rest[0] + [sep] + Join(rest[1..], sep);
        assert ([[s[0]] + rest[0]] + rest[1..])[1..] == rest[1..];
        assert s == [s[0]] + s[1..];
      }
    }
  }

  lemma {:induction false} SplitNoSep(s: string, sep: char)
    requires sep !in s
    ensures Split(s, sep) == [s]
    decreases |s|
  {
    if |s| > 0 {
      assert s[0] in s;
      assert forall c :: c in s[1..] ==> c in s;
      SplitNoSep(s[1..], sep);
      assert s == [s[0]] + s[1..];
    }
  }

  /** A dotted path `p.rest` splits into `p` followed by the pieces of `rest`. */
  lemma {:induction false} SplitAfterPiece(p: string, rest: string, sep: char)
    requires sep !in p
    ensures Split(p + [sep] + rest, sep) == [p] + Split(rest, sep)
    decreases |p|
  {
    if |p| == 0 {
      assert p + [sep] + rest == [sep] + rest;
      assert ([sep] + rest)[1..] == rest;
    } else {
      assert p[0] in p;
      assert forall c :: c in p[1..] ==> c in p;
      SplitAfterPiece(p[1..], rest, sep);
      assert (p + [sep] + rest)[1..] == p[1..] + [sep] + rest;
      assert p == [p[0]] + p[1..];
    }
  }

  /** Every piece occurs in the joined text. */
  lemma {:induction false} JoinHasPart(parts: seq<string>, sep: char, i: nat) returns (k: int)
    requires i < |parts|
    ensures OccursAt(Join(parts, sep), parts[i], k)
    decreases |parts|
  {
    if |parts| == 1 || i == 0 {
      k := 0;
      if |parts| > 1 {
        assert Join(parts, sep)[..|parts[0]|] == parts[0];
      }
    } else {
      var k' := JoinHasPart(parts[1..], sep, i - 1);
      var j := Join(parts, sep);
      var tail := Join(parts[1..], sep);
      var off := |parts[0]| + 1;
      assert j == parts[0] + [sep] + tail;
      assert j[off..] == tail;
      assert parts[1..][i - 1] == parts[i];
      assert j[off + k'..off + k' + |parts[i]|] == j[off..][k'..k' + |parts[i]|];
      k := off + k';
    }
  }

  /** The joined text starts with the first piece and ends with the last. */
  lemma {:induction false} JoinEnds(parts: seq<string>, sep: char)
    requires |parts| >= 1
    ensures StartsWith(Join(parts, sep), parts[0])
    ensures EndsWith(Join(parts, sep), parts[|parts| - 1])
    decreases |parts|
  {
    if |parts| > 1 {
      JoinEnds(parts[1..], sep);
      var j := Join(parts, sep);
      assert j == parts[0] + [sep] + Join(parts[1..], sep);
      assert j[..|parts[0]|] == parts[0];
      assert j[|j| - |parts[|parts| - 1]|..] == Join(parts[1..], sep)[|Join(parts[1..], sep)| - |parts[|parts| - 1]|..];
    }
  }

  lemma JoinContainsPart(parts: seq<string>, sep: char, i: nat)
    requires i < |parts|
    ensures Contains(Join(parts, sep), parts[i])
  {
    var k := JoinHasPart(parts, sep, i);
    OccursContains(Join(parts, sep), parts[i], k);
  }
}

=== FILE: turn.dfy ===
/** One conversation turn: store the user's message, select the agents whose role the
    current phase admits, and for each agent resolve its effective context, build its
    prompt, run the provider chain and store its reply or an error note. */
module Turn {
  import opened Wrappers
  import opened Js
  import opened Text
  import opened Models
  import Inheritance
  import Llm
  import Prompting
  import Sorting

  /** The roles that speak in each phase; an unknown phase admits nobody. */
  function AgentTypesForPhase(phase: string): (ts: seq<string>)
    ensures forall t :: t in ts ==> t in AgentTypes
    ensures phase !in Phases ==> ts == []
    ensures phase in Phases ==> |ts| >= 1
  {
    if phase == "research" then ["Researcher"]
    else if phase == "analysis" then ["Analyzer"]
    else if phase == "synthesis" then ["Synthesizer", "Analyzer", "Researcher"]
    else if phase == "report" then ["Author"]
    else []
  }

  /** The provider chain each phase appends after an agent's own model block. */
  function FallbacksForPhase(phase: string): (cs: seq<Llm.Candidate>)
    ensures |cs| >= 1
    ensures forall c :: c in cs ==> Llm.ProviderNamed(c.provider).Some? && c.model != ""
  {
    if phase == "research" then
      [Llm.Candidate("gemini", "gemini-2.0-flash"), Llm.Candidate("openai", "gpt-4o-mini")]
    else if phase == "analysis" then
      [Llm.Candidate("anthropic", "claude-3-5-sonnet-latest"), Llm.Candidate("openai", "gpt-4o-mini")]
    else if phase == "synthesis" then
      [Llm.Candidate("anthropic", "claude-3-5-haiku-latest"), Llm.Candidate("gemini", "gemini-2.0-flash")]
    else if phase == "report" then
      [Llm.Candidate("anthropic", "claude-3-5-sonnet-latest"), Llm.Candidate("gemini", "gemini-2.0")]
    else
      [Llm.Candidate("openai", "gpt-4o-mini")]
  }

  /** Everything a turn reads but does not compute: the stored conversations and contexts,
      the natural order of the contexts collection, the ancestor lookup, the process
      environment, the provider calls, number rendering, and fresh ids and timestamps
      for the `k`-th message written by the turn. */
  datatype World = World(
    conversations: map<string, Conversation>,
    contexts: map<string, ContextNode>,
    scan: seq<string>,
    ancestorsOf: string -> seq<ContextNode>,
    env: Llm.Env,
    call: (Llm.Config, Llm.Request) -> Llm.Attempt,
    show: Json -> string,
    newId: nat -> string,
    clock: nat -> int)

  /** `convo.phase || "research"`. */
  function PhaseOf(c: Conversation): string {
    if c.phase == "" then "research" else c.phase
  }

  /** `convo.topic || undefined`. */
  function TopicOf(c: Conversation): (t: Option<Json>)
    ensures t.Some? <==> c.topic.Some? && c.topic.value != ""
    ensures t.Some? ==> t.value == JStr(c.topic.value)
  {
    if c.topic.Some? && c.topic.value != "" then Some(JStr(c.topic.value)) else None
  }

  /** `Context.find(...)` in collection order: the listed participants when the list is
      non-empty, otherwise every Agent-level context. */
  function Participants(contexts: map<string, ContextNode>, scan: seq<string>, ids: seq<string>)
    : (ps: seq<ContextNode>)
    ensures forall p :: p in ps ==> p.id in contexts && contexts[p.id] == p
    ensures |ids| > 0 ==> forall p :: p in ps ==> p.id in ids
    ensures |ids| == 0 ==> forall p :: p in ps ==> p.level == "Agent"
    ensures forall id :: (id in scan && id in contexts && contexts[id].id == id
      && (if |ids| > 0 then id in ids else contexts[id].level == "Agent")) ==> contexts[id] in ps
    decreases |scan|
  {
    if |scan| == 0 then []
    else
      var id := scan[0];
      var wanted := id in contexts && contexts[id].id == id
        && (if |ids| > 0 then id in ids else contexts[id].level == "Agent");
      (if wanted then [contexts[id]] else []) + Participants(contexts, scan[1..], ids)
  }

  /** Whether a participant speaks in the phase. */
  predicate Speaks(c: ContextNode, phase: string) {
    c.level == "Agent" && c.agentType.Some? && c.agentType.value in AgentTypesForPhase(phase)
  }

  function ActiveAgents(ps: seq<ContextNode>, phase: string): (as_: seq<ContextNode>)
    ensures forall a :: a in as_ <==> a in ps && Speaks(a, phase)
    ensures |as_| <= |ps|
  {
    if |ps| == 0 then []
    else (if Speaks(ps[0], phase) then [ps[0]] else []) + ActiveAgents(ps[1..], phase)
  }

  /** `mc.provider ? [mc] : []` followed by the phase's fallbacks; a falsy model stands
      for "use the provider's default". */
  function ChainFor(mc: Json, phase: string, show: Json -> string): (cs: seq<Llm.Candidate>)
    ensures TruthyOpt(Get(mc, "provider")) ==>
      && |cs| == |FallbacksForPhase(phase)| + 1
      && cs[0].provider == StringOf(Get(mc, "provider"), show)
      && cs[0].model == (if TruthyOpt(Get(mc, "model")) then StringOf(Get(mc, "model"), show) else "")
      && cs[1..] == FallbacksForPhase(phase)
    ensures !TruthyOpt(Get(mc, "provider")) ==> cs == FallbacksForPhase(phase)
  {
    var own := if TruthyOpt(Get(mc, "provider")) then
      [Llm.Candidate(StringOf(Get(mc, "provider"), show),
                     if TruthyOpt(Get(mc, "model")) then StringOf(Get(mc, "model"), show) else "")]
      else [];
    own + FallbacksForPhase(phase)
  }

  /** `effective.properties?.researchTopic ?? topic`. */
  function PromptTopic(effective: Json, convTopic: Option<Json>): (t: Option<Json>)
    ensures Get(effective, "properties").None? ==> t == convTopic
    ensures !Nullish(GetOpt(Get(effective, "properties"), "researchTopic")) ==>
      t == GetOpt(Get(effective, "properties"), "researchTopic")
  {
    var rt := GetOpt(Get(effective, "properties"), "researchTopic");
    if Nullish(rt) then convTopic else rt
  }

  /** The request sent for an agent: `properties.systemInstruction` as the system text,
      the model block's temperature and token budget or 0.2 and 600. */
  function RequestFor(effective: Json, mc: Json, prompt: string): (r: Llm.Request)
    ensures r.prompt == prompt
    ensures r.temperature == Some(Coalesce(Get(mc, "temperature"), JNum(0.2)))
    ensures r.maxTokens == Some(Coalesce(Get(mc, "maxTokens"), JNum(600.0)))
    ensures r.system == GetOpt(Get(effective, "properties"), "systemInstruction")
  {
    Llm.Request(GetOpt(Get(effective, "properties"), "systemInstruction"), prompt,
      Some(Coalesce(Get(mc, "temperature"), JNum(0.2))), Some(Coalesce(Get(mc, "maxTokens"), JNum(600.0))))
  }

  /** `e.message` as interpolated into a template: "undefined" for a thrown non-Error. */
  function ThrownText(t: Llm.Thrown): string {
    if t.ErrorValue? then t.message else "undefined"
  }

  function ThrownMessage(t: Llm.Thrown): Option<string> {
    if t.ErrorValue? then Some(t.message) else None
  }

  /** What handling one agent produced: a stored message (a reply or an error note), or
      a failure that aborts the turn. */
  datatype Step = Wrote(msg: Message, reply: bool) | Failed(error: string)

  /** The error note stored when an agent's call or its reply's validation fails. */
  function ErrorNote(w: World, k: nat, convId: string, name: string, err: string, errMeta: Option<string>)
    : (m: Message)
    ensures ValidMessage(m) && m.sender == "system" && m.conversationId == convId
    ensures StartsWith(m.content, "Model error for agent " + name + ": ")
    ensures m.senderContextId.None?
  {
    var prefix := "Model error for agent " + name + ": ";
    var content := prefix + err;
    assert content[..|prefix|] == prefix;
    Message(w.newId(k), convId, "system", None, content, MessageMeta(None, None, None, None, errMeta), w.clock(k))
  }

  /** The prompt the agent `ctx` receives for `content`, given its effective context. */
  function AgentPrompt(w: World, effective: Json, ctx: ContextNode, content: string, convTopic: Option<Json>): string
    requires ctx.agentType.Some? && ctx.agentType.value in AgentTypes
  {
    var role := Prompting.RoleNamed(ctx.agentType.value).value;
    Prompting.BuildPrompt(role, Coalesce(Get(effective, "traits"), EmptyObject), content,
      PromptTopic(effective, convTopic), w.show)
  }

  /** The model block an agent's call is driven by: `effective.modelConfig || {}`. */
  function ModelBlock(effective: Json): Json {
    Or(Get(effective, "modelConfig"), EmptyObject)
  }

  /** The router run made for an agent. */
  function AgentRun(w: World, effective: Json, ctx: ContextNode, content: string, convTopic: Option<Json>, phase: string)
    : Llm.Run
    requires ctx.agentType.Some? && ctx.agentType.value in AgentTypes
  {
    var mc := ModelBlock(effective);
    Llm.WithFallback(w.env, ChainFor(mc, phase, w.show),
      RequestFor(effective, mc, AgentPrompt(w, effective, ctx, content, convTopic)), w.call)
  }

  /** Handling of one active agent; `k` numbers the message it may write. */
  function AgentStep(w: World, convId: string, phase: string, convTopic: Option<Json>, content: string,
                     ctx: ContextNode, k: nat): (s: Step)
    requires ctx.agentType.Some? && ctx.agentType.value in AgentTypes
    ensures s.Wrote? ==> ValidMessage(s.msg) && s.msg.conversationId == convId
    ensures s.Wrote? ==> (s.reply <==> s.msg.sender == "agent")
    ensures s.Wrote? && s.reply ==> s.msg.senderContextId == Some(ctx.id)
    ensures s.Wrote? && !s.reply ==> StartsWith(s.msg.content, "Model error for agent " + ctx.name + ": ")
    ensures s.Failed? <==> Inheritance.GetEffectiveContext(w.contexts, ctx.id, w.ancestorsOf(ctx.id)).Err?
    ensures s.Wrote? && s.reply ==>
      var eff := Inheritance.GetEffectiveContext(w.contexts, ctx.id, w.ancestorsOf(ctx.id)).value.effective;
      var run := AgentRun(w, eff, ctx, content, convTopic, phase);
      run.outcome.Ok? && s.msg.content == run.outcome.value.text && s.msg.content != ""
      && s.msg.meta.model == Some(run.outcome.value.model)
  {
    match Inheritance.GetEffectiveContext(w.contexts, ctx.id, w.ancestorsOf(ctx.id))
    case Err(e) => Failed(e)
    case Ok(res) =>
      var run := AgentRun(w, res.effective, ctx, content, convTopic, phase);
      match run.outcome
      case Ok(r) =>
        var usage := r.usage;
        var meta := MessageMeta(None, Some(r.model),
          if usage.Some? then usage.value.input else None,
          if usage.Some? then usage.value.output else None, None);
        var m := Message(w.newId(k), convId, "agent", Some(ctx.id), r.text, meta, w.clock(k));
        (match CreateMessage(m) {
          case Ok(saved) => Wrote(saved, true)
          case Err(e) => Wrote(ErrorNote(w, k, convId, ctx.name, e, Some(e)), false)
        })
      case Err(t) => Wrote(ErrorNote(w, k, convId, ctx.name, ThrownText(t), ThrownMessage(t)), false)
  }

  /** The messages an agents loop wrote, the message ids it handed to background
      extraction, the agents' replies, and the error that aborted it, if any. */
  datatype Progress = Progress(written: seq<Message>, dispatched: seq<string>, replies: seq<Message>,
                               failure: Option<string>)

  predicate Speakers(agents: seq<ContextNode>, phase: string) {
    forall a :: a in agents ==> Speaks(a, phase) && a.agentType.value in AgentTypes
  }

  function Ids(ms: seq<Message>): (ids: seq<string>)
    ensures |ids| == |ms|
    ensures forall i :: 0 <= i < |ms| ==> ids[i] == ms[i].id
  {
    if |ms| == 0 then [] else [ms[0].id] + Ids(ms[1..])
  }

  /** What the agents loop relies on from one agent's step: whatever it stores is a valid
      message of the conversation, and it is a reply exactly when the agent is its sender. */
  predicate LoopsStep(s: Step, ctx: ContextNode, convId: string) {
    s.Wrote? ==> && ValidMessage(s.msg) && s.msg.conversationId == convId
                 && (s.reply <==> s.msg.sender == "agent")
                 && (s.reply ==> s.msg.senderContextId == Some(ctx.id))
  }

  /** The agents' replies among stored messages, in order: `responses`. */
  function AgentMessages(ms: seq<Message>): (r: seq<Message>)
    ensures forall m :: m in r <==> m in ms && m.sender == "agent"
  {
    Sorting.Filter(ms, (m: Message) => m.sender == "agent")
  }

  /** The agents loop, one agent after another, agent `i` numbering its message `k0 + i`.
      Each agent writes exactly one message, its reply or its error note, until a step
      throws: that aborts the remaining agents and the turn. */
  function RunAgents(step: (ContextNode, nat) --> Step, convId: string, agents: seq<ContextNode>, k0: nat)
    : (r: Progress)
    requires forall a, k :: a in agents ==> step.requires(a, k) && LoopsStep(step(a, k), a, convId)
    ensures |r.written| <= |agents|
    ensures r.failure.None? ==> |r.written| == |agents|
    ensures forall m :: m in r.written ==> ValidMessage(m) && m.conversationId == convId
    ensures forall m :: m in r.replies ==>
      m in r.written && m.sender == "agent" && exists a :: a in agents && m.senderContextId == Some(a.id)
    ensures forall m :: m in r.written && m.sender == "agent" ==> m in r.replies
    ensures r.dispatched == Ids(r.replies)
    decreases |agents|
  {
    if |agents| == 0 then Progress([], [], [], None)
    else
      assert agents[0] in agents;
      var s := step(agents[0], k0);
      assert LoopsStep(s, agents[0], convId);
      match s
      case Failed(e) => Progress([], [], [], Some(e))
      case Wrote(m, reply) =>
        assert forall a :: a in agents[1..] ==> a in agents;
        var rest := RunAgents(step, convId, agents[1..], k0 + 1);
        var replies := (if reply then [m] else []) + rest.replies;
        assert Ids(replies) == (if reply then [m.id] else []) + Ids(rest.replies);
        Progress([m] + rest.written, (if reply then [m.id] else []) + rest.dispatched, replies, rest.failure)
  }

  /** The steps the agents would take in order, the `i`-th agent at call `k0 + i`. */
  function StepsOf(step: (ContextNode, nat) --> Step, agents: seq<ContextNode>, k0: nat): (r: seq<Step>)
    requires forall a, k :: a in agents ==> step.requires(a, k)
    ensures |r| == |agents|
    ensures forall i :: 0 <= i < |agents| ==> r[i] == step(agents[i], k0 + i)
    decreases |agents|
  {
    if |agents| == 0 then []
    else
      assert agents[0] in agents;
      assert forall a :: a in agents[1..] ==> a in agents;
      var rest := StepsOf(step, agents[1..], k0 + 1);
      assert forall i :: 1 <= i < |agents| ==> agents[1..][i - 1] == agents[i];
      [step(agents[0], k0)] + rest
  }

  /** Agent `i` of the loop wrote its step's message as `written[i]`. */
  lemma {:induction false} RunAgentsWrites(step: (ContextNode, nat) --> Step, convId: string,
                                           agents: seq<ContextNode>, k0: nat)
    requires forall a, k :: a in agents ==> step.requires(a, k) && LoopsStep(step(a, k), a, convId)
    ensures var r := RunAgents(step, convId, agents, k0); var ss := StepsOf(step, agents, k0);
      forall i :: 0 <= i < |r.written| ==> ss[i].Wrote? && r.written[i] == ss[i].msg
    decreases |agents|
  {
    var r := RunAgents(step, convId, agents, k0);
    var ss := StepsOf(step, agents, k0);
    if |agents| > 0 {
      assert agents[0] in agents;
      if ss[0].Wrote? {
        assert forall a :: a in agents[1..] ==> a in agents;
        RunAgentsWrites(step, convId, agents[1..], k0 + 1);
        var rest := RunAgents(step, convId, agents[1..], k0 + 1);
        assert r.written == [ss[0].msg] + rest.written;
        assert ss == [ss[0]] + StepsOf(step, agents[1..], k0 + 1);
      }
    }
  }

  /** When the loop stops early, it stops at the first step that throws, with that step's error. */
  lemma {:induction false} RunAgentsStops(step: (ContextNode, nat) --> Step, convId: string,
                                          agents: seq<ContextNode>, k0: nat)
    requires forall a, k :: a in agents ==> step.requires(a, k) && LoopsStep(step(a, k), a, convId)
    ensures var r := RunAgents(step, convId, agents, k0); var ss := StepsOf(step, agents, k0);
      r.failure.Some? ==> |r.written| < |ss| && ss[|r.written|] == Failed(r.failure.value)
    decreases |agents|
  {
    var r := RunAgents(step, convId, agents, k0);
    var ss := StepsOf(step, agents, k0);
    if |agents| > 0 {
      assert agents[0] in agents;
      if ss[0].Wrote? {
        assert forall a :: a in agents[1..] ==> a in agents;
        RunAgentsStops(step, convId, agents[1..], k0 + 1);
        var rest := RunAgents(step, convId, agents[1..], k0 + 1);
        assert |r.written| == 1 + |rest.written| && r.failure == rest.failure;
        assert ss == [ss[0]] + StepsOf(step, agents[1..], k0 + 1);
      }
    }
  }

  /** The loop finishes exactly when every step writes; otherwise it stops at the first step
      that throws, with that step's error. */
  lemma RunAgentsCompletes(step: (ContextNode, nat) --> Step, convId: string,
                           agents: seq<ContextNode>, k0: nat)
    requires forall a, k :: a in agents ==> step.requires(a, k) && LoopsStep(step(a, k), a, convId)
    ensures var r := RunAgents(step, convId, agents, k0); var ss := StepsOf(step, agents, k0);
      && (r.failure.None? <==> forall i :: 0 <= i < |ss| ==> ss[i].Wrote?)
      && (r.failure.Some? ==> |r.written| < |ss| && ss[|r.written|] == Failed(r.failure.value))
  {
    RunAgentsWrites(step, convId, agents, k0);
    RunAgentsStops(step, convId, agents, k0);
  }

  /** The loop's replies are the agents' messages among those it wrote, in order. */
  lemma {:induction false} RunAgentsReplies(step: (ContextNode, nat) --> Step, convId: string,
                                            agents: seq<ContextNode>, k0: nat)
    requires forall a, k :: a in agents ==> step.requires(a, k) && LoopsStep(step(a, k), a, convId)
    ensures RunAgents(step, convId, agents, k0).replies == AgentMessages(RunAgents(step, convId, agents, k0).written)
    decreases |agents|
  {
    var r := RunAgents(step, convId, agents, k0);
    if |agents| > 0 {
      assert agents[0] in agents;
      var s := step(agents[0], k0);
      assert LoopsStep(s, agents[0], convId);
      if s.Wrote? {
        assert forall a :: a in agents[1..] ==> a in agents;
        RunAgentsReplies(step, convId, agents[1..], k0 + 1);
        var rest := RunAgents(step, convId, agents[1..], k0 + 1);
        assert r.written == [s.msg] + rest.written;
        assert r.written[1..] == rest.written;
        if s.reply {
          assert r.replies == [s.msg] + rest.replies;
        } else {
          assert r.replies == rest.replies;
        }
      }
    }
  }

  /** The step the turn runs for each of its agents. */
  function StepOf(w: World, convId: string, phase: string, convTopic: Option<Json>, content: string)
    : (ContextNode, nat) --> Step
  {
    (ctx: ContextNode, k: nat) requires ctx.agentType.Some? && ctx.agentType.value in AgentTypes =>
      AgentStep(w, convId, phase, convTopic, content, ctx, k)
  }

  /** Every agent that speaks can be run by the turn's step, and its step keeps the loop's invariants. */
  lemma StepOfLoops(w: World, convId: string, phase: string, convTopic: Option<Json>, content: string,
                    agents: seq<ContextNode>)
    requires Speakers(agents, phase)
    ensures var step := StepOf(w, convId, phase, convTopic, content);
      forall a, k :: a in agents ==> step.requires(a, k) && LoopsStep(step(a, k), a, convId)
  {
  }

  const ConversationNotFound: string := "Conversation not found"

  /** The agents that speak in conversation `c`. */
  function ActiveFor(w: World, c: Conversation): (as_: seq<ContextNode>)
    ensures Speakers(as_, PhaseOf(c))
  {
    ActiveAgents(Participants(w.contexts, w.scan, c.participantIds), PhaseOf(c))
  }

  /** The turn's step for an agent is the agent's own step. */
  lemma StepOfIsAgentStep(w: World, convId: string, phase: string, convTopic: Option<Json>, content: string,
                          ctx: ContextNode, k: nat)
    requires ctx.agentType.Some? && ctx.agentType.value in AgentTypes
    ensures StepOf(w, convId, phase, convTopic, content).requires(ctx, k)
    ensures StepOf(w, convId, phase, convTopic, content)(ctx, k) == AgentStep(w, convId, phase, convTopic, content, ctx, k)
  {
  }

  /** The steps the turn takes for the agents of conversation `convId`, the `i`-th agent as
      the turn's `(1 + i)`-th call. */
  function TurnSteps(w: World, convId: string, content: string): (ss: seq<Step>)
    requires convId in w.conversations
    ensures |ss| == |ActiveFor(w, w.conversations[convId])|
  {
    var c := w.conversations[convId];
    StepOfLoops(w, convId, PhaseOf(c), TopicOf(c), content, ActiveFor(w, c));
    StepsOf(StepOf(w, convId, PhaseOf(c), TopicOf(c), content), ActiveFor(w, c), 1)
  }

  /** The agent loop of a turn in conversation `convId`. */
  function TurnRun(w: World, convId: string, content: string): (run: Progress)
    requires convId in w.conversations
    ensures |run.written| <= |ActiveFor(w, w.conversations[convId])|
    ensures run.failure.None? ==> |run.written| == |ActiveFor(w, w.conversations[convId])|
    ensures forall m :: m in run.written ==> ValidMessage(m) && m.conversationId == convId
    ensures forall m :: m in run.replies ==>
      m in run.written && m.sender == "agent"
      && exists a :: a in ActiveFor(w, w.conversations[convId]) && m.senderContextId == Some(a.id)
    ensures forall m :: m in run.written && m.sender == "agent" ==> m in run.replies
    ensures run.dispatched == Ids(run.replies)
  {
    var c := w.conversations[convId];
    StepOfLoops(w, convId, PhaseOf(c), TopicOf(c), content, ActiveFor(w, c));
    RunAgents(StepOf(w, convId, PhaseOf(c), TopicOf(c), content), convId, ActiveFor(w, c), 1)
  }

  /** The loop of a turn runs the turn's steps in order: it stores each step's message,
      finishes exactly when every step writes, stops with the error of the first step that
      throws, and replies with the agents' messages among those stored. */
  lemma TurnRunFollowsSteps(w: World, convId: string, content: string)
    requires convId in w.conversations
    ensures var run := TurnRun(w, convId, content); var ss := TurnSteps(w, convId, content);
      && (forall i :: 0 <= i < |run.written| ==> ss[i].Wrote? && run.written[i] == ss[i].msg)
      && (run.failure.None? <==> forall i :: 0 <= i < |ss| ==> ss[i].Wrote?)
      && (run.failure.Some? ==> |run.written| < |ss| && ss[|run.written|] == Failed(run.failure.value))
      && run.replies == AgentMessages(run.written)
  {
    var c := w.conversations[convId];
    var agents := ActiveFor(w, c);
    var step := StepOf(w, convId, PhaseOf(c), TopicOf(c), content);
    StepOfLoops(w, convId, PhaseOf(c), TopicOf(c), content, agents);
    RunAgentsWrites(step, convId, agents, 1);
    RunAgentsCompletes(step, convId, agents, 1);
    RunAgentsReplies(step, convId, agents, 1);
  }

  datatype TurnReply = TurnReply(userMsg: Message, agentMessages: seq<Message>)

  /** Everything a turn did: the messages it stored in order, the message ids it handed to
      background extraction, and its reply or the error it was rejected with. */
  datatype TurnOutcome = TurnOutcome(written: seq<Message>, dispatched: seq<string>, result: Result<TurnReply, string>)

  /** `sendUserMessage(conversationId, content)`. */
  function SendUserMessage(w: World, convId: string, content: string): (o: TurnOutcome)
    ensures convId !in w.conversations ==> o == TurnOutcome([], [], Err(ConversationNotFound))
    ensures convId in w.conversations && content == "" ==> o == TurnOutcome([], [], Err(MessageContentRequired))
    ensures convId in w.conversations && content != "" ==>
      && |o.written| >= 1 && |o.dispatched| >= 1
      && o.written[0].sender == "user" && o.written[0].content == content
      && o.dispatched[0] == o.written[0].id
    ensures forall m :: m in o.written ==> ValidMessage(m) && m.conversationId == convId
    ensures o.result.Ok? ==>
      var c := w.conversations[convId];
      && o.result.value.userMsg == o.written[0]
      && |o.written| == 1 + |ActiveFor(w, c)|
      && o.dispatched == [o.written[0].id] + Ids(o.result.value.agentMessages)
      && (forall m :: m in o.result.value.agentMessages ==>
            m in o.written && exists a :: a in ActiveFor(w, c) && m.senderContextId == Some(a.id))
      && (forall m :: m in o.written[1..] && m.sender == "agent" ==> m in o.result.value.agentMessages)
  {
    if convId !in w.conversations then TurnOutcome([], [], Err(ConversationNotFound))
    else
      var c := w.conversations[convId];
      var user := Message(w.newId(0), convId, "user", None, content, NoMeta, w.clock(0));
      match CreateMessage(user)
      case Err(e) => TurnOutcome([], [], Err(e))
      case Ok(saved) =>
        var run := TurnRun(w, convId, content);
        var written := [saved] + run.written;
        assert written[1..] == run.written;
        TurnOutcome(written, [saved.id] + run.dispatched,
          match run.failure
          case Some(e) => Err(e)
          case None => Ok(TurnReply(saved, run.replies)))
  }

  /** Once the user's message is stored, the turn runs the agents' steps in order: it stores
      each step's message, succeeds exactly when every step writes, fails with the error of
      the first step that throws, and replies with the agents' messages among those stored. */
  lemma TurnFollowsSteps(w: World, convId: string, content: string)
    requires convId in w.conversations
    ensures var o := SendUserMessage(w, convId, content); var ss := TurnSteps(w, convId, content);
      |o.written| >= 1 ==>
      && |o.written| <= 1 + |ss|
      && (forall i :: 0 <= i < |o.written| - 1 ==> ss[i].Wrote? && o.written[1 + i] == ss[i].msg)
      && (o.result.Ok? <==> forall i :: 0 <= i < |ss| ==> ss[i].Wrote?)
      && (o.result.Err? ==> |o.written| - 1 < |ss| && ss[|o.written| - 1] == Failed(o.result.error))
      && (o.result.Ok? ==> o.result.value.agentMessages == AgentMessages(o.written[1..]))
  {
    var o := SendUserMessage(w, convId, content);
    var run := TurnRun(w, convId, content);
    TurnRunFollowsSteps(w, convId, content);
    if |o.written| >= 1 {
      assert o.written[1..] == run.written;
      assert o.result == if run.failure.Some? then Err(run.failure.value) else Ok(TurnReply(o.written[0], run.replies));
    }
  }

  /** Only roles admitted by the phase answer: in the report phase every reply comes from
      an Author, in the research phase from a Researcher. */
  lemma RepliesComeFromPhaseRoles(w: World, convId: string, content: string)
    requires convId in w.conversations
    requires SendUserMessage(w, convId, content).result.Ok?
    ensures var c := w.conversations[convId];
      forall m :: m in SendUserMessage(w, convId, content).result.value.agentMessages ==>
        exists a :: a in w.contexts.Values && Some(a.id) == m.senderContextId && a.level == "Agent"
          && a.agentType.Some? && a.agentType.value in AgentTypesForPhase(PhaseOf(c))
  {
    var c := w.conversations[convId];
    var o := SendUserMessage(w, convId, content);
    forall m | m in o.result.value.agentMessages
      ensures exists a :: (a in w.contexts.Values && Some(a.id) == m.senderContextId && a.level == "Agent"
          && a.agentType.Some? && a.agentType.value in AgentTypesForPhase(PhaseOf(c)))
    {
      var a :| a in ActiveFor(w, c) && m.senderContextId == Some(a.id);
      assert a in Participants(w.contexts, w.scan, c.participantIds);
      assert w.contexts[a.id] == a;
    }
  }

  /** A conversation whose stored phase is not one of the four admits no agent: the turn
      stores the user's message and nothing else. */
  lemma UnknownPhaseIsSilent(w: World, convId: string, content: string)
    requires convId in w.conversations && content != ""
    requires PhaseOf(w.conversations[convId]) !in Phases
    ensures SendUserMessage(w, convId, content).result.Ok?
    ensures |SendUserMessage(w, convId, content).written| == 1
    ensures SendUserMessage(w, convId, content).result.value.agentMessages == []
  {
    var c := w.conversations[convId];
    NobodySpeaks(Participants(w.contexts, w.scan, c.participantIds), PhaseOf(c));
  }

  lemma {:induction false} NobodySpeaks(ps: seq<ContextNode>, phase: string)
    requires phase !in Phases
    ensures ActiveAgents(ps, phase) == []
    decreases |ps|
  {
    if |ps| > 0 {
      assert AgentTypesForPhase(phase) == [];
      assert !Speaks(ps[0], phase);
      NobodySpeaks(ps[1..], phase);
    }
  }

  /** An agent's own model block is attempted first: when it names a credentialed provider
      and mock mode is off, the first call goes to that provider, with the block's model
      or the provider's default. */
  lemma OwnModelTriedFirst(w: World, effective: Json, ctx: ContextNode, content: string, convTopic: Option<Json>, phase: string)
    requires ctx.agentType.Some? && ctx.agentType.value in AgentTypes
    requires !Llm.MockMode(w.env)
    requires TruthyOpt(Get(ModelBlock(effective), "provider"))
    requires Llm.Keeps(w.env, ChainFor(ModelBlock(effective), phase, w.show)[0])
    ensures var run := AgentRun(w, effective, ctx, content, convTopic, phase);
      |run.tried| >= 1 && run.tried[0] == Llm.Normalized(w.env, ChainFor(ModelBlock(effective), phase, w.show)[0])
  {
    var chain := ChainFor(ModelBlock(effective), phase, w.show);
    var n := Llm.Normalize(w.env, chain);
    var e := Llm.Explicit(w.env, chain);
    assert e[0] == Llm.Normalized(w.env, chain[0]);
    assert n[0] == e[0];
  }

  /** A node's `researchTopic` property lands at the top level of the effective object, so
      the prompt's topic comes from the conversation unless some inherited path starts
      with the segment `properties`. */
  lemma ResearchTopicComesFromConversation(w: World, ctx: ContextNode, convTopic: Option<Json>)
    requires Inheritance.GetEffectiveContext(w.contexts, ctx.id, w.ancestorsOf(ctx.id)).Ok?
    requires var os := Inheritance.GetEffectiveContext(w.contexts, ctx.id, w.ancestorsOf(ctx.id)).value.origins;
      forall i :: 0 <= i < |os| ==> Inheritance.Parts(os[i].0)[0] != "properties"
    ensures var eff := Inheritance.GetEffectiveContext(w.contexts, ctx.id, w.ancestorsOf(ctx.id)).value.effective;
      PromptTopic(eff, convTopic) == convTopic
  {
    var res := Inheritance.GetEffectiveContext(w.contexts, ctx.id, w.ancestorsOf(ctx.id)).value;
    Inheritance.RebuildOmits(res.origins, "properties");
  }

  /** For the same reason the request carries no system instruction unless some inherited
      path starts with the segment `properties`: a node's own `systemInstruction` property
      is stored at the top level of the effective object, where the request does not look. */
  lemma SystemInstructionNeedsPropertiesPath(w: World, ctx: ContextNode, mc: Json, prompt: string)
    requires Inheritance.GetEffectiveContext(w.contexts, ctx.id, w.ancestorsOf(ctx.id)).Ok?
    requires var os := Inheritance.GetEffectiveContext(w.contexts, ctx.id, w.ancestorsOf(ctx.id)).value.origins;
      forall i :: 0 <= i < |os| ==> Inheritance.Parts(os[i].0)[0] != "properties"
    ensures var eff := Inheritance.GetEffectiveContext(w.contexts, ctx.id, w.ancestorsOf(ctx.id)).value.effective;
      RequestFor(eff, mc, prompt).system.None?
  {
    var res := Inheritance.GetEffectiveContext(w.contexts, ctx.id, w.ancestorsOf(ctx.id)).value;
    Inheritance.RebuildOmits(res.origins, "properties");
  }
}

=== FILE: workflow_routes.dfy ===
/** The workflow routes: reading a conversation's topic and phase, patching them, and the
    listing of recent topics. The patch is modelled twice: as the handler is written, with
    an update that bypasses the schema's validators, and with the phase validated. */
module WorkflowRoutes {
  import opened Wrappers
  import opened Js
  import opened Models
  import opened ConversationRoutes

  /** The body of a workflow response: `{topic, phase}`. */
  datatype View = View(topic: string, phase: string)

  /** The phase shown for a conversation that has none. */
  const ShownPhase: string := "research"

  /** `{topic: c?.topic || "", phase: c?.phase || "research"}` for a document or none. */
  function ViewOf(c: Option<Conversation>): (v: View)
    ensures c.None? ==> v == View("", ShownPhase)
    ensures c.Some? && c.value.topic.Some? ==> v.topic == c.value.topic.value
    ensures c.Some? && c.value.topic.None? ==> v.topic == ""
    ensures c.Some? && c.value.phase != "" ==> v.phase == c.value.phase
    ensures v.phase != ""
  {
    match c
    case None => View("", ShownPhase)
    case Some(d) =>
      View(if d.topic.Some? then d.topic.value else "",
           if d.phase != "" then d.phase else ShownPhase)
  }

  // ----- GET /:id/state ------------------------------------------------------------------

  /** The workflow state of a conversation; a 404 when the id names none. */
  function State(s: Store, id: string): (r: Result<View, RouteFail>)
    ensures r.Err? <==> id !in s
    ensures r.Err? ==> r.error == NotFound
    ensures r.Ok? ==> r.value == ViewOf(Some(s[id]))
  {
    if id in s then Ok(ViewOf(Some(s[id]))) else Err(NotFound)
  }

  /** On a valid collection the state always shows one of the four phases, the stored one. */
  lemma StateShowsStoredPhase(s: Store, id: string)
    requires ValidStore(s) && id in s
    ensures State(s, id).Ok?
    ensures State(s, id).value.phase == s[id].phase
    ensures State(s, id).value.phase in Phases
  {
    assert "" !in Phases;
  }

  /** After the phase route succeeds, the state reads back the requested phase. */
  lemma StateAfterSetPhase(s: Store, id: string, next: Option<Json>, now: int, show: Json -> string)
    requires SetPhase(s, id, next, now, show).Ok?
    ensures State(SetPhase(s, id, next, now, show).value, id)
      == Ok(View(State(s, id).value.topic, RequestedPhase(next, show).value))
  {
    assert "" !in Phases;
  }

  /** After the topic route stores a string, the state reads it back. */
  lemma StateAfterSetTopic(s: Store, id: string, t: string, now: int, show: Json -> string)
    requires SetTopic(s, id, Some(JStr(t)), now, show).Ok?
    ensures State(SetTopic(s, id, Some(JStr(t)), now, show).value, id)
      == Ok(View(t, State(s, id).value.phase))
  {
  }

  // ----- PATCH /:id ----------------------------------------------------------------------

  /** The update a body builds: each field the body carries, as `String(value)`; a field
      sent as `null` becomes the text "null". */
  function Field(v: Option<Json>, show: Json -> string): (r: Option<string>)
    ensures r.None? <==> v.None?
    ensures v.Some? && v.value.JStr? ==> r == Some(v.value.s)
    ensures v == Some(JNull) ==> r == Some("null")
  {
    if v.None? then None else Some(StringOf(v, show))
  }

  /** `findByIdAndUpdate(id, upd, {new: true})` as the handler calls it: the fields are
      written as they are, with no validation, and the schema's timestamps stamp `updatedAt`.
      A missing conversation leaves the collection as it was and still answers 200 with the
      defaults. */
  function PatchAsWritten(s: Store, id: string, topic: Option<Json>, phase: Option<Json>, now: int,
                          show: Json -> string): (r: (Store, View))
    ensures id !in s ==> r == (s, View("", ShownPhase))
    ensures r.0.Keys == s.Keys
    ensures forall k :: k in s && k != id ==> r.0[k] == s[k]
    ensures id in s ==>
      && r.0[id].topic == (if topic.Some? then Field(topic, show) else s[id].topic)
      && r.0[id].phase == (if phase.Some? then Field(phase, show).value else s[id].phase)
      && r.0[id].updatedAt == now
      && r.0[id] == s[id].(topic := r.0[id].topic, phase := r.0[id].phase, updatedAt := now)
      && r.1 == ViewOf(Some(r.0[id]))
  {
    if id !in s then (s, ViewOf(None))
    else
      var c := s[id];
      var c' := c.(topic := if topic.Some? then Field(topic, show) else c.topic,
                   phase := if phase.Some? then Field(phase, show).value else c.phase,
                   updatedAt := now);
      (s[id := c'], ViewOf(Some(c')))
  }

  /** The handler lets a phase outside the enumeration into the collection: patching a valid
      conversation with `{phase: "foo"}` stores it, the state route then shows "foo", and the
      topic route, whose `save()` validates the whole document, fails on that conversation
      from then on. */
  lemma PatchStoresUnknownPhase(show: Json -> string)
    ensures var c := Conversation("c1", "Research Session", [], "active", None, "research", [], 0, 0);
      var s := map["c1" := c];
      var (s', v) := PatchAsWritten(s, "c1", None, Some(JStr("foo")), 1, show);
      && ValidStore(s)
      && !ValidStore(s')
      && v.phase == "foo"
      && SetTopic(s', "c1", Some(JStr("t")), 2, show) == Err(Invalid)
  {
    var c := Conversation("c1", "Research Session", [], "active", None, "research", [], 0, 0);
    var s := map["c1" := c];
    assert "research" in Phases;
    var (s', v) := PatchAsWritten(s, "c1", None, Some(JStr("foo")), 1, show);
    assert s'["c1"].phase == "foo";
    assert "foo" !in Phases;
  }

  /** The same update run with the schema's validators, as `{runValidators: true}` does:
      a phase outside the enumeration is refused and nothing is written. */
  function Patch(s: Store, id: string, topic: Option<Json>, phase: Option<Json>, now: int,
                 show: Json -> string): (r: Result<(Store, View), RouteFail>)
    ensures r.Err? <==> phase.Some? && Field(phase, show).value !in Phases
    ensures r.Err? ==> r.error == Invalid
    ensures r.Ok? ==> r.value == PatchAsWritten(s, id, topic, phase, now, show)
  {
    if phase.Some? && Field(phase, show).value !in Phases then Err(Invalid)
    else Ok(PatchAsWritten(s, id, topic, phase, now, show))
  }

  /** The validated patch keeps a valid collection valid, so the other routes keep working
      on every conversation it touched. */
  lemma PatchKeepsStoreValid(s: Store, id: string, topic: Option<Json>, phase: Option<Json>, now: int,
                             show: Json -> string)
    requires ValidStore(s)
    requires Patch(s, id, topic, phase, now, show).Ok?
    ensures ValidStore(Patch(s, id, topic, phase, now, show).value.0)
    ensures id in s ==> Patch(s, id, topic, phase, now, show).value.1.phase in Phases
  {
    var (s', v) := Patch(s, id, topic, phase, now, show).value;
    if id in s {
      assert ValidConversation(s'[id]);
      assert "" !in Phases;
    }
  }

  /** A validated patch followed by the state route reads back what was patched. */
  lemma StateAfterPatch(s: Store, id: string, t: string, p: string, now: int, show: Json -> string)
    requires id in s
    requires Patch(s, id, Some(JStr(t)), Some(JStr(p)), now, show).Ok?
    ensures p in Phases
    ensures State(Patch(s, id, Some(JStr(t)), Some(JStr(p)), now, show).value.0, id) == Ok(View(t, p))
  {
    assert "" !in Phases;
  }

  // ----- GET /recent/topics --------------------------------------------------------------

  const RecentLimit: nat := 30

  /** `$match: {topic: {$ne: ""}}`: only the empty topic is excluded; documents with a null
      or missing topic pass and form one group of their own. */
  function NonEmptyTopic(): Conversation -> bool {
    (c: Conversation) => c.topic != Some("")
  }

  /** `GET /recent/topics`: the conversations whose topic, `_id` and `updatedAt` form the
      rows, one per topic, newest first. */
  function RecentTopics(cs: seq<Conversation>): (r: seq<Conversation>)
    ensures |r| <= 30
    ensures NewestFirst(r)
    ensures forall i, j :: 0 <= i < j < |r| ==> r[i].topic != r[j].topic
    ensures forall x :: x in r ==> x in cs && x.topic != Some("")
    ensures forall x, c :: x in r && c in cs && c.topic == x.topic ==> c.updatedAt <= x.updatedAt
    ensures forall c :: c in cs && c.topic != Some("") && c.topic !in TopicsOf(r) ==>
      |r| == 30 && forall x :: x in r ==> x.updatedAt >= c.updatedAt
  {
    Latest(cs, NonEmptyTopic(), RecentLimit)
  }

  /** The documents without a topic are listed as a row of their own when they are recent
      enough: a collection whose only conversation has no topic lists it. */
  lemma RecentTopicsKeepsUntitled(c: Conversation)
    requires c.topic.None?
    ensures RecentTopics([c]) == [c]
  {
    var r := RecentTopics([c]);
    SingleGroup(c, r, RecentLimit);
  }

  /** A listing of the one document `c` that keeps at most one row per topic and omits a
      topic only when full is that document alone. */
  lemma SingleGroup(c: Conversation, r: seq<Conversation>, limit: nat)
    requires limit > 1
    requires forall x :: x in r ==> x == c
    requires forall i, j :: 0 <= i < j < |r| ==> r[i].topic != r[j].topic
    requires c.topic !in TopicsOf(r) ==> |r| == limit
    ensures r == [c]
  {
    forall i | 0 <= i < |r|
      ensures r[i] == c
    {
      assert r[i] in r;
    }
    assert |r| >= 2 ==> r[0].topic == r[1].topic;
    assert |r| <= 1;
    assert c.topic in TopicsOf(r);
    assert r[0] == c;
  }
}

=== FILE: wrappers.dfy ===
/** Failure-carrying values shared by every module of the model. */
module Wrappers {

  /** An optional value: `None` stands for JavaScript's `undefined` (or an absent field). */
  datatype Option<+T> = None | Some(value: T) {

    /** The carried value, or `default` when there is none (JavaScript's `x ?? default` on a
        value that is never `null`). */
    function GetOr(default: T): T {
      match this
      case Some(v) => v
      case None => default
    }
  }

  /** The outcome of an operation that may throw: `Err` carries what was thrown. */
  datatype Result<+T, +E> = Ok(value: T) | Err(error: E) {

    /** The value as an option, forgetting the error. */
    function ToOption(): Option<T> {
      match this
      case Ok(v) => Some(v)
      case Err(_) => None
    }
  }
}
